=== FILE: README.md ===
# TradeStars trading journal — a Dafny model of its core

TradeStars is a trading journal for day traders. A user's trades reach one
table in four ways:

- a CSV upload, parsed column by column;
- a sync from a MetaTrader 5 terminal;
- a sync through the MetaAPI cloud bridge;
- a TradingView webhook.

Over that table the backend computes dashboard and performance statistics.
It also turns a trade history into coaching "insights": suggestions on win
rate, risk, loss streaks, trading hours and symbols. The web front end
lists the trades with a search, summary figures and a pager, and colours
the insights by kind.

This project models that core in Dafny and proves properties of it.

- **Values.** Trades, deals, CSV cells, webhook bodies and insights are
  datatypes. Money is `real`; times are whole seconds (`int`).
- **Algorithms as functions.** The grouping, pairing and rule algorithms
  are functions folded over their inputs.
- **Loops as methods.** Each loop of the source is a method proved equal to
  those functions.
- **Mutable state as classes.** What the source mutates is a class:
  - the trade table (`TradeStore.Store`: its rows and the next id);
  - the MetaTrader and MetaAPI service objects;
  - the trades screen's state (`TradesPage.TradesView`).
- **Proved properties.** Counts and sums add up, rates stay within
  0..100, and the extremes are the extremes. The deal pairing is sound.
  The syncs never store a duplicate key and are idempotent. Every rule of
  the insights fires exactly when its condition holds.

The modules and the source they follow:

- `TradeModel`: the `Trade` row and its enumerations, plus the time
  arithmetic of the source.
- `Seqs`, `Text`, `Grouping`, `Tallies`, `Runs`, `Insights`: shared helpers.
  They cover filters and sums, text operations, first-appearance grouping,
  win/profit tallies, runs (streaks) and the insight record.
- `Analytics`: the analytics router.
- `AiService`, `AiInsights`: the insight service and the insights router.
- `CsvParser`: the CSV parser.
- `TradingView`, `MetaApi`, `MetaTrader`: the three integration services.
- `TradeStore`: the trades router over the trade table.
- `Integrations`: the integrations router.
- `TradesPage`: the trades screen of the front end.
- `InsightStyle`: the insight icon and colour helpers.

## Model

| member | source | states |
|---|---|---|
| TradeModel.TradeTypeOf | backend/app/models/trade.py:9-11 | lookup by value succeeds exactly for "BUY" and "SELL" |
| TradeModel.TradeTypeValues | backend/app/models/trade.py:9-11 | the enumeration has exactly the values BUY and SELL, they differ, and lookup by value inverts each member's value |
| TradeModel.MetaApiSourceOutsideEnum | backend/app/models/trade.py:14-17 | no member of the source enumeration has the value "METAAPI" that the MetaAPI sync stores |
| TradeModel.NewTrade | backend/app/models/trade.py:20-51 | a new row keeps its required columns and takes the column defaults: zero money columns, 0 minutes, source "CSV", and no exit, stop, target, close time, external id or notes |
| TradeModel.HourOf | backend/app/routers/analytics.py:114 | the hour of a time lies in 0..23 |
| TradeModel.WeekdayOf | backend/app/routers/analytics.py:251 | the weekday of a time lies in 0..6 |
| TradeModel.TruncDiv | backend/app/services/csv_parser.py:125 | `int(a / b)` truncates toward zero: for a ≥ 0 the quotient q is the largest with q·b ≤ a (so q·b ≤ a < q·b + b); for a < 0 it is the smallest with a ≤ q·b (so q·b − b < a ≤ q·b) |
| TradeModel.MinutesBetweenSign | backend/app/routers/integrations.py:156 | the duration m in whole minutes is truncated toward zero: 60m ≤ elapsed < 60m + 60 and m ≥ 0 when the close is not earlier, 60m − 60 < elapsed ≤ 60m and m ≤ 0 otherwise |
| TradeModel.ClassCounts | backend/app/routers/analytics.py:59-61 | wins and non-wins split every list; wins and strict losses together are at most all trades |
| TradeModel.ClassSums | backend/app/routers/analytics.py:63-65 | the net profit is the wins' sum plus the losses' sum |
| TradeModel.SignedSum | backend/app/routers/analytics.py:63-64 | a sum of positive profits is positive and a sum of negative ones negative, as soon as there is one |
| TradeModel.WinLossSigns | backend/app/routers/analytics.py:63-64 | the wins' sum is never negative and the losses' sum never positive, strictly so when there is one |
| TradeModel.OpenedSince | backend/app/routers/analytics.py:225-228 | the `open_time >= start` query keeps exactly the trades opened at or after the start |
| TradeModel.PercentRange | backend/app/routers/analytics.py:67 | a win rate lies in 0..100 |
| Analytics.Dashboard | backend/app/routers/analytics.py:39-96 | an empty history gives the all-zero dashboard, and the trade count is the history's length |
| Analytics.DashboardCounts | backend/app/routers/analytics.py:59-67 | wins and losses are at most all trades, the net profit is the total profit minus the total loss, and the win rate is a percentage |
| Analytics.DashboardRatios | backend/app/routers/analytics.py:68-70 | the averages are the sums over the counts and are non-negative; the profit factor is the total profit over the total loss when there is a loss, else 0 |
| Analytics.DashboardExtremes | backend/app/routers/analytics.py:91-92 | the best and worst trades are a largest and a smallest profit of the history |
| Analytics.DashboardSuggestions | backend/app/routers/analytics.py:76-78 | the daily loss is twice the average loss (100 without one); the daily gain is the average win times trades per trading day times the win rate (200 without one) |
| Analytics.Hours | backend/app/routers/analytics.py:110-111 | the prefilled keys are the hours 0..23 in order |
| Analytics.HourlyPerformance | backend/app/routers/analytics.py:109-131 | 24 rows, one per hour in order, each the tally of that hour's trades with win rate 0 when empty; counts add up to the number of trades and profits to the net profit |
| Analytics.HourlyTotals | backend/app/routers/analytics.py:109-131 | the hourly rows' counts and profits add up to the totals |
| Analytics.SymbolRows | backend/app/routers/analytics.py:154-163 | one row per key, each the tally of that symbol's trades |
| Analytics.SymbolPerformance | backend/app/routers/analytics.py:144-168 | one row per distinct symbol, sorted by descending profit, with its average profit; counts and profits add up to the totals |
| Analytics.SymbolRowsFrom | backend/app/routers/analytics.py:154-163 | the output loop yields the row of each symbol in key order |
| Analytics.SymbolTotals | backend/app/routers/analytics.py:144-166 | the symbol rows, in any order, add up to the trades' count and profit |
| Analytics.SymbolRowOfKey | backend/app/routers/analytics.py:156-162 | a symbol that occurs has at least one trade, and its average times its count is its profit |
| Analytics.SymbolOccurs | backend/app/routers/analytics.py:144-147 | every grouping key is some trade's symbol |
| Analytics.SymbolIsKey | backend/app/routers/analytics.py:144-147 | every trade's symbol is a grouping key |
| Analytics.SymbolRowsSound | backend/app/routers/analytics.py:144-166 | every row is the row of a symbol that occurs in the trades |
| Analytics.SymbolRowsComplete | backend/app/routers/analytics.py:144-166 | every symbol of the trades has a row |
| Analytics.DayTalliesOf | backend/app/routers/analytics.py:188-197 | one tally per distinct date, in order of first appearance |
| Analytics.DailyPerformance | backend/app/routers/analytics.py:172-212 | a `days` outside 7..365 is refused with 422; otherwise exactly one row for each date of the window's trades, in strictly ascending date order, each with that day's profit, trade count and win rate and the running cumulative profit, whose last value is the window's net profit |
| Analytics.DayTallies | backend/app/routers/analytics.py:188-197 | the grouping loop yields the tallies of the distinct dates |
| Analytics.Cumulate | backend/app/routers/analytics.py:199-212 | each day's row carries the cumulative profit up to and including that day |
| Analytics.DailyRowsHold | backend/app/routers/analytics.py:188-212 | sorting the tallies and accumulating them gives the rows the daily handler promises |
| Analytics.DailyTotal | backend/app/routers/analytics.py:188-212 | there are daily rows exactly when the window has trades, and the last cumulative profit is the window's net profit |
| Analytics.DayTalliesFaithful | backend/app/routers/analytics.py:188-197 | the sorted tallies are exactly the tallies of the window's dates |
| Analytics.DayTalliesDistinct | backend/app/routers/analytics.py:188-199 | however the tallies are ordered, no date appears twice and every date of the window appears |
| Analytics.WeeklyStatsOf | backend/app/routers/analytics.py:221-268 | the trades since Monday 00:00: zeros and no days when empty, otherwise the totals and the first weekday of largest and of smallest summed profit |
| Tallies.GroupProfits | backend/app/routers/analytics.py:249-254 | the dictionary of summed profit per key (the weekday name), its keys in order of first appearance |
| Tallies.ProfitStep | backend/app/routers/analytics.py:250-254 | one loop step keeps the grouping invariant: a new key is appended to the order and its sum grows by the trade's profit |
| Tallies.ProfitSnoc | backend/app/routers/analytics.py:250-254 | a key's sum grows by the profit of a trade with that key and no other |
| Analytics.Figures | backend/app/routers/analytics.py:256-257 | the weekday figures in order of first appearance |
| Analytics.ExtremesOfItems | backend/app/routers/analytics.py:256-257 | the first maximal and first minimal figures are the week's best and worst days |
| Analytics.BestNotBelowWorst | backend/app/routers/analytics.py:256-267 | the best day's profit is never below the worst day's |
| Analytics.Monthly | backend/app/routers/analytics.py:288-311 | zeros when empty; otherwise the trading days are the distinct dates and the average daily profit is the net profit over them |
| AiService.PrepareTradeSummary | backend/app/services/ai_service.py:29-110 | no trades give the empty summary; otherwise the summary of the whole history |
| AiService.HourBuckets | backend/app/services/ai_service.py:38-48 | the hour loop yields the hour buckets of the history |
| AiService.SymbolBuckets | backend/app/services/ai_service.py:50-61 | the symbol loop yields the symbol buckets of the history |
| AiService.WeekdayBuckets | backend/app/services/ai_service.py:85-92 | the weekday loop yields trades and profit per weekday name |
| AiService.Streaks | backend/app/services/ai_service.py:63-83 | the streak loop yields the longest run of wins and the longest run of non-wins |
| AiService.HourStatsSpec | backend/app/services/ai_service.py:38-48 | each hour bucket holds its hour's trades, a break-even trade counting as a loss; the hours are distinct and in 0..23, and every trade's hour has a bucket |
| AiService.HourStatsTotals | backend/app/services/ai_service.py:38-48 | the hour buckets add up to all trades and to the net profit |
| AiService.SymbolStatsSpec | backend/app/services/ai_service.py:50-61 | one bucket per distinct symbol holding its trades, wins and losses adding up to its trades, and counts and profits adding up to the totals |
| AiService.StreaksSpec | backend/app/services/ai_service.py:63-83 | the streaks are the lengths of runs that exist in opening-time order, and no run is longer |
| AiService.SummaryCounts | backend/app/services/ai_service.py:34-36 | winners and losers are disjoint, the total is the wins' sum plus the losses' sum, and the rate lies in 0..100 |
| AiService.SummaryAverages | backend/app/services/ai_service.py:100-109 | the average loss is the mean loss magnitude; the averages and the profit factor are never negative |
| AiService.SummaryExtremes | backend/app/services/ai_service.py:102-103 | the best and worst trades are the extreme profits |
| AiService.LossMagnitude | backend/app/services/ai_service.py:101 | the magnitude of the mean loss is the mean of the loss magnitudes |
| AiService.WinRateRule | backend/app/services/ai_service.py:205-220 | its insights are general and not info |
| AiService.StreakRule | backend/app/services/ai_service.py:251-258 | its insights are psychology and not info |
| AiService.HourRules | backend/app/services/ai_service.py:260-282 | its insights are timing and not info |
| AiService.SymbolRule | backend/app/services/ai_service.py:286-304 | its insights are symbol and not info |
| AiService.SymbolRules | backend/app/services/ai_service.py:284-304 | its insights are symbol and not info |
| AiService.GenerateRuleBasedInsights | backend/app/services/ai_service.py:200-317 | the empty summary fails on its missing win-rate key; otherwise the rules' insights |
| AiService.HourInsights | backend/app/services/ai_service.py:260-282 | appends exactly the hour rules' insights |
| AiService.SymbolLoop | backend/app/services/ai_service.py:284-304 | appends exactly the symbol rules' insights |
| AiService.GenerateInsights | backend/app/services/ai_service.py:112-121 | without a language-model client: no trades fail, otherwise the rules over the history's summary |
| AiService.RulesEndWithLimits | backend/app/services/ai_service.py:306-315 | the output is never empty and ends with limits of three average losses and four average wins |
| AiService.SingleInfo | backend/app/services/ai_service.py:306-315 | the suggested limits are the only info insight |
| AiService.GeneralInsights | backend/app/services/ai_service.py:205-220 | one warning below a 50% win rate, one success above 60%, nothing in between |
| AiService.RiskInsights | backend/app/services/ai_service.py:222-248 | the risk insights are one danger about the averages exactly when the average loss exceeds 1.5 average wins, then one danger exactly when the profit factor is below 1 or one success exactly when it is above 2, then the suggested limits of 3 average losses and 4 average wins, and nothing else |
| AiService.RiskShape | backend/app/services/ai_service.py:222-248 | the average-loss rule, the profit-factor rule and the suggested limits, in that order, have that layout |
| AiService.RiskParts | backend/app/services/ai_service.py:222-248 | the risk insights are exactly the average-loss rule's, the profit-factor rule's and the suggested limits, in source order |
| AiService.PsychologyInsights | backend/app/services/ai_service.py:251-258 | one warning exactly when the longest loss streak reaches 4 |
| AiService.TimingInsights | backend/app/services/ai_service.py:260-282 | a success naming a most profitable hour exactly when some hour made money, and a warning naming a least profitable hour exactly when some hour lost money; each insight carries the hour and profit of one of the hourly buckets |
| AiService.HourRulesSpec | backend/app/services/ai_service.py:262-282 | the best-hour insight fires exactly for a positive maximum, the worst-hour one exactly for a negative minimum, each naming the hour and profit of a bucket |
| AiService.SymbolInsights | backend/app/services/ai_service.py:284-304 | one insight per flagged symbol in order: danger below 35%, success above 65%, never with fewer than 5 trades |
| AiService.SymbolRulesSpec | backend/app/services/ai_service.py:286-304 | the symbol loop emits one insight per flagged bucket, of the right kind |
| AiService.WinRateVerdict | backend/app/services/ai_service.py:205 | the win-rate warning fires exactly when fewer than half the trades are wins |
| AiService.ProfitFactorVerdict | backend/app/services/ai_service.py:233 | the profit-factor danger fires exactly when there is no loss (factor 0) or the net profit is negative |
| AiService.FactorBelowOne | backend/app/services/ai_service.py:109 | the factor is below 1 exactly without losses or with a negative net |
| AiInsights.GetAiInsights | backend/app/routers/ai_insights.py:27-55 | no trades give no data; fewer than 10 give a single "more data" notice; otherwise the service's insights with the count and the clock reading |
| AiInsights.QuickHourRules | backend/app/routers/ai_insights.py:88-108 | its insights are timing and not info |
| AiInsights.QuickSymbolRule | backend/app/routers/ai_insights.py:121-139 | its insights are symbol and not info |
| AiInsights.QuickSymbolRules | backend/app/routers/ai_insights.py:121-139 | its insights are symbol and not info |
| AiInsights.StreakPart | backend/app/routers/ai_insights.py:151-158 | its insights are psychology and not info |
| AiInsights.WinRatePart | backend/app/routers/ai_insights.py:165-172 | its insights are general and not info |
| AiInsights.RiskPart | backend/app/routers/ai_insights.py:179-189 | its insights are risk and not info |
| AiInsights.QuickAnalysis | backend/app/routers/ai_insights.py:69-204 | no trades give a message and no insights; otherwise the insights and their count |
| AiInsights.StreakInsight | backend/app/routers/ai_insights.py:151-158 | appends exactly the streak rule's insight |
| AiInsights.WinRateInsight | backend/app/routers/ai_insights.py:165-172 | appends exactly the win-rate rule's insight |
| AiInsights.RiskInsight | backend/app/routers/ai_insights.py:179-189 | appends exactly the risk rule's insight |
| AiInsights.QuickHourInsights | backend/app/routers/ai_insights.py:88-108 | appends exactly the hour rules' insights |
| AiInsights.QuickSymbolLoop | backend/app/routers/ai_insights.py:121-139 | appends exactly the symbol rules' insights |
| AiInsights.LossStreak | backend/app/routers/ai_insights.py:142-149 | the loop yields the longest run of strict losses in opening-time order |
| AiInsights.QuickEndsWithManagement | backend/app/routers/ai_insights.py:191-204 | the analysis ends with limits of two average losses and three average wins, the only info insight, and the count is the number of insights |
| AiInsights.QuickSingleInfo | backend/app/routers/ai_insights.py:191-198 | the management limits are the only info insight |
| AiInsights.QuickRiskInsights | backend/app/routers/ai_insights.py:175-189 | one danger exactly when the average loss exceeds 1.5 average wins |
| AiInsights.QuickGeneralInsights | backend/app/routers/ai_insights.py:160-172 | one warning exactly below a 50% win rate, no praise for a high one |
| AiInsights.QuickPsychologyInsights | backend/app/routers/ai_insights.py:142-158 | one warning exactly when the loss streak reaches 3 |
| AiInsights.QuickTimingInsights | backend/app/routers/ai_insights.py:88-108 | a success for a profitable best hour and a warning for a losing worst hour, each exactly then, naming the hour and profit of a bucket |
| AiInsights.QuickHourRulesSpec | backend/app/routers/ai_insights.py:88-108 | the best-hour insight fires exactly for a positive maximum, the worst-hour one exactly for a negative minimum, each naming the hour and profit of a bucket |
| AiInsights.QuickSymbolInsights | backend/app/routers/ai_insights.py:121-139 | one insight per flagged symbol in order: danger below 40%, success above 70%, never with fewer than 5 trades |
| AiInsights.QuickSymbolRulesSpec | backend/app/routers/ai_insights.py:121-139 | the symbol loop emits one insight per flagged bucket, of the right kind |
| AiInsights.QuickAverages | backend/app/routers/ai_insights.py:175-177 | the averages never divide by zero, are non-negative and equal the insight service's averages |
| AiInsights.QuickStreakSpec | backend/app/routers/ai_insights.py:142-149 | the loss streak is the length of an existing run of losses and no run is longer |
| AiInsights.StreakDefinitions | backend/app/routers/ai_insights.py:144-149 | the quick streak never exceeds the service's, which counts break-even trades as losses; one break-even trade is a streak of 1 for the service and 0 here |
| CsvParser.NormalizeNameSpec | backend/app/services/csv_parser.py:24 | normalising a header name gives a normalised name, so normalising twice equals normalising once |
| CsvParser.NormalizedResult | backend/app/services/csv_parser.py:24 | the result has no upper-case letter and no space, and neither starts nor ends with white space |
| CsvParser.NormalizedIdentity | backend/app/services/csv_parser.py:24 | normalisation leaves a normalised name unchanged |
| CsvParser.FieldOrderSpec | backend/app/services/csv_parser.py:27-42 | every field is visited, and each field's own key is its first alias |
| CsvParser.FindColumn | backend/app/services/csv_parser.py:45-49 | the first alias in list order that is a column, or none when no alias is a column |
| CsvParser.MapFieldsSpec | backend/app/services/csv_parser.py:51-55 | a visited field is mapped exactly when an alias is a column, to the first such alias; nothing else is mapped |
| CsvParser.MappingSpec | backend/app/services/csv_parser.py:51-55 | every field is mapped exactly when one of its aliases is a column |
| CsvParser.BuildMapping | backend/app/services/csv_parser.py:51-55 | the loop builds the mapping of the header |
| CsvParser.FirstNumeric | backend/app/services/csv_parser.py:63-66 | the first column typed as a number |
| CsvParser.RequireColumns | backend/app/services/csv_parser.py:57-68 | no symbol column fails; no profit column falls back to the first numeric column, and fails without one |
| CsvParser.Lookup | backend/app/services/csv_parser.py:78-79 | for a row with one cell per column, a cell exactly when the name is a column |
| CsvParser.TruncReal | backend/app/services/csv_parser.py:123 | `int` of a float truncates toward zero |
| CsvParser.FirstParse | backend/app/services/csv_parser.py:98-103 | the time of the first format that parses, none when none does |
| CsvParser.KeepConverted | backend/app/services/csv_parser.py:72-154 | the rows that convert give their trades, in order |
| CsvParser.RowTrades | backend/app/services/csv_parser.py:149-154 | a converted row gives its trade, a failed one nothing |
| CsvParser.KeepConvertedSnoc | backend/app/services/csv_parser.py:149-154 | one more row appends its trade or nothing |
| CsvParser.ParseRowsAsWritten | backend/app/services/csv_parser.py:105-118 | as written, rows read before any dated row see the date formats unbound |
| CsvParser.ParseCsvTrades | backend/app/services/csv_parser.py:7-159 | the header is normalised and mapped, the required columns checked, each row converted or skipped; a file with no convertible row fails |
| CsvParser.ConvertRows | backend/app/services/csv_parser.py:72-154 | the row loop keeps the trades of the rows that convert, in order |
| CsvParser.RowTypeSpec | backend/app/services/csv_parser.py:127-132 | the type is SELL exactly when the upper-cased text contains an S or VENDA, BUY otherwise and without a type column |
| CsvParser.ParseRowFields | backend/app/services/csv_parser.py:134-147 | a converted row's symbol is stripped and upper-cased, its type is the row's type and its source is CSV; an unmapped, zero or blank volume is 1 under the corrected cell conversion (the code as written gives NaN for a blank cell, see Findings); without an exit-price column or value there is no exit price |
| CsvParser.RowDurationSpec | backend/app/services/csv_parser.py:120-125 | the duration cell when present, else the minutes between open and close truncated toward zero (within one minute of the elapsed seconds, on the side away from zero), else 0 |
| CsvParser.KeepConvertedConcat | backend/app/services/csv_parser.py:72-154 | two batches of rows convert independently; a bad row leaves the rest untouched |
| CsvParser.KeepConvertedSingle | backend/app/services/csv_parser.py:149-154 | a single row gives its trade or nothing |
| CsvParser.KeepConvertedOrigin | backend/app/services/csv_parser.py:72-154 | every trade comes from a converting row, and none is lost when all convert |
| CsvParser.ParseCsvErrors | backend/app/services/csv_parser.py:57-68 | no symbol column, or no convertible row, gives no trades |
| CsvParser.BlankCellIsNaN | backend/app/services/csv_parser.py:137-142 | as written a blank numeric cell gives NaN, whatever the default; the corrected conversion gives the default, and the two agree on every other cell |
| CsvParser.CloseOnlyAliases | backend/app/services/csv_parser.py:27-42 | in the close-date example only the symbol, profit and close-date fields find a column |
| CsvParser.MappingFrom | backend/app/services/csv_parser.py:51-55 | a header maps exactly the fields whose aliases it finds |
| CsvParser.CloseOnlyMapping | backend/app/services/csv_parser.py:51-55 | the mapping of the close-date example header |
| CsvParser.UnboundFormats | backend/app/services/csv_parser.py:105-118 | as written, a close date read before any dated row is an unbound-name error and its row is skipped |
| CsvParser.CloseDateWithoutDate | backend/app/services/csv_parser.py:105-118 | as written, a file with a close date and no date column yields no trade |
| CsvParser.CloseDateConverts | backend/app/services/csv_parser.py:105-118 | with the formats bound, that file's row converts |
| CsvParser.CloseOnlyFields | backend/app/services/csv_parser.py:134-147 | the cells the example row gives each field |
| TradingView.VerifyWebhook | backend/app/services/tradingview_service.py:21-36 | without a secret every payload is accepted; with one, the signature comparison decides |
| TradingView.NormalizeTypeSpec | backend/app/services/tradingview_service.py:52-57 | BUY exactly for the long synonyms, SELL exactly for the short ones, the upper-cased text otherwise; normalising twice changes nothing |
| TradingView.SymbolSpec | backend/app/services/tradingview_service.py:59-65 | the symbol is the upper-cased text after the last ':'; it has no ':' or lower-case letter, so re-normalising keeps it |
| TradingView.ParseWebhookDefaults | backend/app/services/tradingview_service.py:64-71 | an empty body gives UNKNOWN, BUY, price 0, volume 1, an empty message and a timestamp id |
| TradingView.ReparseWebhook | backend/app/services/tradingview_service.py:38-71 | parsing a parsed signal again gives the same signal |
| TradingView.OpenFrom | backend/app/services/tradingview_service.py:135-145 | an entry row opens BUY when its type mentions long, SELL otherwise, with default price 0 and 1 contract |
| TradingView.CloseWith | backend/app/services/tradingview_service.py:147-156 | the trade is the position with the exit row's price, time and profit (0 by default) |
| TradingView.ParseStrategyReport | backend/app/services/tradingview_service.py:129-158 | the row loop yields the trades of the pairing replay |
| TradingView.ReplaySnoc | backend/app/services/tradingview_service.py:132-156 | one more row is one replay step |
| TradingView.ReplayCounts | backend/app/services/tradingview_service.py:132-156 | the trades are no more than the exit rows, and trades plus open positions no more than the entry rows |
| TradingView.ReplaySound | backend/app/services/tradingview_service.py:132-156 | every open position came from an entry row, and every trade is an entry's position closed by a later exit with the same key |
| TradingView.UnmatchedExit | backend/app/services/tradingview_service.py:151 | an exit whose key no entry used adds nothing |
| TradingView.EntryThenExit | backend/app/services/tradingview_service.py:135-156 | an entry then an exit with the same number add exactly one trade and leave nothing open under it |
| TradingView.ReplayPrefix | backend/app/services/tradingview_service.py:132-156 | later rows only append trades |
| MetaApi.ConnectionReply | backend/app/services/metaapi_service.py:55-100 | success with the account's fields on 200; a message naming the cause otherwise |
| MetaApi.OpenFrom | backend/app/services/metaapi_service.py:186-195 | an opening deal records BUY for a buy deal, SELL for a sell deal, commission 0 by default |
| MetaApi.ExpandZulu | backend/app/services/metaapi_service.py:207-208 | no 'Z' is left, and a text without one is unchanged |
| MetaApi.CloseWith | backend/app/services/metaapi_service.py:196-211 | the trade is the position with the deal's price and time, default profit and swap 0, and both commissions added |
| MetaApi.ProcessDeals | backend/app/services/metaapi_service.py:170-215 | the loop yields the trades of the pairing replay |
| MetaApi.HistoryReply | backend/app/services/metaapi_service.py:144-168 | on 200 the paired trades with the numbers of deals and trades; otherwise a message and no trades |
| MetaApi.MetaApiService.constructor | backend/app/services/metaapi_service.py:31-34 | the credentials are kept and no client is open |
| MetaApi.MetaApiService.TestConnection | backend/app/services/metaapi_service.py:47-100 | blank credentials answer at once and open no client; otherwise the client is opened and the reply shaped |
| MetaApi.MetaApiService.GetHistory | backend/app/services/metaapi_service.py:128-168 | opens the client and shapes the reply, pairing the deals of a successful one |
| MetaApi.MetaApiService.Close | backend/app/services/metaapi_service.py:217-221 | the client is closed |
| MetaApi.ReplaySnoc | backend/app/services/metaapi_service.py:179-211 | one more deal is one replay step |
| MetaApi.SkipOtherDeal | backend/app/services/metaapi_service.py:179-181 | a deposit, withdrawal or unknown deal changes nothing |
| MetaApi.OpeningRecords | backend/app/services/metaapi_service.py:186-195 | an opening deal records its position and emits nothing |
| MetaApi.ReplayCounts | backend/app/services/metaapi_service.py:179-211 | trades are no more than closing deals; trades plus open positions no more than opening deals |
| MetaApi.ReplaySound | backend/app/services/metaapi_service.py:179-211 | every trade is an opening deal's position completed by a later closing deal of it; an unclosed position yields nothing |
| MetaApi.UnmatchedClose | backend/app/services/metaapi_service.py:196 | a close of an unknown position adds nothing |
| MetaApi.OpenThenClose | backend/app/services/metaapi_service.py:186-211 | open then close add exactly one trade and close the position; a second close adds nothing |
| MetaApi.ReplayPrefix | backend/app/services/metaapi_service.py:179-211 | trades come out in the order of their closing deals |
| MetaApi.DurationSpec | backend/app/services/metaapi_service.py:205-211 | the duration is the truncated minutes between parsed times, 0 when a time is missing or does not parse |
| MetaTrader.NotWindowsReply | backend/app/services/metatrader_service.py:27-38 | off Windows: failure with the platform named |
| MetaTrader.LibraryReply | backend/app/services/metatrader_service.py:40-91 | success exactly after a login whose account is read; a mock reply only without the library |
| MetaTrader.ViewOf | backend/app/services/metatrader_service.py:255-270 | an open position as listed, BUY for kind 0 |
| MetaTrader.OpenRecord | backend/app/services/metatrader_service.py:163-174 | an entry deal's record: its ticket, symbol, volume, price, time and commission, BUY for kind 0, SELL for kind 1 |
| MetaTrader.Step | backend/app/services/metatrader_service.py:160-181 | an entry files a fresh record; an exit of a filed position rewrites its closing fields and appends it; any other deal changes nothing |
| MetaTrader.Replay | backend/app/services/metatrader_service.py:160-181 | every position filed in the ledger, and every appended entry, points at one of its records |
| MetaTrader.Emitted | backend/app/services/metatrader_service.py:183 | the appended records as they stand at the end |
| MetaTrader.CollectTrades | backend/app/services/metatrader_service.py:157-183 | the loop yields the paired trades |
| MetaTrader.MetaTraderService.constructor | backend/app/services/metatrader_service.py:14-16 | not connected and no library loaded |
| MetaTrader.MetaTraderService.Connect | backend/app/services/metatrader_service.py:18-91 | off Windows nothing changes; a loaded library is kept, and only a successful login connects |
| MetaTrader.MetaTraderService.Disconnect | backend/app/services/metatrader_service.py:93-97 | the flag is cleared |
| MetaTrader.MetaTraderService.IsConnected | backend/app/services/metatrader_service.py:99-101 | the connected flag |
| MetaTrader.MetaTraderService.GetAccountInfo | backend/app/services/metatrader_service.py:103-137 | {} when not connected; the terminal's figures, or the demonstration account |
| MetaTrader.MetaTraderService.GetOpenPositions | backend/app/services/metatrader_service.py:247-273 | [] when not connected; otherwise one view per position, in order |
| MetaTrader.MetaTraderService.GetHistory | backend/app/services/metatrader_service.py:139-189 | the demonstration history without the library; [] without a deal list; the paired trades otherwise |
| MetaTrader.ReplaySnoc | backend/app/services/metatrader_service.py:160-181 | one more deal is one step |
| MetaTrader.SkipOtherDeal | backend/app/services/metatrader_service.py:160-181 | a deal that is neither a buy/sell entry nor an exit changes nothing |
| MetaTrader.EntryRecords | backend/app/services/metatrader_service.py:163-174 | an entry files its own record and leaves the result unchanged |
| MetaTrader.ExitEmits | backend/app/services/metatrader_service.py:175-181 | an exit of a filed position appends its record with the exit's fields |
| MetaTrader.FiledByEntry | backend/app/services/metatrader_service.py:163-174 | only entry deals file positions |
| MetaTrader.UnknownExit | backend/app/services/metatrader_service.py:175 | an exit of an unopened position is ignored |
| MetaTrader.SecondExit | backend/app/services/metatrader_service.py:175-181 | the position stays filed, so a second exit appends the shared record again, and both entries show the second exit |
| MetaTrader.ReplayCounts | backend/app/services/metatrader_service.py:160-183 | every emitted record carries exit fields, and there are no more trades than exit deals |
| MetaTrader.ReplayTraced | backend/app/services/metatrader_service.py:160-181 | every record in the ledger is traced to its entry deal |
| MetaTrader.PairedSound | backend/app/services/metatrader_service.py:160-183 | every trade is an entry deal's record closed by a later exit of the same position |
| TradeStore.Window | backend/app/routers/trades.py:37 | the offset/limit slice: its length and its elements |
| TradeStore.FromCsv | backend/app/routers/trades.py:88 | the row made of a parsed CSV trade keeps its fields and has no stop, target, pips, external id or notes |
| TradeStore.IndexOf | backend/app/routers/trades.py:126-128 | the position of the user's row with the id, none exactly when there is no such row |
| TradeStore.FilterKeepsIds | backend/app/routers/trades.py:153-154 | removing rows keeps the ids increasing and bounded |
| TradeStore.Store.constructor | backend/app/routers/trades.py:28 | an empty, valid table |
| TradeStore.Store.Insert | backend/app/routers/trades.py:89 | the row is stored last under the next id |
| TradeStore.Store.Owned | backend/app/routers/trades.py:43-45 | the user's rows |
| TradeStore.Store.Listing | backend/app/routers/trades.py:28-52 | the page is the `skip`/`limit` window of a newest-first ordering of the user's rows that pass the symbol and date filters: only such rows, none more often than stored, as many as the window spans; the total counts all the user's rows |
| TradeStore.NewestPage | backend/app/routers/trades.py:37 | a window of the trades sorted newest first is a window of a newest-first ordering of them, holds each trade no more often than the list and has the window's length |
| TradeStore.SortedNewest | backend/app/routers/trades.py:37 | sorting by descending open time lists the same trades newest first |
| TradeStore.WindowWithin | backend/app/routers/trades.py:37 | an offset/limit slice holds each element no more often than the whole list |
| TradeStore.Store.Find | backend/app/routers/trades.py:109-116 | the user's row with the id exactly when one exists; 404 otherwise |
| TradeStore.Store.CreateTrade | backend/app/routers/trades.py:62-69 | the posted fields stored for the user under the next id |
| TradeStore.Store.DeleteTrade | backend/app/routers/trades.py:126-136 | 404 and no change exactly without such a row; otherwise exactly that row is removed |
| TradeStore.RemoveKeepsIds | backend/app/routers/trades.py:126-136 | removing one row keeps the ids increasing and in range, and no remaining row has the removed id |
| TradeStore.Store.DeleteAll | backend/app/routers/trades.py:146-158 | 400 without confirmation; otherwise the user's rows are removed, their number reported, other rows kept in order |
| TradeStore.Store.ReadUpload | backend/app/routers/trades.py:83-84 | the read error, or the parser's answer |
| TradeStore.Store.InsertAll | backend/app/routers/trades.py:86-90 | each parsed trade stored for the user, in order, under consecutive ids |
| TradeStore.Store.UploadCsv | backend/app/routers/trades.py:79-99 | a non-.csv name is refused; a parse error is 400 with its message and no change; otherwise every trade is stored and counted |
| Integrations.ImportKeyed | backend/app/routers/integrations.py:126-161 | the dedup-and-insert loop leaves the table and counts the keyed fold gives |
| Integrations.OfferAllShape | backend/app/routers/integrations.py:126-161 | earlier rows kept, one row per import under consecutive ids, each candidate counted at most once, exactly once when every row builds |
| Integrations.OfferAllSound | backend/app/routers/integrations.py:144-159 | every stored row is a candidate's row under the next id |
| Integrations.OfferAllKeys | backend/app/routers/integrations.py:131-159 | afterwards every buildable candidate's key is stored, and no stored key is lost |
| Integrations.KeyedGrows | backend/app/routers/integrations.py:131-142 | a key stays stored when rows are appended |
| Integrations.OfferAllSettled | backend/app/routers/integrations.py:131-142 | with every key stored, the loop stores nothing |
| Integrations.SyncTwice | backend/app/routers/integrations.py:126-161 | a second run imports nothing and leaves the table as it was |
| Integrations.OfferAllUnique | backend/app/routers/integrations.py:131-159 | no second row is ever stored under a key of the user and source |
| Integrations.Mt5Row | backend/app/routers/integrations.py:144-159 | the row keeps the position's fields, the duration in truncated minutes, source METATRADER and the ticket as external id |
| Integrations.Mt5Fetched | backend/app/routers/integrations.py:115-116 | the history's trades, each with its exit's fields |
| Integrations.Mt5Candidates | backend/app/routers/integrations.py:126-144 | one candidate per trade, keyed by its ticket |
| Integrations.Mt5CandidatesKeyed | backend/app/routers/integrations.py:131-159 | each candidate's row carries its own key, and every row builds |
| Integrations.SyncMt5 | backend/app/routers/integrations.py:76-174 | off Windows the alternatives and no change; a failed login or empty history give zero counts and no change; otherwise the keyed import |
| Integrations.Mt5SyncCounts | backend/app/routers/integrations.py:126-171 | each fetched trade counts once as imported or skipped; a second sync imports nothing; tickets stay unique |
| Integrations.ConnectMt5 | backend/app/routers/integrations.py:24-63 | the status mapped from a fresh service's reply |
| Integrations.ConnectMt5Cases | backend/app/routers/integrations.py:40-61 | linked exactly after a login on Windows, with its account; a mock status exactly off Windows or without the library |
| Integrations.MetaRow | backend/app/routers/integrations.py:279-299 | a row exactly when building it does not raise, with the trade's fields, parsed times, duration, source METAAPI and its key |
| Integrations.MetaCandidates | backend/app/routers/integrations.py:259-299 | one candidate per trade, keyed by symbol and open time |
| Integrations.SyncMetaApi | backend/app/routers/integrations.py:209-317 | a failed test or history answers its message with no change; an empty history answers success; otherwise the keyed import |
| Integrations.MetaCandidatesKeyed | backend/app/routers/integrations.py:262-299 | each candidate's row carries its own key |
| Integrations.MetaApiSyncCounts | backend/app/routers/integrations.py:224-317 | blank credentials fail before any request; counts never exceed the trades; a second sync imports nothing; keys stay unique |
| Integrations.WebhookRow | backend/app/routers/integrations.py:345-356 | the price as entry, profit 0, opened now, source TRADINGVIEW, the id and message as sent |
| Integrations.WebhookMatchesParse | backend/app/routers/integrations.py:342-356 | the row carries exactly the symbol, type, price and volume the parser makes |
| Integrations.ReceiveWebhook | backend/app/routers/integrations.py:335-368 | a null volume is 400 with no change; otherwise exactly one row appended and its id reported |
| TradesPage.SearchSpec | frontend/src/components/TradesPage.tsx:83-85 | the search keeps exactly the trades whose symbol contains the term ignoring case; an empty term keeps all |
| TradesPage.StatsSpec | frontend/src/components/TradesPage.tsx:91-97 | wins plus losses at most the total; profit is the wins' plus the losses' sums; the win rate lies in 0..100 and is 0 when empty |
| TradesPage.KeysAreSymbols | frontend/src/components/TradesPage.tsx:87 | every listed symbol is some trade's symbol |
| TradesPage.UniqueSymbolsSpec | frontend/src/components/TradesPage.tsx:87 | no duplicates, every trade's symbol listed, nothing else |
| TradesPage.TotalPagesSpec | frontend/src/components/TradesPage.tsx:88 | the page count is the ceiling of the trades over 15 |
| TradesPage.PageButtonsSpec | frontend/src/components/TradesPage.tsx:363-372 | min(5, pages) consecutive buttons within 1..pages, including the current page |
| TradesPage.PagerSpec | frontend/src/components/TradesPage.tsx:354-392 | both buttons stay within the pages; no previous on the first, no next on the last |
| TradesPage.ShowingSpec | frontend/src/components/TradesPage.tsx:351 | the showing line names a non-empty range within the total, as long as the listing's page |
| TradesPage.WithoutIdSpec | frontend/src/components/TradesPage.tsx:77 | deleting removes exactly the trades with that id and keeps the others |
| TradesPage.TradesView.constructor | frontend/src/components/TradesPage.tsx:41-46 | the fixture list, page 1, its length as total |
| TradesPage.TradesView.Fetched | frontend/src/components/TradesPage.tsx:53-70 | a non-empty answer replaces the list and total; an empty one keeps them |
| TradesPage.TradesView.HandleDelete | frontend/src/components/TradesPage.tsx:72-81 | once confirmed and deleted, the trade leaves the list; otherwise nothing changes |
| TradesPage.TradesView.Previous | frontend/src/components/TradesPage.tsx:355 | moves to the previous page, never below 1 |
| TradesPage.TradesView.Next | frontend/src/components/TradesPage.tsx:391 | moves to the next page, never past the last |
| TradesPage.TradesView.Select | frontend/src/components/TradesPage.tsx:376 | moves to the chosen page |
| InsightStyle.InsightIconSpec | frontend/src/lib/utils.ts:43-56 | the four kinds have distinct icons, every other kind the default, distinct from the four |
| InsightStyle.InsightColorSpec | frontend/src/lib/utils.ts:58-71 | the four kinds have distinct colours, every other kind the default, distinct from the four |
| InsightStyle.KindStyles | frontend/src/lib/utils.ts:43-71 | distinct insight kinds get distinct icons and colours, never the defaults |

## Left out

- The language-model client of the insight service. Insights always come from the rule-based fallback, and the chat endpoints are not part of this model.
- HTTP, the database session and SQL are not modelled. Each handler works on a `TradeStore.Store`, and the order of equal opening times in the listing is not fixed.
- Query validation (`skip >= 0`, `1 <= limit <= 100`) is a precondition of `TradeStore.Store.Listing`.
- The MetaTrader 5 terminal library and the MetaAPI REST bridge are not modelled. What they return (login outcome, account, deals, HTTP status and body) is passed in as parameters.
- The random demonstration history (`_generate_mock_history`) is a parameter.
- Reading the CSV file is not modelled: pandas reading, encoding fallback and type inference are replaced by a `Frame` of typed cells. `strptime`, `fromisoformat` and `datetime.now()` are a parser library and a `now` parameter.
- Time zones are not modelled. Times are seconds, and naive and aware times are not distinguished.
- `round(x, 2)` in every response is not modelled: the figures are exact.
- Floating-point arithmetic is modelled as real arithmetic, with NaN only where a finding needs it.
- TradingView.VerifyWebhook: the HMAC computation is not modelled; whether the signature matches is passed in.
- Three date filters are not modelled: the `days` window of both syncs, the dashboard's optional `start_date`/`end_date` filter (backend/app/routers/analytics.py:31-34) and the monthly statistics' `start_of_month` filter (backend/app/routers/analytics.py:278-283). Those handlers receive the trades already fetched for their window. The daily-performance window (`Analytics.DailyPerformance`) and the weekly window from Monday (`Analytics.WeeklyStatsOf`) are modelled.
- The MetaAPI account-info route, the setup instructions, `mt5_status`, the MT5 tutorial text, and the TradingView setup and import-CSV information routes are not modelled. They return fixed documentation.
- Integrations.MetaRow: a null required MetaAPI field (symbol, volume or entry price) is modelled as a row that fails to build, is skipped, and leaves the other trades imported. In the source the row is added, and with autoflush the IntegrityError comes at the next loop query's flush, where it is caught (backend/app/routers/integrations.py:303). Every later query and the final `db.commit()` (l.307, outside the `try`) then fail on the rolled-back session, so the sync answers 500 and stores nothing. That failure is not modelled.
- Integrations.SyncMt5: the early returns after a failed login or an empty history never call `disconnect`. The service object is local and discarded, so no state is kept.
- Integrations.ReceiveWebhook: the exact text of Python's error for `float(None)` is a constant of this model.
- Integrations.WebhookMatchesParse: in the source the message and id defaults of `parse_webhook` are never stored. The router passes `webhook.dict()`, which always holds `message` and `id` (both `None` by default, backend/app/schemas/integrations.py:24-25), so `data.get("id", ...)` returns that `None` rather than the default (backend/app/services/tradingview_service.py:69-70). The model stores the id and message as sent.
- The HTTP 500 wrappers around unexpected exceptions are not modelled.
- React rendering, the loading flag, the confirm dialog and the axios calls are not modelled. Their outcomes are parameters of `TradesPage.TradesView`.
- The random fixture list is a constructor parameter.
- CsvParser.ParseCsvTrades: the whole pipeline, with CsvParser.RowCells, CsvParser.ParseCsv and TradeStore.Store.UploadCsv, uses the corrected cell conversion and the corrected close-date conversion of the two findings, not the code as written. The as-written behaviour is stated only by CsvParser.CellFloatAsWritten and CsvParser.ParseRowsAsWritten.
- CsvParser.ParseRowFields: states the corrected conversion, in which a blank cell takes the default. The code as written gives NaN there.
- Text.Upper, Text.Lower and Text.Strip map case and strip whitespace for ASCII only. Python's `str.upper()`/`str.strip()` and JavaScript's `toUpperCase()`/`trim()` are Unicode-aware: `"ß".upper()` is `"SS"`, and a non-breaking space is stripped. Those inputs are not modelled.
- Analytics.Dashboard: `average_duration=round(avg_duration)` (backend/app/routers/analytics.py:93) rounds the mean duration to an integer. The model keeps the exact mean.
- Analytics.SymbolPerformance: the order of symbols with equal profit, which Python's stable sort keeps from the grouping order, is not stated.
- Seqs.SortBy: its contract states a sorted permutation but not stability. The order of equal keys is left open, here and in TradeStore.Store.Listing.
- MetaApi.CloseWith: a deal field that is JSON `null` is read as absent and takes its default. In the source `deal.get("commission", 0)` returns `None` for a present `null`, so adding the commissions of an opening and a closing deal raises TypeError (backend/app/services/metaapi_service.py:203). That exception fails the whole `get_history` call with `success` false, the message and no trades (l.163-168); this path is not modelled. A `null` profit or swap likewise stays `None` in the source's trade, where the model has 0.
- TradingView.ParseWebhook: the payload holds an optional value per key, so a JSON `null` is read as an absent key and takes the default. In the source `dict.get` returns `None` for a present `null`: the type becomes `"NONE"`, the symbol `"None"`, the message and id `None`, and `float(None)` raises for the price or volume. That path is not modelled.
- MetaTrader.MetaTraderService.GetHistory: when the terminal library raises an exception, the source falls back to the mock history. Exceptions from the library are not modelled, so that path is not covered.
- The declared string-column widths of the trade table (`String(50)` and so on) are not modelled.

## Findings

| source | as written | input that shows it | evidently intended | confidence | as-written member | corrected member |
|---|---|---|---|---|---|---|
| backend/app/services/csv_parser.py:137-142 | `float(cell or default)` on a blank volume, entry-price, profit, commission or swap cell: pandas reads it as NaN, which is truthy, so the field becomes NaN instead of its default | a row whose volume cell (or entry-price, profit, commission or swap cell) is empty | a blank cell takes the default: 1 for the volume, 0 for the others | not executed | CsvParser.CellFloatAsWritten, CsvParser.BlankCellIsNaN | CsvParser.CellFloat, CsvParser.BlankCellIsNaN |
| backend/app/services/csv_parser.py:83-118 | `date_formats` is bound only inside the `date` branch, so reading a close date before any dated row raises an unbound-name error and the row is skipped | header `symbol,profit,close_date` with the row `WINZ24,150,2024-01-15` | close dates parse with the same formats whether or not a date column exists | not executed | CsvParser.ParseRowsAsWritten, CsvParser.CloseDateWithoutDate | CsvParser.ParseRows, CsvParser.CloseDateConverts |

=== FILE: ai_insights.dfy ===
/** backend/app/routers/ai_insights.py: the insights endpoint, which gates
    the insight service on the size of the history, and the quick
    analysis, a second rule engine with its own thresholds. The quick
    analysis counts a break-even trade as a loss in its hour buckets but
    not in its loss streak, which only grows on profits below zero. */
module AiInsights {
  import opened Wrappers
  import opened Seqs
  import opened Grouping
  import opened Runs
  import opened TradeModel
  import opened Insights
  import opened AiService

  // ------------------------------------------------------ the endpoint

  const NoTradesMessage: string := "Você ainda não tem trades registrados. Importe seus dados para receber insights!"
  const FewTradesMessage: string := "Você tem poucos trades. Continue operando e importe mais dados para insights mais precisos."

  /** The response of the insights endpoint; the keys a branch does not
      send are None. */
  datatype InsightsReply = InsightsReply(
    hasData: bool, message: Option<string>, tradesAnalyzed: Option<nat>, generatedAt: Option<int>,
    insights: seq<Insight>)

  /** The notice for a short history: an info insight without a category
      that reports how many trades there are. */
  function MoreDataNeeded(n: nat): Insight
  {
    Insight(Info, None, "📊 Mais dados necessários", CountDetail(n))
  }

  /** `get_ai_insights` for the trades of one user, with the clock reading
      `now` as a parameter: no data without trades, a single notice below
      10 trades, and otherwise the insight service's output. */
  method GetAiInsights(trades: seq<Trade>, now: int) returns (reply: InsightsReply)
    ensures trades == [] ==> reply == InsightsReply(false, Some(NoTradesMessage), None, None, [])
    ensures 0 < |trades| < 10 ==>
      reply == InsightsReply(true, Some(FewTradesMessage), None, None, [MoreDataNeeded(|trades|)])
    ensures |trades| >= 10 ==>
      reply == InsightsReply(true, None, Some(|trades|), Some(now), RuleBasedInsights(SummaryOf(trades)))
  {
    if trades == [] {
      return InsightsReply(false, Some(NoTradesMessage), None, None, []);
    }
    if |trades| < 10 {
      return InsightsReply(true, Some(FewTradesMessage), None, None, [MoreDataNeeded(|trades|)]);
    }
    var r := GenerateInsights(trades);
    reply := InsightsReply(true, None, Some(|trades|), Some(now), r.value);
  }

  // -------------------------------------------------- the quick analysis

  /** The response of the quick analysis. */
  datatype QuickReply =
    | NothingToAnalyse(insights: seq<Insight>, message: string)
    | Report(tradesAnalyzed: nat, insightsCount: nat, insights: seq<Insight>)

  function BestHourNotice(h: HourStat): Insight
  {
    Insight(Success, Some("timing"), "⏰ Melhor Horário", HourDetail(h.hour, h.profit))
  }

  function TroubleHourNotice(h: HourStat): Insight
  {
    Insight(Warning, Some("timing"), "⚠️ Horário Problemático", HourDetail(h.hour, h.profit))
  }

  function LowSymbolRate(st: SymbolStat, rate: real): Insight
  {
    Insight(Danger, Some("symbol"), "🚨 Baixo Win Rate em " + st.symbol, SymbolDetail(st.symbol, rate, st.wins, st.trades, st.profit))
  }

  function StrongSymbol(st: SymbolStat, rate: real): Insight
  {
    Insight(Success, Some("symbol"), "🌟 Excelente em " + st.symbol, SymbolDetail(st.symbol, rate, st.wins, st.trades, st.profit))
  }

  function LossSequence(streak: nat): Insight
  {
    Insight(Warning, Some("psychology"), "🧠 Possível Revenge Trading", StreakDetail(streak))
  }

  function BelowHalf(rate: real): Insight
  {
    Insight(Warning, Some("general"), "📉 Win Rate Abaixo de 50%", RateDetail(rate))
  }

  function HighLoss(averageLoss: real, averageWin: real): Insight
  {
    Insight(Danger, Some("risk"), "⚠️ Loss Médio Muito Alto", AveragesDetail(averageLoss, averageWin))
  }

  /** The closing insight: a daily loss limit of two average losses and a
      gain target of three average wins. */
  function Management(averageLoss: real, averageWin: real): Insight
  {
    Insight(Info, Some("management"), "💰 Limites Sugeridos", LimitsDetail(averageLoss * 2.0, averageWin * 3.0))
  }

  /** `max(1, n)`. */
  function AtLeastOne(n: nat): nat
  {
    if n > 1 then n else 1
  }

  /** The average win: the sum of the profits above zero over their count,
      the count raised to 1 when there is none. */
  function QuickAverageWin(trades: seq<Trade>): real
  {
    SumReal(Filter(trades, IsWin), Profit) / AtLeastOne(|Filter(trades, IsWin)|) as real
  }

  /** The average loss: the magnitude of the sum of the profits below zero
      over their count, raised to 1 when there is none. */
  function QuickAverageLoss(trades: seq<Trade>): real
  {
    Abs(SumReal(Filter(trades, IsLoss), Profit)) / AtLeastOne(|Filter(trades, IsLoss)|) as real
  }

  /** The best hour (first largest profit) if it made money, then the worst
      hour (first smallest profit) if it lost money. */
  function QuickHourRules(hourly: seq<HourStat>): (r: seq<Insight>)
    ensures forall x :: x in r ==> x.category == Some("timing") && x.kind != Info
  {
    if hourly == [] then []
    else
      var best := hourly[ArgMaxFirst(hourly, HourStatProfit)];
      var worst := hourly[ArgMinFirst(hourly, HourStatProfit)];
      (if best.profit > 0.0 then [BestHourNotice(best)] else [])
      + (if worst.profit < 0.0 then [TroubleHourNotice(worst)] else [])
  }

  /** A symbol with at least 5 trades whose win rate is below 40 or above 70. */
  predicate QuickFlagged(st: SymbolStat)
  {
    st.trades >= 5 && (Percent(st.wins, st.trades) < 40.0 || Percent(st.wins, st.trades) > 70.0)
  }

  function QuickSymbolRule(st: SymbolStat): (r: seq<Insight>)
    ensures forall x :: x in r ==> x.category == Some("symbol") && x.kind != Info
  {
    var rate := Percent(st.wins, st.trades);
    if rate < 40.0 && st.trades >= 5 then [LowSymbolRate(st, rate)]
    else if rate > 70.0 && st.trades >= 5 then [StrongSymbol(st, rate)]
    else []
  }

  function QuickSymbolRules(symbols: seq<SymbolStat>): (r: seq<Insight>)
    ensures forall x :: x in r ==> x.category == Some("symbol") && x.kind != Info
    decreases |symbols|
  {
    if symbols == [] then []
    else QuickSymbolRules(symbols[..|symbols| - 1]) + QuickSymbolRule(symbols[|symbols| - 1])
  }

  function StreakPart(streak: nat): (r: seq<Insight>)
    ensures forall x :: x in r ==> x.category == Some("psychology") && x.kind != Info
  {
    if streak >= 3 then [LossSequence(streak)] else []
  }

  function WinRatePart(rate: real): (r: seq<Insight>)
    ensures forall x :: x in r ==> x.category == Some("general") && x.kind != Info
  {
    if rate < 50.0 then [BelowHalf(rate)] else []
  }

  function RiskPart(averageLoss: real, averageWin: real): (r: seq<Insight>)
    ensures forall x :: x in r ==> x.category == Some("risk") && x.kind != Info
  {
    if averageLoss > averageWin * 1.5 then [HighLoss(averageLoss, averageWin)] else []
  }

  /** The figures the quick analysis's rules look at. */
  datatype QuickFigures = QuickFigures(
    hourly: seq<HourStat>, symbols: seq<SymbolStat>, lossStreak: nat, winRate: real,
    averageLoss: real, averageWin: real)

  /** The figures of a history: the hour and symbol buckets, the longest
      run of losses (profit below zero) in opening-time order, the win rate
      and the two averages. */
  function QuickFiguresOf(trades: seq<Trade>): QuickFigures
  {
    QuickFigures(HourStats(trades), SymbolStats(trades), Longest(ByOpenTime(trades), IsLoss),
                 WinRateOf(trades), QuickAverageLoss(trades), QuickAverageWin(trades))
  }

  /** The quick analysis without its closing limits. */
  function BeforeManagement(f: QuickFigures): (r: seq<Insight>)
    ensures forall x :: x in r ==> x.category != Some("management") && x.kind != Info
  {
    QuickHourRules(f.hourly) + QuickSymbolRules(f.symbols) + StreakPart(f.lossStreak)
    + WinRatePart(f.winRate) + RiskPart(f.averageLoss, f.averageWin)
  }

  /** The quick analysis of a set of figures, in the order its rules run. */
  function QuickRules(f: QuickFigures): seq<Insight>
  {
    BeforeManagement(f) + [Management(f.averageLoss, f.averageWin)]
  }

  function QuickInsights(trades: seq<Trade>): seq<Insight>
  {
    QuickRules(QuickFiguresOf(trades))
  }

  /** `quick_analysis` for the trades of one user: a message and no
      insights without trades, otherwise the insights and their count. */
  method QuickAnalysis(trades: seq<Trade>) returns (reply: QuickReply)
    ensures trades == [] ==> reply == NothingToAnalyse([], "Sem trades para analisar")
    ensures trades != [] ==> reply == Report(|trades|, |QuickInsights(trades)|, QuickInsights(trades))
  {
    if trades == [] {
      return NothingToAnalyse([], "Sem trades para analisar");
    }
    var hourly := HourBuckets(trades);
    var insights := QuickHourInsights(hourly, []);
    assert insights == QuickHourRules(hourly);
    var symbols := SymbolBuckets(trades);
    insights := QuickSymbolLoop(symbols, insights);
    var streak := LossStreak(ByOpenTime(trades));
    insights := StreakInsight(streak, insights);
    var winRate := Percent(|Filter(trades, IsWin)|, |trades|);
    insights := WinRateInsight(winRate, insights);
    var avgWin := SumReal(Filter(trades, IsWin), Profit) / AtLeastOne(|Filter(trades, IsWin)|) as real;
    var avgLoss := Abs(SumReal(Filter(trades, IsLoss), Profit)) / AtLeastOne(|Filter(trades, IsLoss)|) as real;
    insights := RiskInsight(avgLoss, avgWin, insights);
    insights := insights + [Management(avgLoss, avgWin)];
    ghost var f := QuickFigures(hourly, symbols, streak, winRate, avgLoss, avgWin);
    assert insights == QuickRules(f);
    assert f == QuickFiguresOf(trades);
    assert QuickInsights(trades) == QuickRules(f);
    reply := Report(|trades|, |insights|, insights);
  }

  /** The loss-sequence rule, appending to the insights so far. */
  method StreakInsight(streak: nat, start: seq<Insight>) returns (insights: seq<Insight>)
    ensures insights == start + StreakPart(streak)
  {
    insights := start;
    if streak >= 3 {
      insights := insights + [LossSequence(streak)];
    }
  }

  /** The overall win-rate rule, appending to the insights so far. */
  method WinRateInsight(winRate: real, start: seq<Insight>) returns (insights: seq<Insight>)
    ensures insights == start + WinRatePart(winRate)
  {
    insights := start;
    if winRate < 50.0 {
      insights := insights + [BelowHalf(winRate)];
    }
  }

  /** The average-loss rule, appending to the insights so far. */
  method RiskInsight(averageLoss: real, averageWin: real, start: seq<Insight>) returns (insights: seq<Insight>)
    ensures insights == start + RiskPart(averageLoss, averageWin)
  {
    insights := start;
    if averageLoss > averageWin * 1.5 {
      insights := insights + [HighLoss(averageLoss, averageWin)];
    }
  }

  /** The best- and worst-hour rules, appending to the insights so far. */
  method QuickHourInsights(hourly: seq<HourStat>, start: seq<Insight>) returns (insights: seq<Insight>)
    ensures insights == start + QuickHourRules(hourly)
  {
    insights := start;
    if hourly != [] {
      var best := hourly[ArgMaxFirst(hourly, HourStatProfit)];
      var worst := hourly[ArgMinFirst(hourly, HourStatProfit)];
      if best.profit > 0.0 {
        insights := insights + [BestHourNotice(best)];
      }
      if worst.profit < 0.0 {
        insights := insights + [TroubleHourNotice(worst)];
      }
    }
  }

  /** The loop over the symbol buckets, appending to the insights so far. */
  method QuickSymbolLoop(symbols: seq<SymbolStat>, start: seq<Insight>) returns (insights: seq<Insight>)
    ensures insights == start + QuickSymbolRules(symbols)
  {
    insights := start;
    var j := 0;
    while j < |symbols|
      invariant 0 <= j <= |symbols|
      invariant insights == start + QuickSymbolRules(symbols[..j])
    {
      var st := symbols[j];
      PrefixStep(symbols, j);
      var rate := Percent(st.wins, st.trades);
      if rate < 40.0 && st.trades >= 5 {
        insights := insights + [LowSymbolRate(st, rate)];
      } else if rate > 70.0 && st.trades >= 5 {
        insights := insights + [StrongSymbol(st, rate)];
      }
      j := j + 1;
    }
    assert symbols[..j] == symbols;
  }

  /** The loss-sequence loop over trades in opening-time order: a loss
      extends the current sequence, anything else ends it. */
  method LossStreak(sorted: seq<Trade>) returns (maxLosses: nat)
    ensures maxLosses == Longest(sorted, IsLoss)
  {
    var losses := 0;
    maxLosses := 0;
    var i := 0;
    while i < |sorted|
      invariant 0 <= i <= |sorted|
      invariant losses == Trailing(sorted[..i], IsLoss)
      invariant maxLosses == Longest(sorted[..i], IsLoss)
    {
      var t := sorted[i];
      RunsSnoc(sorted[..i], t, IsLoss);
      PrefixStep(sorted, i);
      if t.profit < 0.0 {
        losses := losses + 1;
        maxLosses := if maxLosses >= losses then maxLosses else losses;
      } else {
        losses := 0;
      }
      i := i + 1;
    }
    assert sorted[..i] == sorted;
  }

  // ------------------------------------------ quick analysis properties

  /** The analysis ends with the management limits of two average losses
      and three average wins, its only info insight and the only one of
      its category; the reported count is the number of insights. */
  lemma QuickEndsWithManagement(f: QuickFigures)
    ensures var out := QuickRules(f); var m := Management(f.averageLoss, f.averageWin);
      && |out| >= 1
      && out[|out| - 1] == m
      && m.detail == LimitsDetail(f.averageLoss * 2.0, f.averageWin * 3.0)
      && OfKind(out, Info) == [m]
      && OfCategory(out, "management") == [m]
  {
    var m := Management(f.averageLoss, f.averageWin);
    assert m.detail == LimitsDetail(f.averageLoss * 2.0, f.averageWin * 3.0);
    ClosingInsight(BeforeManagement(f), m, Info);
    OnlyLast(BeforeManagement(f), [m], "management");
  }

  lemma QuickSingleInfo(f: QuickFigures)
    ensures OfKind(QuickRules(f), Info) == [Management(f.averageLoss, f.averageWin)]
  {
    OnlyLastKind(BeforeManagement(f), [Management(f.averageLoss, f.averageWin)], Info);
  }

  /** The risk category: one danger exactly when the average loss exceeds
      one and a half average wins. */
  lemma QuickRiskInsights(f: QuickFigures)
    ensures var rk := OfCategory(QuickRules(f), "risk");
      && |rk| == (if f.averageLoss > f.averageWin * 1.5 then 1 else 0)
      && (forall x :: x in rk ==> x.kind == Danger && x.detail == AveragesDetail(f.averageLoss, f.averageWin))
  {
    var h, sy, st := QuickHourRules(f.hourly), QuickSymbolRules(f.symbols), StreakPart(f.lossStreak);
    var g, rk, m := WinRatePart(f.winRate), RiskPart(f.averageLoss, f.averageWin), [Management(f.averageLoss, f.averageWin)];
    OnlyLast(h + sy + st + g, rk, "risk");
    NoneAfter(h + sy + st + g + rk, m, "risk");
  }

  /** The general category: one warning exactly when the win rate is below
      50%; there is no praise for a high rate here. */
  lemma QuickGeneralInsights(f: QuickFigures)
    ensures var g := OfCategory(QuickRules(f), "general");
      && |g| == (if f.winRate < 50.0 then 1 else 0)
      && (forall x :: x in g ==> x.kind == Warning && x.detail == RateDetail(f.winRate))
  {
    var h, sy, st := QuickHourRules(f.hourly), QuickSymbolRules(f.symbols), StreakPart(f.lossStreak);
    var g, rk, m := WinRatePart(f.winRate), RiskPart(f.averageLoss, f.averageWin), [Management(f.averageLoss, f.averageWin)];
    OnlyLast(h + sy + st, g, "general");
    NoneAfter(h + sy + st + g, rk, "general");
    NoneAfter(h + sy + st + g + rk, m, "general");
  }

  /** The psychology category: one warning exactly when the loss streak
      reaches 3. */
  lemma QuickPsychologyInsights(f: QuickFigures)
    ensures var p := OfCategory(QuickRules(f), "psychology");
      && |p| == (if f.lossStreak >= 3 then 1 else 0)
      && (forall x :: x in p ==> x.kind == Warning && x.detail == StreakDetail(f.lossStreak))
  {
    var h, sy, st := QuickHourRules(f.hourly), QuickSymbolRules(f.symbols), StreakPart(f.lossStreak);
    var g, rk, m := WinRatePart(f.winRate), RiskPart(f.averageLoss, f.averageWin), [Management(f.averageLoss, f.averageWin)];
    OnlyLast(h + sy, st, "psychology");
    NoneAfter(h + sy + st, g, "psychology");
    NoneAfter(h + sy + st + g, rk, "psychology");
    NoneAfter(h + sy + st + g + rk, m, "psychology");
  }

  /** The timing category: a success naming an hour of largest profit
      exactly when some hour made money, and a warning naming an hour of
      smallest profit exactly when some hour lost money. */
  lemma QuickTimingInsights(f: QuickFigures)
    ensures var tm := OfCategory(QuickRules(f), "timing"); var hourly := f.hourly;
      && |tm| <= 2
      && ((exists x :: x in tm && x.kind == Success) <==> exists j :: 0 <= j < |hourly| && hourly[j].profit > 0.0)
      && ((exists x :: x in tm && x.kind == Warning) <==> exists j :: 0 <= j < |hourly| && hourly[j].profit < 0.0)
      && (forall x :: x in tm && x.kind == Success ==>
            x.detail.HourDetail? && forall j :: 0 <= j < |hourly| ==> hourly[j].profit <= x.detail.profit)
      && (forall x :: x in tm && x.kind == Warning ==>
            x.detail.HourDetail? && forall j :: 0 <= j < |hourly| ==> x.detail.profit <= hourly[j].profit)
      && (forall x :: x in tm ==> exists j :: 0 <= j < |hourly| && x.detail == HourDetail(hourly[j].hour, hourly[j].profit))
  {
    var h, sy, st := QuickHourRules(f.hourly), QuickSymbolRules(f.symbols), StreakPart(f.lossStreak);
    var g, rk, m := WinRatePart(f.winRate), RiskPart(f.averageLoss, f.averageWin), [Management(f.averageLoss, f.averageWin)];
    OfCategoryAllOrNone(h, "timing");
    NoneAfter(h, sy, "timing");
    NoneAfter(h + sy, st, "timing");
    NoneAfter(h + sy + st, g, "timing");
    NoneAfter(h + sy + st + g, rk, "timing");
    NoneAfter(h + sy + st + g + rk, m, "timing");
    QuickHourRulesSpec(f.hourly);
  }

  lemma QuickHourRulesSpec(hourly: seq<HourStat>)
    ensures var r := QuickHourRules(hourly);
      && |r| <= 2
      && ((exists x :: x in r && x.kind == Success) <==> exists j :: 0 <= j < |hourly| && hourly[j].profit > 0.0)
      && ((exists x :: x in r && x.kind == Warning) <==> exists j :: 0 <= j < |hourly| && hourly[j].profit < 0.0)
      && (forall x :: x in r && x.kind == Success ==>
            x.detail.HourDetail? && forall j :: 0 <= j < |hourly| ==> hourly[j].profit <= x.detail.profit)
      && (forall x :: x in r && x.kind == Warning ==>
            x.detail.HourDetail? && forall j :: 0 <= j < |hourly| ==> x.detail.profit <= hourly[j].profit)
      && (forall x :: x in r ==> exists j :: 0 <= j < |hourly| && x.detail == HourDetail(hourly[j].hour, hourly[j].profit))
  {
    if hourly != [] {
      var b := ArgMaxFirst(hourly, HourStatProfit);
      var w := ArgMinFirst(hourly, HourStatProfit);
      forall j | 0 <= j < |hourly|
        ensures hourly[w].profit <= hourly[j].profit <= hourly[b].profit
      {
        assert HourStatProfit(hourly[j]) <= HourStatProfit(hourly[b]);
        assert HourStatProfit(hourly[w]) <= HourStatProfit(hourly[j]);
      }
    }
  }

  /** The symbol category is one insight per flagged symbol, in symbol
      order: a danger below a 40% win rate, a success above 70%. Symbols
      with fewer than 5 trades are never reported. */
  lemma QuickSymbolInsights(f: QuickFigures)
    ensures var sy := OfCategory(QuickRules(f), "symbol"); var flagged := Filter(f.symbols, QuickFlagged);
      && |sy| == |flagged|
      && (forall i :: 0 <= i < |sy| ==>
            && flagged[i].trades >= 5
            && sy[i].detail == SymbolDetail(flagged[i].symbol, Percent(flagged[i].wins, flagged[i].trades),
                                            flagged[i].wins, flagged[i].trades, flagged[i].profit)
            && sy[i].kind == (if Percent(flagged[i].wins, flagged[i].trades) < 40.0 then Danger else Success))
  {
    var h, sy, st := QuickHourRules(f.hourly), QuickSymbolRules(f.symbols), StreakPart(f.lossStreak);
    var g, rk, m := WinRatePart(f.winRate), RiskPart(f.averageLoss, f.averageWin), [Management(f.averageLoss, f.averageWin)];
    OnlyLast(h, sy, "symbol");
    NoneAfter(h + sy, st, "symbol");
    NoneAfter(h + sy + st, g, "symbol");
    NoneAfter(h + sy + st + g, rk, "symbol");
    NoneAfter(h + sy + st + g + rk, m, "symbol");
    QuickSymbolRulesSpec(f.symbols);
  }

  lemma {:induction false} QuickSymbolRulesSpec(symbols: seq<SymbolStat>)
    ensures var sy := QuickSymbolRules(symbols); var flagged := Filter(symbols, QuickFlagged);
      && |sy| == |flagged|
      && (forall i :: 0 <= i < |sy| ==>
            && flagged[i].trades >= 5
            && sy[i].detail == SymbolDetail(flagged[i].symbol, Percent(flagged[i].wins, flagged[i].trades),
                                            flagged[i].wins, flagged[i].trades, flagged[i].profit)
            && sy[i].kind == (if Percent(flagged[i].wins, flagged[i].trades) < 40.0 then Danger else Success))
    decreases |symbols|
  {
    if symbols != [] {
      var p := symbols[..|symbols| - 1];
      var x := symbols[|symbols| - 1];
      QuickSymbolRulesSpec(p);
      assert symbols == p + [x];
      FilterSnoc(p, x, QuickFlagged);
    }
  }

  // ------------------------------------------ figures of a trade history

  /** The averages never divide by zero, are never negative, and agree with
      the averages of the insight service's summary. */
  lemma QuickAverages(trades: seq<Trade>)
    ensures QuickAverageWin(trades) == AverageWinOf(trades) >= 0.0
    ensures QuickAverageLoss(trades) == AverageLossOf(trades) >= 0.0
  {
    var wins := Filter(trades, IsWin);
    var losses := Filter(trades, IsLoss);
    WinLossSigns(trades);
    NonNegativeMean(SumReal(wins, Profit), |wins|);
    LossMagnitude(SumReal(losses, Profit), |losses|);
    if losses != [] {
      assert Abs(SumReal(losses, Profit)) == -SumReal(losses, Profit);
    }
  }

  /** The loss streak of a history is the length of a run of losses in
      opening-time order and no run of losses is longer. */
  lemma QuickStreakSpec(trades: seq<Trade>)
    ensures var n := QuickFiguresOf(trades).lossStreak; var sorted := ByOpenTime(trades);
      && (exists i :: RunAt(sorted, i, n, IsLoss))
      && (forall i, j :: 0 <= i <= j <= |sorted| && AllOf(sorted, i, j, IsLoss) ==> j - i <= n)
  {
    LongestSpec(ByOpenTime(trades), IsLoss);
  }

  /** The quick analysis's loss streak never exceeds the insight service's,
      which also counts break-even trades as losses; a single break-even
      trade is a streak of one for the service and of none here. */
  lemma StreakDefinitions(trades: seq<Trade>, t: Trade)
    requires t.profit == 0.0
    ensures QuickFiguresOf(trades).lossStreak <= Longest(ByOpenTime(trades), IsNonWin)
    ensures QuickFiguresOf([t]).lossStreak == 0 && Longest(ByOpenTime([t]), IsNonWin) == 1
  {
    LongestMono(ByOpenTime(trades), IsLoss, IsNonWin);
    assert |multiset(ByOpenTime([t]))| == 1;
    assert ByOpenTime([t]) == [t] by {
      var s := ByOpenTime([t]);
      assert s[0] in multiset(s);
    }
    RunsSnoc([], t, IsLoss);
    RunsSnoc([], t, IsNonWin);
    assert [] + [t] == [t];
  }
}

=== FILE: ai_service.dfy ===
/** backend/app/services/ai_service.py: the trade summary that the insight
    service prepares, and the rule-based insights it produces when no
    language-model client is configured. A trade whose profit is not above
    zero counts as a loss in the hour and symbol buckets and in the loss
    streak, while `losing_trades` counts only profits below zero. */
module AiService {
  import opened Wrappers
  import opened Seqs
  import opened Grouping
  import opened Runs
  import opened Text
  import opened TradeModel
  import opened Tallies
  import opened Insights

  // ---------------------------------------------------------- the summary

  datatype HourStat = HourStat(hour: int, wins: nat, losses: nat, profit: real)
  datatype SymbolStat = SymbolStat(symbol: string, wins: nat, losses: nat, profit: real, trades: nat)
  datatype WeekdayStat = WeekdayStat(day: string, trades: nat, profit: real)

  /** The summary dictionary; the three performance dictionaries are kept
      as lists in their insertion order. */
  datatype Summary = Summary(
    totalTrades: nat, winningTrades: nat, losingTrades: nat, winRate: real, totalProfit: real,
    averageWin: real, averageLoss: real, bestTrade: real, worstTrade: real,
    maxWinStreak: nat, maxLossStreak: nat,
    hourly: seq<HourStat>, symbols: seq<SymbolStat>, weekdays: seq<WeekdayStat>,
    profitFactor: real)

  function HourStatProfit(h: HourStat): real { h.profit }
  function HourStatCount(h: HourStat): int { h.wins + h.losses }
  function SymbolStatProfit(s: SymbolStat): real { s.profit }
  function SymbolStatTrades(s: SymbolStat): int { s.trades }

  function HourStatOf(trades: seq<Trade>, h: int): HourStat
  {
    var t := TallyOf(Select(trades, TradeHour, h));
    HourStat(h, t.wins, t.losses, t.profit)
  }

  function SymbolStatOf(trades: seq<Trade>, k: string): SymbolStat
  {
    var t := TallyOf(Select(trades, TradeSymbol, k));
    SymbolStat(k, t.wins, t.losses, t.profit, t.trades)
  }

  function WeekdayStatOf(trades: seq<Trade>, d: string): WeekdayStat
  {
    var t := TallyOf(Select(trades, TradeWeekday, d));
    WeekdayStat(d, t.trades, t.profit)
  }

  /** One bucket per distinct opening hour, in order of first appearance. */
  function HourStats(trades: seq<Trade>): (h: seq<HourStat>)
    ensures |h| == |Keys(trades, TradeHour)|
    ensures forall j :: 0 <= j < |h| ==> h[j] == HourStatOf(trades, Keys(trades, TradeHour)[j])
  {
    var ks := Keys(trades, TradeHour);
    seq(|ks|, j requires 0 <= j < |ks| => HourStatOf(trades, ks[j]))
  }

  function SymbolStats(trades: seq<Trade>): (r: seq<SymbolStat>)
    ensures |r| == |Keys(trades, TradeSymbol)|
    ensures forall j :: 0 <= j < |r| ==> r[j] == SymbolStatOf(trades, Keys(trades, TradeSymbol)[j])
  {
    var ks := Keys(trades, TradeSymbol);
    seq(|ks|, j requires 0 <= j < |ks| => SymbolStatOf(trades, ks[j]))
  }

  function WeekdayStats(trades: seq<Trade>): (r: seq<WeekdayStat>)
    ensures |r| == |Keys(trades, TradeWeekday)|
    ensures forall j :: 0 <= j < |r| ==> r[j] == WeekdayStatOf(trades, Keys(trades, TradeWeekday)[j])
  {
    var ks := Keys(trades, TradeWeekday);
    seq(|ks|, j requires 0 <= j < |ks| => WeekdayStatOf(trades, ks[j]))
  }

  /** The trades in order of opening time, as `sorted(trades, key=open_time)`. */
  function ByOpenTime(trades: seq<Trade>): seq<Trade>
  {
    SortBy(trades, OpenTimeKey)
  }

  function Abs(x: real): real
  {
    if x < 0.0 then -x else x
  }

  /** `sum(wins) / abs(sum(losses))` when there are losses summing to a
      non-zero amount, and 0 otherwise. */
  function Factor(winSum: real, lossSum: real, losses: nat): real
  {
    if losses > 0 && lossSum != 0.0 then winSum / Abs(lossSum) else 0.0
  }

  function WinRateOf(trades: seq<Trade>): real
  {
    Percent(|Filter(trades, IsWin)|, |trades|)
  }

  function AverageWinOf(trades: seq<Trade>): real
  {
    Mean(SumReal(Filter(trades, IsWin), Profit), |Filter(trades, IsWin)|)
  }

  function AverageLossOf(trades: seq<Trade>): real
  {
    Abs(Mean(SumReal(Filter(trades, IsLoss), Profit), |Filter(trades, IsLoss)|))
  }

  function ProfitFactorOf(trades: seq<Trade>): real
  {
    Factor(SumReal(Filter(trades, IsWin), Profit), SumReal(Filter(trades, IsLoss), Profit), |Filter(trades, IsLoss)|)
  }

  /** The summary of a non-empty list of trades, stated over the whole list:
      the buckets are the groupings of the whole list, and the streaks are
      the longest runs of wins and of non-wins in opening-time order. */
  function SummaryOf(trades: seq<Trade>): Summary
    requires trades != []
  {
    var sorted := ByOpenTime(trades);
    Summary(|trades|, |Filter(trades, IsWin)|, |Filter(trades, IsLoss)|, WinRateOf(trades), SumReal(trades, Profit),
            AverageWinOf(trades), AverageLossOf(trades),
            trades[ArgMaxFirst(trades, Profit)].profit, trades[ArgMinFirst(trades, Profit)].profit,
            Longest(sorted, IsWin), Longest(sorted, IsNonWin),
            HourStats(trades), SymbolStats(trades), WeekdayStats(trades),
            ProfitFactorOf(trades))
  }

  /** `_prepare_trade_summary`: nothing (the empty dictionary) for no trades,
      otherwise the summary. */
  method PrepareTradeSummary(trades: seq<Trade>) returns (r: Option<Summary>)
    ensures trades == [] ==> r == None
    ensures trades != [] ==> r == Some(SummaryOf(trades))
  {
    if trades == [] {
      return None;
    }
    var wins := Filter(trades, IsWin);
    var losses := Filter(trades, IsLoss);
    var hourly := HourBuckets(trades);
    var symbols := SymbolBuckets(trades);
    var maxWin, maxLoss := Streaks(ByOpenTime(trades));
    var weekday := WeekdayBuckets(trades);
    var winSum := SumReal(wins, Profit);
    var lossSum := SumReal(losses, Profit);
    var averageWin := Mean(winSum, |wins|);
    var averageLoss := Abs(Mean(lossSum, |losses|));
    var factor := Factor(winSum, lossSum, |losses|);
    r := Some(Summary(|trades|, |wins|, |losses|, Percent(|wins|, |trades|), SumReal(trades, Profit),
                      averageWin, averageLoss,
                      trades[ArgMaxFirst(trades, Profit)].profit, trades[ArgMinFirst(trades, Profit)].profit,
                      maxWin, maxLoss, hourly, symbols, weekday, factor));
  }

  /** The hour loop: a bucket per hour with wins, losses and profit. */
  method HourBuckets(trades: seq<Trade>) returns (hourly: seq<HourStat>)
    ensures hourly == HourStats(trades)
  {
    var order, data := GroupTallies(trades, TradeHour);
    hourly := [];
    var j := 0;
    while j < |order|
      invariant 0 <= j <= |order| && |hourly| == j
      invariant forall k :: 0 <= k < j ==> hourly[k] == HourStatOf(trades, order[k])
    {
      var d := data[order[j]];
      hourly := hourly + [HourStat(order[j], d.wins, d.losses, d.profit)];
      j := j + 1;
    }
  }

  /** The symbol loop: a bucket per symbol with wins, losses, profit and trades. */
  method SymbolBuckets(trades: seq<Trade>) returns (symbols: seq<SymbolStat>)
    ensures symbols == SymbolStats(trades)
  {
    var order, data := GroupTallies(trades, TradeSymbol);
    symbols := [];
    var j := 0;
    while j < |order|
      invariant 0 <= j <= |order| && |symbols| == j
      invariant forall k :: 0 <= k < j ==> symbols[k] == SymbolStatOf(trades, order[k])
    {
      var d := data[order[j]];
      symbols := symbols + [SymbolStat(order[j], d.wins, d.losses, d.profit, d.trades)];
      j := j + 1;
    }
  }

  /** The weekday loop: trades and profit per English weekday name. */
  method WeekdayBuckets(trades: seq<Trade>) returns (weekday: seq<WeekdayStat>)
    ensures weekday == WeekdayStats(trades)
  {
    var order, data := GroupTallies(trades, TradeWeekday);
    weekday := [];
    var j := 0;
    while j < |order|
      invariant 0 <= j <= |order| && |weekday| == j
      invariant forall k :: 0 <= k < j ==> weekday[k] == WeekdayStatOf(trades, order[k])
    {
      var d := data[order[j]];
      weekday := weekday + [WeekdayStat(order[j], d.trades, d.profit)];
      j := j + 1;
    }
  }

  /** What the previous trade was, the `last_result` of the streak loop. */
  datatype LastResult = NoResult | WinResult | LossResult

  /** The streak loop over trades in opening-time order: a run of wins
      (profit above zero) or of losses (everything else). */
  method Streaks(sorted: seq<Trade>) returns (maxWin: nat, maxLoss: nat)
    ensures maxWin == Longest(sorted, IsWin) && maxLoss == Longest(sorted, IsNonWin)
  {
    maxWin, maxLoss := 0, 0;
    var current := 0;
    var last := NoResult;
    var i := 0;
    while i < |sorted|
      invariant 0 <= i <= |sorted|
      invariant maxWin == Longest(sorted[..i], IsWin) && maxLoss == Longest(sorted[..i], IsNonWin)
      invariant last == NoResult ==> i == 0
      invariant last == WinResult ==> current == Trailing(sorted[..i], IsWin) && Trailing(sorted[..i], IsNonWin) == 0
      invariant last == LossResult ==> current == Trailing(sorted[..i], IsNonWin) && Trailing(sorted[..i], IsWin) == 0
    {
      var t := sorted[i];
      RunsSnoc(sorted[..i], t, IsWin);
      RunsSnoc(sorted[..i], t, IsNonWin);
      PrefixStep(sorted, i);
      if t.profit > 0.0 {
        if last == WinResult {
          current := current + 1;
        } else {
          current := 1;
          last := WinResult;
        }
        maxWin := if maxWin >= current then maxWin else current;
      } else {
        if last == LossResult {
          current := current + 1;
        } else {
          current := 1;
          last := LossResult;
        }
        maxLoss := if maxLoss >= current then maxLoss else current;
      }
      i := i + 1;
    }
    assert sorted[..i] == sorted;
  }

  // ------------------------------------------------- summary properties

  /** The hour buckets: each holds the trades of its hour, a trade with
      profit not above zero counting as a loss, so that wins and losses add
      up to the bucket's trades; the hours are distinct, each is an opening
      hour in 0..23, and every trade's hour has a bucket. */
  lemma HourStatsSpec(trades: seq<Trade>)
    ensures var h := HourStats(trades);
      && (forall j :: 0 <= j < |h| ==>
            && h[j].wins == |Filter(Select(trades, TradeHour, h[j].hour), IsWin)|
            && h[j].losses == |Filter(Select(trades, TradeHour, h[j].hour), IsNonWin)|
            && h[j].wins + h[j].losses == |Select(trades, TradeHour, h[j].hour)| > 0
            && 0 <= h[j].hour < 24)
      && (forall i, j :: 0 <= i < j < |h| ==> h[i].hour != h[j].hour)
      && (forall t :: t in trades ==> exists j :: 0 <= j < |h| && h[j].hour == TradeHour(t))
  {
    var ks := Keys(trades, TradeHour);
    var h := HourStats(trades);
    KeysSpec(trades, TradeHour);
    forall j | 0 <= j < |h|
      ensures h[j].wins == |Filter(Select(trades, TradeHour, h[j].hour), IsWin)|
      ensures h[j].losses == |Filter(Select(trades, TradeHour, h[j].hour), IsNonWin)|
      ensures h[j].wins + h[j].losses == |Select(trades, TradeHour, h[j].hour)| > 0
      ensures 0 <= h[j].hour < 24
    {
      assert ks[j] in ks;
      HourStatFigures(trades, ks[j]);
    }
    forall i, j | 0 <= i < j < |h|
      ensures h[i].hour != h[j].hour
    {
      assert h[i].hour == ks[i] && h[j].hour == ks[j];
    }
    forall t | t in trades
      ensures exists j :: 0 <= j < |h| && h[j].hour == TradeHour(t)
    {
      var i :| 0 <= i < |trades| && trades[i] == t;
      assert TradeHour(trades[i]) in ks;
      var j :| 0 <= j < |ks| && ks[j] == TradeHour(trades[i]);
      assert h[j].hour == TradeHour(t);
    }
  }

  /** The hour buckets add up to all trades and to the net profit. */
  lemma HourStatsTotals(trades: seq<Trade>)
    ensures SumInt(HourStats(trades), HourStatCount) == |trades|
    ensures SumReal(HourStats(trades), HourStatProfit) == SumReal(trades, Profit)
  {
    var ks := Keys(trades, TradeHour);
    var h := HourStats(trades);
    KeysSpec(trades, TradeHour);
    forall j | 0 <= j < |ks|
      ensures HourStatProfit(h[j]) == SumReal(Select(trades, TradeHour, ks[j]), Profit)
      ensures HourStatCount(h[j]) == |Select(trades, TradeHour, ks[j])|
    {
      assert ks[j] in ks;
      HourStatFigures(trades, ks[j]);
    }
    Partition(trades, TradeHour, ks, h, HourStatProfit, Profit, HourStatCount);
  }

  /** The bucket of an opening hour holds the wins, the losses, the count
      and the summed profit of that hour's trades. */
  lemma HourStatFigures(trades: seq<Trade>, k: int)
    requires k in Keys(trades, TradeHour)
    ensures var b := HourStatOf(trades, k); var sel := Select(trades, TradeHour, k);
      && b.hour == k && 0 <= k < 24
      && b.wins == |Filter(sel, IsWin)| && b.losses == |Filter(sel, IsNonWin)|
      && HourStatCount(b) == b.wins + b.losses == |sel| > 0
      && HourStatProfit(b) == SumReal(sel, Profit)
  {
    var sel := Select(trades, TradeHour, k);
    KeysSpec(trades, TradeHour);
    SelectMembers(trades, TradeHour, k);
    assert sel[0] in sel;
    assert TradeHour(sel[0]) == k;
  }

  /** The symbol buckets: one per distinct symbol, each holding that
      symbol's trades, wins and losses adding up to its trades, and the
      trade counts and profits adding up to the totals. */
  lemma SymbolStatsSpec(trades: seq<Trade>)
    ensures var s := SymbolStats(trades);
      && (forall j :: 0 <= j < |s| ==>
            && s[j].trades == |Select(trades, TradeSymbol, s[j].symbol)| > 0
            && s[j].wins + s[j].losses == s[j].trades
            && s[j].losses == |Filter(Select(trades, TradeSymbol, s[j].symbol), IsNonWin)|)
      && (forall i, j :: 0 <= i < j < |s| ==> s[i].symbol != s[j].symbol)
      && (forall t :: t in trades ==> exists j :: 0 <= j < |s| && s[j].symbol == t.symbol)
      && SumInt(s, SymbolStatTrades) == |trades|
      && SumReal(s, SymbolStatProfit) == SumReal(trades, Profit)
  {
    var ks := Keys(trades, TradeSymbol);
    var s := SymbolStats(trades);
    KeysSpec(trades, TradeSymbol);
    forall j | 0 <= j < |ks|
      ensures s[j].symbol == ks[j]
      ensures s[j].trades == |Select(trades, TradeSymbol, s[j].symbol)| > 0
      ensures s[j].wins + s[j].losses == s[j].trades
      ensures s[j].losses == |Filter(Select(trades, TradeSymbol, s[j].symbol), IsNonWin)|
      ensures SymbolStatProfit(s[j]) == SumReal(Select(trades, TradeSymbol, ks[j]), Profit)
      ensures SymbolStatTrades(s[j]) == |Select(trades, TradeSymbol, ks[j])|
    {
      assert ks[j] in ks;
      SymbolStatFigures(trades, ks[j]);
    }
    forall i, j | 0 <= i < j < |s|
      ensures s[i].symbol != s[j].symbol
    {
      assert s[i].symbol == ks[i] && s[j].symbol == ks[j];
    }
    forall t | t in trades
      ensures exists j :: 0 <= j < |s| && s[j].symbol == t.symbol
    {
      var i :| 0 <= i < |trades| && trades[i] == t;
      assert TradeSymbol(trades[i]) in ks;
      var j :| 0 <= j < |ks| && ks[j] == TradeSymbol(trades[i]);
      assert s[j].symbol == t.symbol;
    }
    Partition(trades, TradeSymbol, ks, s, SymbolStatProfit, Profit, SymbolStatTrades);
  }

  /** The bucket of a traded symbol holds the wins, the losses, the count
      and the summed profit of that symbol's trades. */
  lemma SymbolStatFigures(trades: seq<Trade>, k: string)
    requires k in Keys(trades, TradeSymbol)
    ensures var b := SymbolStatOf(trades, k); var sel := Select(trades, TradeSymbol, k);
      && b.symbol == k
      && b.wins == |Filter(sel, IsWin)| && b.losses == |Filter(sel, IsNonWin)|
      && SymbolStatTrades(b) == b.wins + b.losses == |sel| > 0
      && SymbolStatProfit(b) == SumReal(sel, Profit)
  {
    KeysSpec(trades, TradeSymbol);
  }

  /** The streaks are the lengths of the longest runs of wins and of
      non-wins in opening-time order: such a run exists and none is longer.
      Neither exceeds the number of trades, and for a non-empty history one
      of them is at least 1. */
  lemma StreaksSpec(trades: seq<Trade>)
    ensures var sorted := ByOpenTime(trades);
      var maxWin := Longest(sorted, IsWin); var maxLoss := Longest(sorted, IsNonWin);
      && |sorted| == |trades|
      && (exists i :: RunAt(sorted, i, maxWin, IsWin))
      && (exists i :: RunAt(sorted, i, maxLoss, IsNonWin))
      && (forall i, j :: 0 <= i <= j <= |sorted| && AllOf(sorted, i, j, IsWin) ==> j - i <= maxWin)
      && (forall i, j :: 0 <= i <= j <= |sorted| && AllOf(sorted, i, j, IsNonWin) ==> j - i <= maxLoss)
      && maxWin <= |trades| && maxLoss <= |trades|
      && (trades != [] ==> maxWin >= 1 || maxLoss >= 1)
  {
    var sorted := ByOpenTime(trades);
    assert |sorted| == |multiset(sorted)| == |multiset(trades)| == |trades|;
    LongestSpec(sorted, IsWin);
    LongestSpec(sorted, IsNonWin);
    if sorted != [] {
      LastStartsRun(sorted, IsWin, IsNonWin);
    }
  }

  /** The headline counts: winners and losers are disjoint, the total is
      the wins' sum plus the losses' sum, and the rate lies in 0..100. */
  lemma SummaryCounts(trades: seq<Trade>)
    ensures |Filter(trades, IsWin)| + |Filter(trades, IsLoss)| <= |trades|
    ensures SumReal(trades, Profit) == SumReal(Filter(trades, IsWin), Profit) + SumReal(Filter(trades, IsLoss), Profit)
    ensures 0.0 <= WinRateOf(trades) <= 100.0
  {
    ClassCounts(trades);
    ClassSums(trades);
    PercentRange(|Filter(trades, IsWin)|, |trades|);
  }

  /** The average loss is the mean loss magnitude, and the averages and the
      profit factor are never negative. */
  lemma SummaryAverages(trades: seq<Trade>)
    ensures AverageLossOf(trades) == Mean(-SumReal(Filter(trades, IsLoss), Profit), |Filter(trades, IsLoss)|)
    ensures AverageWinOf(trades) >= 0.0 && AverageLossOf(trades) >= 0.0
    ensures ProfitFactorOf(trades) >= 0.0
  {
    var wins := Filter(trades, IsWin);
    var losses := Filter(trades, IsLoss);
    WinLossSigns(trades);
    NonNegativeMean(SumReal(wins, Profit), |wins|);
    LossMagnitude(SumReal(losses, Profit), |losses|);
    FactorSign(SumReal(wins, Profit), SumReal(losses, Profit), |losses|);
  }

  /** The best and worst trades are the extreme profits. */
  lemma SummaryExtremes(trades: seq<Trade>)
    requires trades != []
    ensures var s := SummaryOf(trades);
      && (forall t :: t in trades ==> s.worstTrade <= t.profit <= s.bestTrade)
      && (exists t :: t in trades && t.profit == s.bestTrade)
      && (exists t :: t in trades && t.profit == s.worstTrade)
  {
    var b := ArgMaxFirst(trades, Profit);
    var w := ArgMinFirst(trades, Profit);
    forall t | t in trades
      ensures trades[w].profit <= t.profit <= trades[b].profit
    {
      var i :| 0 <= i < |trades| && trades[i] == t;
      assert Profit(trades[i]) <= Profit(trades[b]);
      assert Profit(trades[w]) <= Profit(trades[i]);
    }
  }

  lemma NonNegativeMean(total: real, n: nat)
    requires total >= 0.0
    ensures Mean(total, n) >= 0.0
  {
  }

  /** The magnitude of the mean of a non-positive sum is the mean of its
      magnitude. */
  lemma LossMagnitude(lossSum: real, n: nat)
    requires lossSum <= 0.0
    ensures Abs(Mean(lossSum, n)) == Mean(-lossSum, n) >= 0.0
  {
    if n > 0 {
      var d := n as real;
      assert lossSum / d <= 0.0;
      assert -(lossSum / d) == (-lossSum) / d;
    }
  }

  lemma FactorSign(winSum: real, lossSum: real, losses: nat)
    requires winSum >= 0.0
    ensures Factor(winSum, lossSum, losses) >= 0.0
  {
  }

  // ------------------------------------------------- rule-based insights

  function LowWinRate(rate: real): Insight
  {
    Insight(Warning, Some("general"), "📉 Win Rate Precisa Melhorar", RateDetail(rate))
  }

  function HighWinRate(rate: real): Insight
  {
    Insight(Success, Some("general"), "🎯 Excelente Win Rate!", RateDetail(rate))
  }

  function HighAverageLoss(averageLoss: real, averageWin: real): Insight
  {
    Insight(Danger, Some("risk"), "⚠️ Loss Médio Muito Alto", AveragesDetail(averageLoss, averageWin))
  }

  function NegativeFactor(factor: real): Insight
  {
    Insight(Danger, Some("risk"), "📊 Profit Factor Negativo", FactorDetail(factor))
  }

  function ExcellentFactor(factor: real): Insight
  {
    Insight(Success, Some("risk"), "💪 Profit Factor Excelente!", FactorDetail(factor))
  }

  function RevengeTrading(streak: nat): Insight
  {
    Insight(Warning, Some("psychology"), "🧠 Possível Revenge Trading", StreakDetail(streak))
  }

  function BestHour(h: HourStat): Insight
  {
    Insight(Success, Some("timing"), "⏰ Melhor Horário: " + Pad2(h.hour) + ":00", HourDetail(h.hour, h.profit))
  }

  function WorstHour(h: HourStat): Insight
  {
    Insight(Warning, Some("timing"), "🚫 Evite às " + Pad2(h.hour) + ":00", HourDetail(h.hour, h.profit))
  }

  function AvoidSymbol(st: SymbolStat, rate: real): Insight
  {
    Insight(Danger, Some("symbol"), "❌ Evite " + st.symbol, SymbolDetail(st.symbol, rate, st.wins, st.trades, st.profit))
  }

  function SymbolExpert(st: SymbolStat, rate: real): Insight
  {
    Insight(Success, Some("symbol"), "⭐ Especialista em " + st.symbol, SymbolDetail(st.symbol, rate, st.wins, st.trades, st.profit))
  }

  /** The closing insight: a daily loss limit of three average losses and a
      gain target of four average wins. */
  function SuggestedLimits(averageLoss: real, averageWin: real): Insight
  {
    Insight(Info, Some("risk"), "💰 Limites Sugeridos", LimitsDetail(averageLoss * 3.0, averageWin * 4.0))
  }

  function WinRateRule(s: Summary): (r: seq<Insight>)
    ensures forall x :: x in r ==> x.category == Some("general") && x.kind != Info
  {
    if s.winRate < 50.0 then [LowWinRate(s.winRate)]
    else if s.winRate > 60.0 then [HighWinRate(s.winRate)]
    else []
  }

  function AverageLossRule(s: Summary): (r: seq<Insight>)
    ensures forall x :: x in r ==> x.category == Some("risk") && x.kind != Info
  {
    if s.averageLoss > s.averageWin * 1.5 then [HighAverageLoss(s.averageLoss, s.averageWin)] else []
  }

  function ProfitFactorRule(s: Summary): (r: seq<Insight>)
    ensures forall x :: x in r ==> x.category == Some("risk") && x.kind != Info
  {
    if s.profitFactor < 1.0 then [NegativeFactor(s.profitFactor)]
    else if s.profitFactor > 2.0 then [ExcellentFactor(s.profitFactor)]
    else []
  }

  function StreakRule(s: Summary): (r: seq<Insight>)
    ensures forall x :: x in r ==> x.category == Some("psychology") && x.kind != Info
  {
    if s.maxLossStreak >= 4 then [RevengeTrading(s.maxLossStreak)] else []
  }

  /** The best hour (first largest profit) if it made money, then the worst
      hour (first smallest profit) if it lost money. */
  function HourRules(hourly: seq<HourStat>): (r: seq<Insight>)
    ensures forall x :: x in r ==> x.category == Some("timing") && x.kind != Info
  {
    if hourly == [] then []
    else
      var best := hourly[ArgMaxFirst(hourly, HourStatProfit)];
      var worst := hourly[ArgMinFirst(hourly, HourStatProfit)];
      (if best.profit > 0.0 then [BestHour(best)] else [])
      + (if worst.profit < 0.0 then [WorstHour(worst)] else [])
  }

  /** A symbol with at least 5 trades whose win rate is below 35 or above 65. */
  predicate Flagged(st: SymbolStat)
  {
    st.trades >= 5 && (Percent(st.wins, st.trades) < 35.0 || Percent(st.wins, st.trades) > 65.0)
  }

  function SymbolRule(st: SymbolStat): (r: seq<Insight>)
    ensures forall x :: x in r ==> x.category == Some("symbol") && x.kind != Info
  {
    if st.trades >= 5 then
      var rate := Percent(st.wins, st.trades);
      if rate < 35.0 then [AvoidSymbol(st, rate)]
      else if rate > 65.0 then [SymbolExpert(st, rate)]
      else []
    else []
  }

  function SymbolRules(symbols: seq<SymbolStat>): (r: seq<Insight>)
    ensures forall x :: x in r ==> x.category == Some("symbol") && x.kind != Info
    decreases |symbols|
  {
    if symbols == [] then []
    else SymbolRules(symbols[..|symbols| - 1]) + SymbolRule(symbols[|symbols| - 1])
  }

  /** The output without its closing limits. */
  function BeforeLimits(s: Summary): (r: seq<Insight>)
    ensures forall x :: x in r ==> x.kind != Info
  {
    WinRateRule(s) + AverageLossRule(s) + ProfitFactorRule(s) + StreakRule(s)
    + HourRules(s.hourly) + SymbolRules(s.symbols)
  }

  /** The rule-based insights of a summary, in the order the rules run. */
  function RuleBasedInsights(s: Summary): seq<Insight>
  {
    BeforeLimits(s) + [SuggestedLimits(s.averageLoss, s.averageWin)]
  }

  /** `_generate_rule_based_insights`: the empty summary fails on its
      missing `win_rate` key; otherwise the rules append their insights. */
  method GenerateRuleBasedInsights(summary: Option<Summary>) returns (r: Result<seq<Insight>, string>)
    ensures summary.None? ==> r == Err("KeyError: 'win_rate'")
    ensures summary.Some? ==> r == Ok(RuleBasedInsights(summary.value))
  {
    if summary.None? {
      return Err("KeyError: 'win_rate'");
    }
    var s := summary.value;
    var insights: seq<Insight> := [];
    if s.winRate < 50.0 {
      insights := insights + [LowWinRate(s.winRate)];
    } else if s.winRate > 60.0 {
      insights := insights + [HighWinRate(s.winRate)];
    }
    assert insights == WinRateRule(s);
    if s.averageLoss > s.averageWin * 1.5 {
      insights := insights + [HighAverageLoss(s.averageLoss, s.averageWin)];
    }
    assert insights == WinRateRule(s) + AverageLossRule(s);
    if s.profitFactor < 1.0 {
      insights := insights + [NegativeFactor(s.profitFactor)];
    } else if s.profitFactor > 2.0 {
      insights := insights + [ExcellentFactor(s.profitFactor)];
    }
    assert insights == WinRateRule(s) + AverageLossRule(s) + ProfitFactorRule(s);
    if s.maxLossStreak >= 4 {
      insights := insights + [RevengeTrading(s.maxLossStreak)];
    }
    assert insights == WinRateRule(s) + AverageLossRule(s) + ProfitFactorRule(s) + StreakRule(s);
    insights := HourInsights(s.hourly, insights);
    insights := SymbolLoop(s.symbols, insights);
    insights := insights + [SuggestedLimits(s.averageLoss, s.averageWin)];
    r := Ok(insights);
  }

  /** The best- and worst-hour rules, appending to the insights so far. */
  method HourInsights(hourly: seq<HourStat>, start: seq<Insight>) returns (insights: seq<Insight>)
    ensures insights == start + HourRules(hourly)
  {
    insights := start;
    if hourly != [] {
      var best := hourly[ArgMaxFirst(hourly, HourStatProfit)];
      var worst := hourly[ArgMinFirst(hourly, HourStatProfit)];
      if best.profit > 0.0 {
        insights := insights + [BestHour(best)];
      }
      if worst.profit < 0.0 {
        insights := insights + [WorstHour(worst)];
      }
    }
  }

  /** The loop over the symbol buckets, appending to the insights so far. */
  method SymbolLoop(symbols: seq<SymbolStat>, start: seq<Insight>) returns (insights: seq<Insight>)
    ensures insights == start + SymbolRules(symbols)
  {
    insights := start;
    var j := 0;
    while j < |symbols|
      invariant 0 <= j <= |symbols|
      invariant insights == start + SymbolRules(symbols[..j])
    {
      var st := symbols[j];
      PrefixStep(symbols, j);
      if st.trades >= 5 {
        var rate := Percent(st.wins, st.trades);
        if rate < 35.0 {
          insights := insights + [AvoidSymbol(st, rate)];
        } else if rate > 65.0 {
          insights := insights + [SymbolExpert(st, rate)];
        }
      }
      j := j + 1;
    }
    assert symbols[..j] == symbols;
  }

  /** `generate_insights` without a language-model client: the summary of
      the trades run through the rules; no trades fail as the empty
      summary does. */
  method GenerateInsights(trades: seq<Trade>) returns (r: Result<seq<Insight>, string>)
    ensures trades == [] ==> r.Err?
    ensures trades != [] ==> r == Ok(RuleBasedInsights(SummaryOf(trades)))
  {
    var summary := PrepareTradeSummary(trades);
    r := GenerateRuleBasedInsights(summary);
  }

  // --------------------------------------------------- rule properties

  /** The output is never empty and ends with the suggested limits of
      three average losses and four average wins, the only info insight. */
  lemma RulesEndWithLimits(s: Summary)
    ensures var out := RuleBasedInsights(s);
      && |out| >= 1
      && out[|out| - 1] == SuggestedLimits(s.averageLoss, s.averageWin)
      && out[|out| - 1].detail == LimitsDetail(s.averageLoss * 3.0, s.averageWin * 4.0)
      && OfKind(out, Info) == [out[|out| - 1]]
  {
    var l := SuggestedLimits(s.averageLoss, s.averageWin);
    assert l.detail == LimitsDetail(s.averageLoss * 3.0, s.averageWin * 4.0);
    ClosingInsight(BeforeLimits(s), l, Info);
  }

  lemma SingleInfo(s: Summary)
    ensures OfKind(RuleBasedInsights(s), Info) == [SuggestedLimits(s.averageLoss, s.averageWin)]
  {
    OnlyLastKind(BeforeLimits(s), [SuggestedLimits(s.averageLoss, s.averageWin)], Info);
  }

  /** The general category holds one warning below a 50% win rate, one
      success above 60%, and nothing in between. */
  lemma GeneralInsights(s: Summary)
    ensures var g := OfCategory(RuleBasedInsights(s), "general");
      && |g| == (if s.winRate < 50.0 || s.winRate > 60.0 then 1 else 0)
      && (forall x :: x in g ==> x.kind == (if s.winRate < 50.0 then Warning else Success))
  {
    var a, b, f := WinRateRule(s), AverageLossRule(s), ProfitFactorRule(s);
    var st, h, sy := StreakRule(s), HourRules(s.hourly), SymbolRules(s.symbols);
    var l := [SuggestedLimits(s.averageLoss, s.averageWin)];
    OfCategoryAllOrNone(a, "general");
    NoneAfter(a, b, "general");
    NoneAfter(a + b, f, "general");
    NoneAfter(a + b + f, st, "general");
    NoneAfter(a + b + f + st, h, "general");
    NoneAfter(a + b + f + st + h, sy, "general");
    NoneAfter(a + b + f + st + h + sy, l, "general");
  }

  /** The risk category of the rule-based insights has the risk layout. */
  lemma RiskInsights(s: Summary)
    ensures RiskLayout(OfCategory(RuleBasedInsights(s), "risk"), s)
  {
    RiskParts(s);
    RiskShape(s);
  }

  /** The shape of the risk insights for summary `s`: one danger about the
      averages exactly when the average loss exceeds one and a half average
      wins, then one danger exactly when the profit factor is below 1 or one
      success exactly when it is above 2, then the informational suggested
      limits, and no other informational insight. */
  ghost predicate RiskLayout(rk: seq<Insight>, s: Summary)
  {
    var high := s.averageLoss > s.averageWin * 1.5;
    var n := if high then 1 else 0;
    && |rk| == n + (if s.profitFactor < 1.0 || s.profitFactor > 2.0 then 1 else 0) + 1
    && (high ==> rk[0].kind == Danger && rk[0].detail == AveragesDetail(s.averageLoss, s.averageWin))
    && (s.profitFactor < 1.0 ==> rk[n].kind == Danger && rk[n].detail == FactorDetail(s.profitFactor))
    && (s.profitFactor > 2.0 ==> rk[n].kind == Success && rk[n].detail == FactorDetail(s.profitFactor))
    && rk[|rk| - 1].kind == Info
    && rk[|rk| - 1].detail == LimitsDetail(s.averageLoss * 3.0, s.averageWin * 4.0)
    && (forall i :: 0 <= i < |rk| - 1 ==> rk[i].kind != Info)
  }

  /** The three risk rules, in order, have the risk layout. */
  lemma RiskShape(s: Summary)
    ensures RiskLayout(AverageLossRule(s) + ProfitFactorRule(s) + [SuggestedLimits(s.averageLoss, s.averageWin)], s)
  {
    var b, f := AverageLossRule(s), ProfitFactorRule(s);
    var l := SuggestedLimits(s.averageLoss, s.averageWin);
    assert l.detail == LimitsDetail(s.averageLoss * 3.0, s.averageWin * 4.0);
    assert forall x: Insight :: x in b + f ==> x.kind != Info;
    Layout(b, f, l);
  }

  /** Where the parts of `b + f + [l]` sit, for parts of at most one insight. */
  lemma Layout(b: seq<Insight>, f: seq<Insight>, l: Insight)
    requires forall x :: x in b + f ==> x.kind != Info
    ensures var rk := b + f + [l];
      && |rk| == |b| + |f| + 1
      && (|b| > 0 ==> rk[0] == b[0])
      && (|f| > 0 ==> rk[|b|] == f[0])
      && rk[|rk| - 1] == l
      && (forall i :: 0 <= i < |rk| - 1 ==> rk[i].kind != Info)
  {
    var rk := b + f + [l];
    forall i | 0 <= i < |rk| - 1 ensures rk[i].kind != Info {
      assert rk[i] == (b + f)[i];
    }
  }

  /** The risk insights are the average-loss rule's, the profit-factor
      rule's and the suggested limits, in that order. */
  lemma RiskParts(s: Summary)
    ensures OfCategory(RuleBasedInsights(s), "risk")
      == AverageLossRule(s) + ProfitFactorRule(s) + [SuggestedLimits(s.averageLoss, s.averageWin)]
  {
    var a, b, f := WinRateRule(s), AverageLossRule(s), ProfitFactorRule(s);
    var st, h, sy := StreakRule(s), HourRules(s.hourly), SymbolRules(s.symbols);
    var l := [SuggestedLimits(s.averageLoss, s.averageWin)];
    assert a + b + f == a + (b + f);
    OnlyLast(a, b + f, "risk");
    NoneAfter(a + b + f, st, "risk");
    NoneAfter(a + b + f + st, h, "risk");
    NoneAfter(a + b + f + st + h, sy, "risk");
    OfCategoryConcat(a + b + f + st + h + sy, l, "risk");
    OfCategoryAllOrNone(l, "risk");
  }

  /** The psychology category holds one warning exactly when the longest
      loss streak reaches 4. */
  lemma PsychologyInsights(s: Summary)
    ensures var p := OfCategory(RuleBasedInsights(s), "psychology");
      && |p| == (if s.maxLossStreak >= 4 then 1 else 0)
      && (forall x :: x in p ==> x.kind == Warning && x.detail == StreakDetail(s.maxLossStreak))
  {
    var a, b, f := WinRateRule(s), AverageLossRule(s), ProfitFactorRule(s);
    var st, h, sy := StreakRule(s), HourRules(s.hourly), SymbolRules(s.symbols);
    var l := [SuggestedLimits(s.averageLoss, s.averageWin)];
    OnlyLast(a + b + f, st, "psychology");
    NoneAfter(a + b + f + st, h, "psychology");
    NoneAfter(a + b + f + st + h, sy, "psychology");
    NoneAfter(a + b + f + st + h + sy, l, "psychology");
  }

  /** The timing category: a success naming an hour of largest profit
      exactly when some hour made money, and a warning naming an hour of
      smallest profit exactly when some hour lost money. */
  lemma TimingInsights(s: Summary)
    ensures var tm := OfCategory(RuleBasedInsights(s), "timing");
      && |tm| <= 2
      && ((exists x :: x in tm && x.kind == Success) <==> exists j :: 0 <= j < |s.hourly| && s.hourly[j].profit > 0.0)
      && ((exists x :: x in tm && x.kind == Warning) <==> exists j :: 0 <= j < |s.hourly| && s.hourly[j].profit < 0.0)
      && (forall x :: x in tm && x.kind == Success ==>
            x.detail.HourDetail? && forall j :: 0 <= j < |s.hourly| ==> s.hourly[j].profit <= x.detail.profit)
      && (forall x :: x in tm && x.kind == Warning ==>
            x.detail.HourDetail? && forall j :: 0 <= j < |s.hourly| ==> x.detail.profit <= s.hourly[j].profit)
      && (forall x :: x in tm ==> exists j :: 0 <= j < |s.hourly| && x.detail == HourDetail(s.hourly[j].hour, s.hourly[j].profit))
  {
    var a, b, f := WinRateRule(s), AverageLossRule(s), ProfitFactorRule(s);
    var st, h, sy := StreakRule(s), HourRules(s.hourly), SymbolRules(s.symbols);
    var l := [SuggestedLimits(s.averageLoss, s.averageWin)];
    OnlyLast(a + b + f + st, h, "timing");
    NoneAfter(a + b + f + st + h, sy, "timing");
    NoneAfter(a + b + f + st + h + sy, l, "timing");
    HourRulesSpec(s.hourly);
  }

  lemma HourRulesSpec(hourly: seq<HourStat>)
    ensures var r := HourRules(hourly);
      && |r| <= 2
      && ((exists x :: x in r && x.kind == Success) <==> exists j :: 0 <= j < |hourly| && hourly[j].profit > 0.0)
      && ((exists x :: x in r && x.kind == Warning) <==> exists j :: 0 <= j < |hourly| && hourly[j].profit < 0.0)
      && (forall x :: x in r && x.kind == Success ==>
            x.detail.HourDetail? && forall j :: 0 <= j < |hourly| ==> hourly[j].profit <= x.detail.profit)
      && (forall x :: x in r && x.kind == Warning ==>
            x.detail.HourDetail? && forall j :: 0 <= j < |hourly| ==> x.detail.profit <= hourly[j].profit)
      && (forall x :: x in r ==> exists j :: 0 <= j < |hourly| && x.detail == HourDetail(hourly[j].hour, hourly[j].profit))
  {
    if hourly != [] {
      var b := ArgMaxFirst(hourly, HourStatProfit);
      var w := ArgMinFirst(hourly, HourStatProfit);
      var best, worst := hourly[b], hourly[w];
      forall j | 0 <= j < |hourly|
        ensures worst.profit <= hourly[j].profit <= best.profit
      {
        assert HourStatProfit(hourly[j]) <= HourStatProfit(best);
        assert HourStatProfit(worst) <= HourStatProfit(hourly[j]);
      }
      HourPicks(hourly, best, worst);
      var bi, wi := BestHour(best), WorstHour(worst);
      assert bi.kind == Success && bi.detail == HourDetail(best.hour, best.profit);
      assert wi.kind == Warning && wi.detail == HourDetail(worst.hour, worst.profit);
      var r := HourRules(hourly);
      if exists x :: x in r && x.kind == Success {
        var x :| x in r && x.kind == Success;
        assert x == bi && hourly[b].profit > 0.0;
      }
      if exists x :: x in r && x.kind == Warning {
        var x :| x in r && x.kind == Warning;
        assert x == wi && hourly[w].profit < 0.0;
      }
      forall x | x in r ensures x.kind == Success ==> x == bi
        ensures x.kind == Warning ==> x == wi
        ensures exists j :: 0 <= j < |hourly| && x.detail == HourDetail(hourly[j].hour, hourly[j].profit)
      {
        if x == bi { assert x.detail == HourDetail(hourly[b].hour, hourly[b].profit); }
        else { assert x.detail == HourDetail(hourly[w].hour, hourly[w].profit); }
      }
    }
  }

  /** The timing rules hold the best hour's insight exactly when it made
      money and the worst hour's exactly when it lost money. */
  lemma HourPicks(hourly: seq<HourStat>, best: HourStat, worst: HourStat)
    requires hourly != []
    requires best == hourly[ArgMaxFirst(hourly, HourStatProfit)]
    requires worst == hourly[ArgMinFirst(hourly, HourStatProfit)]
    ensures var r := HourRules(hourly);
      && |r| <= 2
      && (forall x :: x in r ==> (x == BestHour(best) && best.profit > 0.0) || (x == WorstHour(worst) && worst.profit < 0.0))
      && (best.profit > 0.0 ==> BestHour(best) in r)
      && (worst.profit < 0.0 ==> WorstHour(worst) in r)
  {
    var p := if best.profit > 0.0 then [BestHour(best)] else [];
    var q := if worst.profit < 0.0 then [WorstHour(worst)] else [];
    assert HourRules(hourly) == p + q;
  }

  /** The symbol category is one insight per flagged symbol, in symbol
      order: a danger below a 35% win rate, a success above 65%. Symbols
      with fewer than 5 trades are never reported. */
  lemma SymbolInsights(s: Summary)
    ensures var sy := OfCategory(RuleBasedInsights(s), "symbol"); var flagged := Filter(s.symbols, Flagged);
      && |sy| == |flagged|
      && (forall i :: 0 <= i < |sy| ==>
            && flagged[i].trades >= 5
            && sy[i].detail == SymbolDetail(flagged[i].symbol, Percent(flagged[i].wins, flagged[i].trades),
                                            flagged[i].wins, flagged[i].trades, flagged[i].profit)
            && sy[i].kind == (if Percent(flagged[i].wins, flagged[i].trades) < 35.0 then Danger else Success))
  {
    var a, b, f := WinRateRule(s), AverageLossRule(s), ProfitFactorRule(s);
    var st, h, sy := StreakRule(s), HourRules(s.hourly), SymbolRules(s.symbols);
    var l := [SuggestedLimits(s.averageLoss, s.averageWin)];
    OnlyLast(a + b + f + st + h, sy, "symbol");
    NoneAfter(a + b + f + st + h + sy, l, "symbol");
    SymbolRulesSpec(s.symbols);
  }

  lemma {:induction false} SymbolRulesSpec(symbols: seq<SymbolStat>)
    ensures var sy := SymbolRules(symbols); var flagged := Filter(symbols, Flagged);
      && |sy| == |flagged|
      && (forall i :: 0 <= i < |sy| ==>
            && flagged[i].trades >= 5
            && sy[i].detail == SymbolDetail(flagged[i].symbol, Percent(flagged[i].wins, flagged[i].trades),
                                            flagged[i].wins, flagged[i].trades, flagged[i].profit)
            && sy[i].kind == (if Percent(flagged[i].wins, flagged[i].trades) < 35.0 then Danger else Success))
    decreases |symbols|
  {
    if symbols != [] {
      var p := symbols[..|symbols| - 1];
      var x := symbols[|symbols| - 1];
      SymbolRulesSpec(p);
      assert symbols == p + [x];
      FilterSnoc(p, x, Flagged);
    }
  }

  // ------------------------------------------ rules over a trade history

  /** Over a trade history, the win-rate warning fires exactly when fewer
      than half of the trades are wins. */
  lemma WinRateVerdict(trades: seq<Trade>)
    requires trades != []
    ensures (WinRateOf(trades) < 50.0) <==> 2 * |Filter(trades, IsWin)| < |trades|
  {
    HalfRate(|Filter(trades, IsWin)|, |trades|);
  }

  lemma HalfRate(w: nat, n: nat)
    requires n > 0
    ensures (Percent(w, n) < 50.0) <==> 2 * w < n
  {
    var x := w as real / n as real;
    var m := n as real;
    assert x * m == w as real;
    if x < 0.5 {
      Monotone(x, 0.5, m);
    } else {
      Monotone(0.5, x, m);
    }
  }

  /** Multiplying by a positive number keeps the order. */
  lemma Monotone(a: real, b: real, m: real)
    requires m > 0.0 && a <= b
    ensures a * m <= b * m && (a < b ==> a * m < b * m)
  {
  }

  /** Over a trade history, the "negative profit factor" danger fires
      exactly when there is no losing trade at all (the factor is then 0)
      or the net profit is negative. */
  lemma ProfitFactorVerdict(trades: seq<Trade>)
    ensures (ProfitFactorOf(trades) < 1.0) <==> (Filter(trades, IsLoss) == [] || SumReal(trades, Profit) < 0.0)
  {
    ClassSums(trades);
    WinLossSigns(trades);
    FactorBelowOne(SumReal(Filter(trades, IsWin), Profit), SumReal(Filter(trades, IsLoss), Profit), |Filter(trades, IsLoss)|);
  }

  lemma FactorBelowOne(winSum: real, lossSum: real, losses: nat)
    requires winSum >= 0.0 && (losses > 0 ==> lossSum < 0.0)
    ensures (Factor(winSum, lossSum, losses) < 1.0) <==> (losses == 0 || winSum + lossSum < 0.0)
  {
    if losses > 0 {
      BelowOne(winSum, -lossSum);
    }
  }

  lemma BelowOne(a: real, b: real)
    requires b > 0.0
    ensures (a / b < 1.0) <==> a < b
  {
    var x := a / b;
    assert x * b == a;
    if x < 1.0 {
      Monotone(x, 1.0, b);
    } else {
      Monotone(1.0, x, b);
    }
  }
}

=== FILE: analytics.dfy ===
/** The statistics handlers of backend/app/routers/analytics.py, from the
    point where the user's trades have been fetched. Each handler receives
    the fetched list; the time windows of the daily and weekly handlers are
    applied with OpenedSince. */
module Analytics {
  import opened Wrappers
  import opened Seqs
  import opened Grouping
  import opened Text
  import opened TradeModel
  import opened Tallies

  // ------------------------------------------------------------ dashboard

  datatype DashboardStats = DashboardStats(
    totalTrades: nat,
    winningTrades: nat,
    losingTrades: nat,
    winRate: real,
    totalProfit: real,
    totalLoss: real,
    netProfit: real,
    averageWin: real,
    averageLoss: real,
    profitFactor: real,
    bestTrade: real,
    worstTrade: real,
    averageDuration: real,
    suggestedDailyLoss: real,
    suggestedDailyGain: real)

  const EmptyDashboard: DashboardStats :=
    DashboardStats(0, 0, 0, 0.0, 0.0, 0.0, 0.0, 0.0, 0.0, 0.0, 0.0, 0.0, 0.0, 0.0, 0.0)

  function Duration(t: Trade): int { t.durationMinutes }
  predicate HasDuration(t: Trade) { t.durationMinutes != 0 }

  /** Trades per distinct trading day, with at least one day in the divisor. */
  function TradesPerDay(trades: seq<Trade>): real
  {
    var days := |Keys(trades, TradeDate)|;
    |trades| as real / (if days > 1 then days else 1) as real
  }

  /** The average win earned on the winning share of a day's trades. */
  function ExpectedDailyWin(avgWin: real, perDay: real, winRate: real): real
  {
    avgWin * perDay * (winRate / 100.0)
  }

  /** The dashboard summary. A trade with zero profit is neither a win nor a
      loss. The suggestions fall back to 100 and 200 when there is no
      average loss or no average win. */
  function Dashboard(trades: seq<Trade>): (d: DashboardStats)
    ensures trades == [] ==> d == EmptyDashboard
    ensures d.totalTrades == |trades|
  {
    if trades == [] then EmptyDashboard
    else
      var winning := Filter(trades, IsWin);
      var losing := Filter(trades, IsLoss);
      var totalProfit := if winning != [] then SumReal(winning, Profit) else 0.0;
      var totalLoss := if losing != [] then -SumReal(losing, Profit) else 0.0;
      var winRate := Percent(|winning|, |trades|);
      var avgWin := Mean(SumReal(winning, Profit), |winning|);
      var avgLoss := Mean(-SumReal(losing, Profit), |losing|);
      var durations := Filter(trades, HasDuration);
      DashboardStats(
        |trades|, |winning|, |losing|, winRate,
        totalProfit, totalLoss, SumReal(trades, Profit),
        avgWin, avgLoss,
        if totalLoss > 0.0 then totalProfit / totalLoss else 0.0,
        trades[ArgMaxFirst(trades, Profit)].profit, trades[ArgMinFirst(trades, Profit)].profit,
        Mean(SumInt(durations, Duration) as real, |durations|),
        if avgLoss != 0.0 then avgLoss * 2.0 else 100.0,
        if avgWin != 0.0 then ExpectedDailyWin(avgWin, TradesPerDay(trades), winRate) else 200.0)
  }

  /** Wins are the trades with positive profit and losses those with
      negative profit, so together they are at most all trades; the net
      profit is the total profit minus the total loss; the win rate is a
      percentage. */
  lemma DashboardCounts(trades: seq<Trade>)
    ensures var d := Dashboard(trades);
      && d.winningTrades == |Filter(trades, IsWin)| && d.losingTrades == |Filter(trades, IsLoss)|
      && d.winningTrades + d.losingTrades <= d.totalTrades
      && d.netProfit == SumReal(trades, Profit) == d.totalProfit - d.totalLoss
      && d.totalProfit >= 0.0 && d.totalLoss >= 0.0
      && 0.0 <= d.winRate <= 100.0
  {
    ClassCounts(trades);
    ClassSums(trades);
    WinLossSigns(trades);
    PercentRange(|Filter(trades, IsWin)|, |trades|);
  }

  /** The averages are the total profit and total loss spread over the
      win and loss counts, both non-negative; the profit factor is the total
      profit over the total loss when there is a loss, 0 otherwise, and
      never negative. */
  lemma DashboardRatios(trades: seq<Trade>)
    ensures var d := Dashboard(trades);
      && d.averageWin == Mean(d.totalProfit, d.winningTrades)
      && d.averageLoss == Mean(d.totalLoss, d.losingTrades)
      && d.averageWin >= 0.0 && d.averageLoss >= 0.0
      && (d.totalLoss > 0.0 ==> d.profitFactor == d.totalProfit / d.totalLoss)
      && (d.totalLoss == 0.0 ==> d.profitFactor == 0.0)
      && d.profitFactor >= 0.0
  {
    if trades != [] {
      WinLossSigns(trades);
      var winning := Filter(trades, IsWin);
      var losing := Filter(trades, IsLoss);
      var tp := if winning != [] then SumReal(winning, Profit) else 0.0;
      var tl := if losing != [] then -SumReal(losing, Profit) else 0.0;
      var d := Dashboard(trades);
      assert d.totalProfit == tp && d.totalLoss == tl && tp >= 0.0 && tl >= 0.0;
      assert d.averageWin == Mean(SumReal(winning, Profit), |winning|);
      assert d.averageLoss == Mean(-SumReal(losing, Profit), |losing|);
      MeanSign(SumReal(winning, Profit), |winning|);
      MeanSign(-SumReal(losing, Profit), |losing|);
      if tl > 0.0 {
        QuotientFacts(tp, tl);
      }
    }
  }

  /** The best and worst trades are the largest and smallest profits. */
  lemma DashboardExtremes(trades: seq<Trade>)
    requires trades != []
    ensures var d := Dashboard(trades);
      && (forall t :: t in trades ==> d.worstTrade <= t.profit <= d.bestTrade)
      && (exists t :: t in trades && t.profit == d.bestTrade)
      && (exists t :: t in trades && t.profit == d.worstTrade)
  {
    var best := ArgMaxFirst(trades, Profit);
    var worst := ArgMinFirst(trades, Profit);
    assert trades[best] in trades && trades[worst] in trades;
    forall t | t in trades
      ensures trades[worst].profit <= t.profit <= trades[best].profit
    {
      var i :| 0 <= i < |trades| && trades[i] == t;
      assert Profit(trades[i]) <= Profit(trades[best]);
      assert Profit(trades[worst]) <= Profit(trades[i]);
    }
  }

  /** The suggested daily loss is twice the average loss, or 100 without
      one; the suggested daily gain is the average win times the trades per
      trading day times the win rate, or 200 without an average win; at
      least one trade per day is assumed. */
  lemma DashboardSuggestions(trades: seq<Trade>)
    requires trades != []
    ensures var d := Dashboard(trades);
      && (d.averageLoss == 0.0 ==> d.suggestedDailyLoss == 100.0)
      && (d.averageLoss != 0.0 ==> d.suggestedDailyLoss == 2.0 * d.averageLoss)
      && (d.averageWin == 0.0 ==> d.suggestedDailyGain == 200.0)
      && (d.averageWin != 0.0 ==> d.suggestedDailyGain == ExpectedDailyWin(d.averageWin, TradesPerDay(trades), d.winRate))
      && TradesPerDay(trades) >= 1.0
  {
    var d := Dashboard(trades);
    var winning := Filter(trades, IsWin);
    var losing := Filter(trades, IsLoss);
    var avgWin := Mean(SumReal(winning, Profit), |winning|);
    var avgLoss := Mean(-SumReal(losing, Profit), |losing|);
    var winRate := Percent(|winning|, |trades|);
    var perDay := TradesPerDay(trades);
    assert d.averageWin == avgWin && d.averageLoss == avgLoss && d.winRate == winRate;
    KeysSpec(trades, TradeDate);
    var days := |Keys(trades, TradeDate)|;
    var m := if days > 1 then days else 1;
    QuotientFacts(|trades| as real, m as real);
  }

  /** Arithmetic facts about a quotient by a positive number. */
  lemma QuotientFacts(a: real, b: real)
    requires b > 0.0
    ensures (a / b) * b == a
    ensures a >= 0.0 ==> a / b >= 0.0
    ensures a >= b ==> a / b >= 1.0
  {
  }

  lemma MeanSign(total: real, n: nat)
    requires total >= 0.0
    ensures Mean(total, n) >= 0.0
  {
    if n > 0 {
      QuotientFacts(total, n as real);
    }
  }

  // --------------------------------------------------------------- hourly

  datatype HourRow = HourRow(hour: int, hourLabel: string, trades: nat, profit: real, winRate: real)

  function HourTrades(r: HourRow): int { r.trades }
  function HourProfit(r: HourRow): real { r.profit }

  /** The row of hour h: the tally of the trades opened in that hour. */
  function HourRowOf(trades: seq<Trade>, h: int): HourRow
    requires 0 <= h < 24
  {
    var t := TallyOf(Select(trades, TradeHour, h));
    HourRow(h, TwoDigits(h) + ":00", t.trades, t.profit, Percent(t.wins, t.trades))
  }

  /** The hours 0..23, the keys the hourly dictionary is prefilled with. */
  function Hours(): (ks: seq<int>)
    ensures |ks| == 24 && forall j :: 0 <= j < 24 ==> ks[j] == j
  {
    seq(24, j => j)
  }

  /** Hourly performance: 24 rows, one per hour in order, each the tally of
      the trades opened in that hour, an empty hour with win rate 0; the
      rows' trade counts add up to the number of trades and their profits
      to the net profit. */
  method HourlyPerformance(trades: seq<Trade>) returns (result: seq<HourRow>)
    ensures |result| == 24
    ensures forall h :: 0 <= h < 24 ==> result[h] == HourRowOf(trades, h)
    ensures forall h :: 0 <= h < 24 ==> result[h].hour == h && 0.0 <= result[h].winRate <= 100.0
    ensures forall h :: 0 <= h < 24 && result[h].trades == 0 ==> result[h].winRate == 0.0
    ensures SumInt(result, HourTrades) == |trades|
    ensures SumReal(result, HourProfit) == SumReal(trades, Profit)
  {
    var data: map<int, Tally> := map[];
    var h := 0;
    while h < 24
      invariant 0 <= h <= 24
      invariant forall k :: k in data <==> 0 <= k < h
      invariant forall k :: k in data ==> data[k] == EmptyTally
    {
      data := data[h := EmptyTally];
      h := h + 1;
    }
    var i := 0;
    while i < |trades|
      invariant 0 <= i <= |trades|
      invariant forall k :: k in data <==> 0 <= k < 24
      invariant forall k :: 0 <= k < 24 ==> data[k] == TallyOf(Select(trades[..i], TradeHour, k))
    {
      var t := trades[i];
      var hour := HourOf(t.openTime);
      data := data[hour := AddTrade(data[hour], t)];
      PrefixStep(trades, i);
      forall k | 0 <= k < 24
        ensures data[k] == TallyOf(Select(trades[..i + 1], TradeHour, k))
      {
        TallyUpdate(trades[..i], t, TradeHour, k);
      }
      i := i + 1;
    }
    assert trades[..i] == trades;
    result := [];
    h := 0;
    while h < 24
      invariant 0 <= h <= 24 && |result| == h
      invariant forall k :: 0 <= k < h ==> result[k] == HourRowOf(trades, k)
    {
      var d := data[h];
      var winRate := Percent(d.wins, d.trades);
      result := result + [HourRow(h, TwoDigits(h) + ":00", d.trades, d.profit, winRate)];
      h := h + 1;
    }
    HourlyTotals(trades, result);
    forall h | 0 <= h < 24
      ensures 0.0 <= result[h].winRate <= 100.0
    {
      var t := TallyOf(Select(trades, TradeHour, h));
      PercentRange(t.wins, t.trades);
    }
  }

  lemma HourlyTotals(trades: seq<Trade>, rows: seq<HourRow>)
    requires |rows| == 24 && forall h :: 0 <= h < 24 ==> rows[h] == HourRowOf(trades, h)
    ensures SumInt(rows, HourTrades) == |trades|
    ensures SumReal(rows, HourProfit) == SumReal(trades, Profit)
  {
    var ks := Hours();
    assert Covers(ks, trades, TradeHour) by {
      forall i | 0 <= i < |trades| ensures TradeHour(trades[i]) in ks {
        assert ks[TradeHour(trades[i])] == TradeHour(trades[i]);
      }
    }
    Partition(trades, TradeHour, ks, rows, HourProfit, Profit, HourTrades);
  }

  // --------------------------------------------------------------- symbol

  datatype SymbolRow = SymbolRow(symbol: string, trades: nat, profit: real, winRate: real, averageProfit: real)

  function SymbolTrades(r: SymbolRow): int { r.trades }
  function SymbolProfit(r: SymbolRow): real { r.profit }
  /** Sort key of `sort(key=profit, reverse=True)`. */
  function SymbolOrder(r: SymbolRow): real { -r.profit }

  function SymbolRowOf(trades: seq<Trade>, k: string): SymbolRow
  {
    var t := TallyOf(Select(trades, TradeSymbol, k));
    SymbolRow(k, t.trades, t.profit, Percent(t.wins, t.trades), Mean(t.profit, t.trades))
  }

  function SymbolRows(trades: seq<Trade>, ks: seq<string>): (rows: seq<SymbolRow>)
    ensures |rows| == |ks| && forall j :: 0 <= j < |ks| ==> rows[j] == SymbolRowOf(trades, ks[j])
  {
    seq(|ks|, j requires 0 <= j < |ks| => SymbolRowOf(trades, ks[j]))
  }

  /** Symbol performance: one row per distinct symbol, each the tally of
      that symbol's trades with its average profit, ordered by descending
      profit; counts add up to the number of trades and profits to the net
      profit. */
  method SymbolPerformance(trades: seq<Trade>) returns (result: seq<SymbolRow>)
    ensures multiset(result) == multiset(SymbolRows(trades, Keys(trades, TradeSymbol)))
    ensures forall i, j :: 0 <= i < j < |result| ==> result[i].profit >= result[j].profit
    ensures SumInt(result, SymbolTrades) == |trades|
    ensures SumReal(result, SymbolProfit) == SumReal(trades, Profit)
  {
    var order, data := GroupTallies(trades, TradeSymbol);
    var rows := SymbolRowsFrom(trades, order, data);
    result := SortBy(rows, SymbolOrder);
    SymbolTotals(trades, rows, result);
  }

  /** The loop that turns each symbol's tally into its row, in key order. */
  method SymbolRowsFrom(trades: seq<Trade>, order: seq<string>, data: map<string, Tally>) returns (rows: seq<SymbolRow>)
    requires Grouped(trades, TradeSymbol, order, data)
    ensures rows == SymbolRows(trades, order)
  {
    rows := [];
    var j := 0;
    while j < |order|
      invariant 0 <= j <= |order| && |rows| == j
      invariant forall k :: 0 <= k < j ==> rows[k] == SymbolRowOf(trades, order[k])
    {
      var d := data[order[j]];
      var winRate := Percent(d.wins, d.trades);
      var average := Mean(d.profit, d.trades);
      rows := rows + [SymbolRow(order[j], d.trades, d.profit, winRate, average)];
      j := j + 1;
    }
  }

  /** The symbol rows, in any order, add up to the trades' count and profit. */
  lemma SymbolTotals(trades: seq<Trade>, rows: seq<SymbolRow>, result: seq<SymbolRow>)
    requires rows == SymbolRows(trades, Keys(trades, TradeSymbol))
    requires multiset(result) == multiset(rows)
    ensures SumInt(result, SymbolTrades) == |trades|
    ensures SumReal(result, SymbolProfit) == SumReal(trades, Profit)
  {
    KeysSpec(trades, TradeSymbol);
    Partition(trades, TradeSymbol, Keys(trades, TradeSymbol), rows, SymbolProfit, Profit, SymbolTrades);
    SumRealPerm(result, rows, SymbolProfit);
    SumIntPerm(result, rows, SymbolTrades);
  }

  /** The row of a symbol that occurs has at least one trade, and its
      average times its count is its profit. */
  lemma SymbolRowOfKey(trades: seq<Trade>, k: string, r: SymbolRow)
    requires k in Keys(trades, TradeSymbol) && r == SymbolRowOf(trades, k)
    ensures r.trades > 0 && r.averageProfit == Mean(r.profit, r.trades)
  {
    var sel := Select(trades, TradeSymbol, k);
    assert |sel| > 0 by {
      KeysSpec(trades, TradeSymbol);
    }
    var t := TallyOf(sel);
    assert r.trades == t.trades && r.profit == t.profit && r.averageProfit == Mean(t.profit, t.trades);
  }

  /** A key of the grouping is the symbol of some trade. */
  lemma SymbolOccurs(trades: seq<Trade>, k: string)
    requires k in Keys(trades, TradeSymbol)
    ensures exists t :: t in trades && t.symbol == k
  {
    var sel := Select(trades, TradeSymbol, k);
    assert |sel| > 0 by {
      KeysSpec(trades, TradeSymbol);
    }
    SelectMembers(trades, TradeSymbol, k);
    var x := sel[0];
    assert x in sel;
    assert x in trades && TradeSymbol(x) == k;
  }

  /** The symbol of every trade is a key of the grouping. */
  lemma SymbolIsKey(trades: seq<Trade>, t: Trade)
    requires t in trades
    ensures t.symbol in Keys(trades, TradeSymbol)
  {
    KeysSpec(trades, TradeSymbol);
    var i :| 0 <= i < |trades| && trades[i] == t;
    assert TradeSymbol(trades[i]) in Keys(trades, TradeSymbol);
  }

  /** Every symbol row is the row of one symbol that occurs in the trades:
      it has at least one trade and its average times its count is its profit. */
  lemma SymbolRowsSound(trades: seq<Trade>, rows: seq<SymbolRow>)
    requires multiset(rows) == multiset(SymbolRows(trades, Keys(trades, TradeSymbol)))
    ensures |rows| == |Keys(trades, TradeSymbol)|
    ensures forall r :: r in rows ==> r.trades > 0 && r.averageProfit == Mean(r.profit, r.trades)
    ensures forall r :: r in rows ==> exists t :: t in trades && t.symbol == r.symbol
  {
    var ks := Keys(trades, TradeSymbol);
    var spec := SymbolRows(trades, ks);
    assert |rows| == |multiset(rows)| == |multiset(spec)| == |spec|;
    forall r | r in rows
      ensures r.trades > 0 && r.averageProfit == Mean(r.profit, r.trades)
      ensures exists t :: t in trades && t.symbol == r.symbol
    {
      assert r in multiset(spec);
      var j :| 0 <= j < |spec| && spec[j] == r;
      SymbolRowOfKey(trades, ks[j], r);
      SymbolOccurs(trades, ks[j]);
    }
  }

  /** Every symbol of the trades has a row. */
  lemma SymbolRowsComplete(trades: seq<Trade>, rows: seq<SymbolRow>)
    requires multiset(rows) == multiset(SymbolRows(trades, Keys(trades, TradeSymbol)))
    ensures forall t :: t in trades ==> exists r :: r in rows && r.symbol == t.symbol
  {
    var ks := Keys(trades, TradeSymbol);
    var spec := SymbolRows(trades, ks);
    forall t | t in trades
      ensures exists r :: r in rows && r.symbol == t.symbol
    {
      SymbolIsKey(trades, t);
      var j :| 0 <= j < |ks| && ks[j] == t.symbol;
      assert spec[j] in multiset(rows);
      assert spec[j] in rows;
    }
  }

  // ---------------------------------------------------------------- daily

  datatype DayTally = DayTally(date: int, profit: real, trades: nat, wins: nat)
  datatype DayRow = DayRow(date: int, profit: real, cumulative: real, trades: nat, winRate: real)

  function DayOrder(d: DayTally): real { d.date as real }
  function DayTallyProfit(d: DayTally): real { d.profit }
  function DayTallyTrades(d: DayTally): int { d.trades }
  function DayRowProfit(r: DayRow): real { r.profit }

  function DayTallyOf(trades: seq<Trade>, date: int): DayTally
  {
    var t := TallyOf(Select(trades, TradeDate, date));
    DayTally(date, t.profit, t.trades, t.wins)
  }

  /** The daily window: trades opened at most `days` days before `now`. */
  function DailyWindow(trades: seq<Trade>, days: int, now: int): seq<Trade>
  {
    OpenedSince(trades, now - days * SecondsPerDay)
  }

  /** The tallies of the window's distinct dates, in order of first appearance. */
  function DayTalliesOf(window: seq<Trade>): (ds: seq<DayTally>)
    ensures var ks := Keys(window, TradeDate);
      |ds| == |ks| && forall j :: 0 <= j < |ks| ==> ds[j] == DayTallyOf(window, ks[j])
  {
    var ks := Keys(window, TradeDate);
    seq(|ks|, j requires 0 <= j < |ks| => DayTallyOf(window, ks[j]))
  }

  /** What the daily handler returns for a window: one row per distinct
      open date in ascending date order, each with that day's profit, trade
      count and win rate, and the running cumulative profit, whose last
      value is the window's net profit. */
  ghost predicate DailyRows(window: seq<Trade>, rows: seq<DayRow>)
  {
    var ks := Keys(window, TradeDate);
    && |rows| == |ks|
    && (forall i, j :: 0 <= i < j < |rows| ==> rows[i].date < rows[j].date)
    && (forall d :: d in ks ==> exists i :: 0 <= i < |rows| && rows[i].date == d)
    && (forall i :: 0 <= i < |rows| ==>
          && rows[i].date in ks
          && rows[i].profit == DayTallyOf(window, rows[i].date).profit
          && rows[i].trades == DayTallyOf(window, rows[i].date).trades
          && rows[i].winRate == Percent(DayTallyOf(window, rows[i].date).wins, rows[i].trades))
    && (forall i :: 0 <= i < |rows| ==> rows[i].cumulative == SumReal(rows[..i + 1], DayRowProfit))
    && (rows == [] <==> window == [])
    && (rows != [] ==> rows[|rows| - 1].cumulative == SumReal(window, Profit))
  }

  /** Daily performance over the last `days` days; `days` outside 7..365 is
      rejected with 422. */
  method DailyPerformance(trades: seq<Trade>, days: int, now: int) returns (r: Result<seq<DayRow>, int>)
    ensures !(7 <= days <= 365) <==> r == Err(422)
    ensures r.Ok? ==> DailyRows(DailyWindow(trades, days, now), r.value)
  {
    if !(7 <= days <= 365) {
      return Err(422);
    }
    var window := DailyWindow(trades, days, now);
    var tallies := DayTallies(window);
    var sorted := SortBy(tallies, DayOrder);
    var rows := Cumulate(sorted);
    DailyRowsHold(window, sorted, rows);
    return Ok(rows);
  }

  /** The grouping loop of the daily handler: the tallies of the distinct
      dates in order of first appearance. */
  method DayTallies(window: seq<Trade>) returns (tallies: seq<DayTally>)
    ensures tallies == DayTalliesOf(window)
  {
    var order, data := GroupTallies(window, TradeDate);
    tallies := [];
    var j := 0;
    while j < |order|
      invariant 0 <= j <= |order| && |tallies| == j
      invariant forall k :: 0 <= k < j ==> tallies[k] == DayTallyOf(window, order[k])
    {
      var d := data[order[j]];
      tallies := tallies + [DayTally(order[j], d.profit, d.trades, d.wins)];
      j := j + 1;
    }
  }

  /** The output loop of the daily handler: each day's row with the running
      cumulative profit up to and including that day. */
  method Cumulate(sorted: seq<DayTally>) returns (rows: seq<DayRow>)
    ensures |rows| == |sorted|
    ensures forall k :: 0 <= k < |rows| ==>
      rows[k] == DayRow(sorted[k].date, sorted[k].profit, SumReal(sorted[..k + 1], DayTallyProfit),
                        sorted[k].trades, Percent(sorted[k].wins, sorted[k].trades))
  {
    rows := [];
    var cumulative := 0.0;
    var j := 0;
    while j < |sorted|
      invariant 0 <= j <= |sorted| && |rows| == j
      invariant forall k :: 0 <= k < j ==>
        rows[k] == DayRow(sorted[k].date, sorted[k].profit, SumReal(sorted[..k + 1], DayTallyProfit),
                          sorted[k].trades, Percent(sorted[k].wins, sorted[k].trades))
      invariant cumulative == SumReal(sorted[..j], DayTallyProfit)
    {
      var d := sorted[j];
      cumulative := cumulative + d.profit;
      SumRealSnoc(sorted[..j], d, DayTallyProfit);
      PrefixStep(sorted, j);
      var winRate := Percent(d.wins, d.trades);
      rows := rows + [DayRow(d.date, d.profit, cumulative, d.trades, winRate)];
      j := j + 1;
    }
  }

  /** Sorting the day tallies and accumulating them yields the rows the
      daily handler promises. */
  lemma DailyRowsHold(window: seq<Trade>, sorted: seq<DayTally>, rows: seq<DayRow>)
    requires multiset(sorted) == multiset(DayTalliesOf(window)) && SortedBy(sorted, DayOrder)
    requires |rows| == |sorted|
    requires forall k :: 0 <= k < |rows| ==>
      rows[k] == DayRow(sorted[k].date, sorted[k].profit, SumReal(sorted[..k + 1], DayTallyProfit),
                        sorted[k].trades, Percent(sorted[k].wins, sorted[k].trades))
    ensures DailyRows(window, rows)
  {
    var ks := Keys(window, TradeDate);
    DayTalliesFaithful(window, ks, DayTalliesOf(window), sorted);
    forall i | 0 <= i < |rows|
      ensures rows[i].date in ks
      ensures rows[i].profit == DayTallyOf(window, rows[i].date).profit
      ensures rows[i].trades == DayTallyOf(window, rows[i].date).trades
      ensures rows[i].winRate == Percent(DayTallyOf(window, rows[i].date).wins, rows[i].trades)
    {
      assert sorted[i] == DayTallyOf(window, sorted[i].date);
    }
    DayTalliesDistinct(window, sorted);
    forall i, j | 0 <= i < j < |rows| ensures rows[i].date < rows[j].date {
      assert DayOrder(sorted[i]) <= DayOrder(sorted[j]);
    }
    forall d | d in ks ensures exists i :: 0 <= i < |rows| && rows[i].date == d {
      var i :| 0 <= i < |sorted| && sorted[i].date == d;
      assert rows[i].date == d;
    }
    forall i | 0 <= i < |rows| ensures rows[i].cumulative == SumReal(rows[..i + 1], DayRowProfit) {
      SumRealPointwise(rows[..i + 1], DayRowProfit, sorted[..i + 1], DayTallyProfit);
    }
    DailyTotal(window, sorted, rows);
  }

  /** Any ordering of the day tallies has one tally per date of the window:
      no date twice, and none missing. */
  lemma DayTalliesDistinct(window: seq<Trade>, sorted: seq<DayTally>)
    requires multiset(sorted) == multiset(DayTalliesOf(window))
    ensures forall i, j :: 0 <= i < j < |sorted| ==> sorted[i].date != sorted[j].date
    ensures forall d :: d in Keys(window, TradeDate) ==> exists i :: 0 <= i < |sorted| && sorted[i].date == d
  {
    var ks := Keys(window, TradeDate);
    var tallies := DayTalliesOf(window);
    KeysSpec(window, TradeDate);
    DayTalliesFaithful(window, ks, tallies, sorted);
    forall i, j | 0 <= i < j < |tallies| ensures tallies[i] != tallies[j] {
      assert tallies[i].date == ks[i] && tallies[j].date == ks[j];
    }
    forall i, j | 0 <= i < j < |sorted| ensures sorted[i].date != sorted[j].date {
      if sorted[i].date == sorted[j].date {
        assert sorted[i] == sorted[j];
        DuplicateCount(sorted, i, j);
        DistinctCount(tallies, sorted[i]);
        assert false;
      }
    }
    forall d | d in ks ensures exists i :: 0 <= i < |sorted| && sorted[i].date == d {
      var k :| 0 <= k < |ks| && ks[k] == d;
      assert tallies[k] in multiset(sorted);
      var i :| 0 <= i < |sorted| && sorted[i] == tallies[k];
      assert sorted[i].date == d;
    }
  }

  /** The daily rows are empty exactly for an empty window, and the last
      cumulative profit is the window's net profit. */
  lemma DailyTotal(window: seq<Trade>, sorted: seq<DayTally>, rows: seq<DayRow>)
    requires multiset(sorted) == multiset(DayTalliesOf(window))
    requires |rows| == |sorted|
    requires forall k :: 0 <= k < |rows| ==> rows[k].cumulative == SumReal(sorted[..k + 1], DayTallyProfit)
    ensures rows == [] <==> window == []
    ensures rows != [] ==> rows[|rows| - 1].cumulative == SumReal(window, Profit)
  {
    var ks := Keys(window, TradeDate);
    var tallies := DayTalliesOf(window);
    assert |sorted| == |multiset(sorted)| == |multiset(tallies)| == |ks|;
    KeysSpec(window, TradeDate);
    if window != [] {
      var n := |rows|;
      assert sorted[..n] == sorted;
      forall j | 0 <= j < |ks|
        ensures DayTallyProfit(tallies[j]) == SumReal(Select(window, TradeDate, ks[j]), Profit)
        ensures DayTallyTrades(tallies[j]) == |Select(window, TradeDate, ks[j])|
      {
        assert tallies[j] == DayTallyOf(window, ks[j]);
      }
      Partition(window, TradeDate, ks, tallies, DayTallyProfit, Profit, DayTallyTrades);
      SumRealPerm(sorted, tallies, DayTallyProfit);
    }
  }

  /** The sorted day tallies are the tallies of the window's distinct dates. */
  lemma DayTalliesFaithful(window: seq<Trade>, order: seq<int>, tallies: seq<DayTally>, sorted: seq<DayTally>)
    requires order == Keys(window, TradeDate)
    requires |tallies| == |order| && forall k :: 0 <= k < |order| ==> tallies[k] == DayTallyOf(window, order[k])
    requires multiset(sorted) == multiset(tallies)
    ensures |sorted| == |order|
    ensures forall i :: 0 <= i < |sorted| ==> sorted[i].date in order && sorted[i] == DayTallyOf(window, sorted[i].date)
  {
    assert |sorted| == |multiset(sorted)| == |multiset(tallies)| == |tallies|;
    forall i | 0 <= i < |sorted|
      ensures sorted[i].date in order && sorted[i] == DayTallyOf(window, sorted[i].date)
    {
      assert sorted[i] in multiset(tallies);
      var k :| 0 <= k < |tallies| && tallies[k] == sorted[i];
    }
  }

  // --------------------------------------------------------------- weekly

  datatype DayFigure = DayFigure(day: string, profit: real)
  datatype WeeklyStats = WeeklyStats(startDate: int, endDate: int, totalTrades: nat, netProfit: real,
                                     winRate: real, bestDay: Option<DayFigure>, worstDay: Option<DayFigure>)

  function FigureProfit(f: DayFigure): real { f.profit }

  /** The first day of the current week (Monday) as a day number. */
  function WeekStart(now: int): int
  {
    DateOf(now) - WeekdayOf(now)
  }

  function WeekdayProfit(window: seq<Trade>, day: string): real
  {
    KeyProfit(window, TradeWeekday, day)
  }

  /** Weekly statistics since Monday 00:00 of the current week. An empty
      week reports zeros and no best or worst day; otherwise the best and
      worst days are the weekday names with the largest and smallest summed
      profit, the first such day in order of appearance on ties. */
  method WeeklyStatsOf(trades: seq<Trade>, now: int) returns (w: WeeklyStats)
    ensures var window := OpenedSince(trades, WeekStart(now) * SecondsPerDay);
      && w.startDate == WeekStart(now) && w.endDate == DateOf(now)
      && w.totalTrades == |window| && w.netProfit == SumReal(window, Profit)
      && w.winRate == Percent(|Filter(window, IsWin)|, |window|)
      && (window == [] <==> w.bestDay.None?)
      && (window == [] <==> w.worstDay.None?)
      && (window != [] ==> WeekExtremes(window, w.bestDay.value, w.worstDay.value))
  {
    var window := OpenedSince(trades, WeekStart(now) * SecondsPerDay);
    if window == [] {
      return WeeklyStats(WeekStart(now), DateOf(now), 0, 0.0, 0.0, None, None);
    }
    var order, daily := GroupProfits(window, TradeWeekday);
    var items := Figures(order, daily);
    assert |items| > 0 by {
      KeysSpec(window, TradeWeekday);
    }
    forall j | 0 <= j < |items|
      ensures items[j] == DayFigure(order[j], WeekdayProfit(window, order[j]))
    {
      assert order[j] in order;
    }
    var best := items[ArgMaxFirst(items, FigureProfit)];
    var worst := items[ArgMinFirst(items, FigureProfit)];
    ExtremesOfItems(window, items);
    var wins := Filter(window, IsWin);
    w := WeeklyStats(WeekStart(now), DateOf(now), |window|, SumReal(window, Profit),
                     Percent(|wins|, |window|), Some(best), Some(worst));
  }

  /** The weekday figures in order of first appearance. */
  function Figures(order: seq<string>, daily: map<string, real>): (items: seq<DayFigure>)
    requires forall k :: k in order ==> k in daily
    ensures |items| == |order| && forall j :: 0 <= j < |order| ==> items[j] == DayFigure(order[j], daily[order[j]])
  {
    seq(|order|, j requires 0 <= j < |order| => DayFigure(order[j], daily[order[j]]))
  }

  /** The first maximal and first minimal items of the weekday figures are
      the week's extremes. */
  lemma ExtremesOfItems(window: seq<Trade>, items: seq<DayFigure>)
    requires |items| == |Keys(window, TradeWeekday)| > 0
    requires forall j :: 0 <= j < |items| ==> items[j] == DayFigure(Keys(window, TradeWeekday)[j], WeekdayProfit(window, Keys(window, TradeWeekday)[j]))
    ensures WeekExtremes(window, items[ArgMaxFirst(items, FigureProfit)], items[ArgMinFirst(items, FigureProfit)])
  {
    var ks := Keys(window, TradeWeekday);
    KeysSpec(window, TradeWeekday);
    var b := ArgMaxFirst(items, FigureProfit);
    var m := ArgMinFirst(items, FigureProfit);
    forall j | 0 <= j < |ks|
      ensures items[m].profit <= WeekdayProfit(window, ks[j]) <= items[b].profit
    {
      assert FigureProfit(items[j]) <= FigureProfit(items[b]);
      assert FigureProfit(items[m]) <= FigureProfit(items[j]);
    }
    forall j, k | 0 <= j < k < |ks| && ks[k] == items[b].day
      ensures WeekdayProfit(window, ks[j]) < items[b].profit
    {
      assert k == b;
      assert FigureProfit(items[j]) < FigureProfit(items[b]);
    }
    forall j, k | 0 <= j < k < |ks| && ks[k] == items[m].day
      ensures WeekdayProfit(window, ks[j]) > items[m].profit
    {
      assert k == m;
      assert FigureProfit(items[m]) < FigureProfit(items[j]);
    }
  }

  /** best and worst are the extreme weekdays of the window, each the first
      weekday in order of appearance that reaches its extreme. */
  ghost predicate WeekExtremes(window: seq<Trade>, best: DayFigure, worst: DayFigure)
  {
    var ks := Keys(window, TradeWeekday);
    && best.day in ks && best.profit == WeekdayProfit(window, best.day)
    && worst.day in ks && worst.profit == WeekdayProfit(window, worst.day)
    && (forall j :: 0 <= j < |ks| ==> worst.profit <= WeekdayProfit(window, ks[j]) <= best.profit)
    && (forall j, k :: 0 <= j < k < |ks| && ks[k] == best.day ==> WeekdayProfit(window, ks[j]) < best.profit)
    && (forall j, k :: 0 <= j < k < |ks| && ks[k] == worst.day ==> WeekdayProfit(window, ks[j]) > worst.profit)
  }

  /** The best day's profit is never below the worst day's. */
  lemma BestNotBelowWorst(window: seq<Trade>, best: DayFigure, worst: DayFigure)
    requires WeekExtremes(window, best, worst)
    ensures worst.profit <= best.profit
  {
    var ks := Keys(window, TradeWeekday);
    var j :| 0 <= j < |ks| && ks[j] == best.day;
    assert worst.profit <= WeekdayProfit(window, ks[j]);
  }

  // -------------------------------------------------------------- monthly

  datatype MonthlyStats = MonthlyStats(totalTrades: nat, netProfit: real, winRate: real,
                                       tradingDays: nat, averageDailyProfit: real)

  /** Monthly statistics over the fetched trades of the month: the trading
      days are the distinct open dates and the average daily profit is the
      net profit spread over them. */
  function Monthly(trades: seq<Trade>): (m: MonthlyStats)
    ensures trades == [] ==> m == MonthlyStats(0, 0.0, 0.0, 0, 0.0)
    ensures m.totalTrades == |trades| && m.netProfit == SumReal(trades, Profit)
    ensures 0.0 <= m.winRate <= 100.0
    ensures m.tradingDays == |Keys(trades, TradeDate)| <= |trades|
    ensures trades != [] ==> 1 <= m.tradingDays && m.averageDailyProfit == Mean(m.netProfit, m.tradingDays)
  {
    KeysSpec(trades, TradeDate);
    PercentRange(|Filter(trades, IsWin)|, |trades|);
    if trades == [] then MonthlyStats(0, 0.0, 0.0, 0, 0.0)
    else
      var days := |Keys(trades, TradeDate)|;
      MonthlyStats(|trades|, SumReal(trades, Profit), Percent(|Filter(trades, IsWin)|, |trades|),
                   days, Mean(SumReal(trades, Profit), days))
  }
}


=== FILE: csv_parser.dfy ===
/** backend/app/services/csv_parser.py: a CSV export, as pandas reads it,
    turned into trade dictionaries. Column names are normalised and matched
    against per-field alias lists; each row is converted on its own, and a
    row whose conversion fails is skipped. The library calls the parser
    relies on (`float`, `int` and `str` on cell values, `strptime`) are
    parameters. */
module CsvParser {
  import opened Wrappers
  import opened Seqs
  import opened Text
  import opened TradeModel

  // ------------------------------------------------------------- input

  /** A cell as pandas delivers it: missing (NaN), a number from an int64 or
      float64 column, or text. */
  datatype Cell = Missing | Num(value: real) | Str(text: string)

  /** A parsed file: the header, whether pandas typed each column as int64
      or float64, and the rows. */
  datatype Frame = Frame(columns: seq<string>, numeric: seq<bool>, rows: seq<seq<Cell>>)

  /** The shape every pandas frame has: one type and one cell per column. */
  predicate Rectangular(f: Frame)
  {
    |f.numeric| == |f.columns| && forall r :: r in f.rows ==> |r| == |f.columns|
  }

  /** The library behaviour the parser depends on: `float(text)`,
      `int(text)`, `str(number)` and `datetime.strptime(text, fmt)` (in
      seconds), each None where Python raises. */
  datatype Library = Library(
    parseFloat: string -> Option<real>,
    parseInt: string -> Option<int>,
    numberText: real -> string,
    parseDate: (string, string) -> Option<int>)

  // ------------------------------------------------------ column names

  /** `str.lower().str.strip().str.replace(' ', '_')` on a column name. */
  function NormalizeName(c: string): string
  {
    ReplaceChar(Strip(Lower(c)), ' ', '_')
  }

  /** A name as normalisation leaves it: no capital letter, no space, and
      no white space at either end. */
  predicate Normalized(c: string)
  {
    && (forall i :: 0 <= i < |c| ==> !('A' <= c[i] <= 'Z') && c[i] != ' ')
    && (c != [] ==> !IsSpace(c[0]) && !IsSpace(c[|c| - 1]))
  }

  /** Normalisation gives a normalised name and changes nothing in one, so
      applying it twice is applying it once. */
  lemma NormalizeNameSpec(c: string)
    ensures Normalized(NormalizeName(c))
    ensures Normalized(c) ==> NormalizeName(c) == c
    ensures NormalizeName(NormalizeName(c)) == NormalizeName(c)
  {
    NormalizedResult(c);
    if Normalized(c) {
      NormalizedIdentity(c);
    }
    NormalizedIdentity(NormalizeName(c));
  }

  /** No capital letter in a text. */
  predicate NoCapitals(s: string)
  {
    forall i :: 0 <= i < |s| ==> !('A' <= s[i] <= 'Z')
  }

  lemma NormalizedResult(c: string)
    ensures Normalized(NormalizeName(c))
  {
    var l := Lower(c);
    LowerNoCapitals(c);
    StripKeeps(l);
    var i, j :| 0 <= i <= j <= |l| && Strip(l) == l[i..j];
    SliceNoCapitals(l, i, j);
    ReplaceNormalized(Strip(l));
  }

  lemma LowerNoCapitals(c: string)
    ensures NoCapitals(Lower(c))
  {
    forall k | 0 <= k < |c| ensures !('A' <= Lower(c)[k] <= 'Z') {
      assert Lower(c)[k] == LowerChar(c[k]);
    }
  }

  lemma SliceNoCapitals(l: string, i: nat, j: nat)
    requires NoCapitals(l) && i <= j <= |l|
    ensures NoCapitals(l[i..j])
  {
    forall k | 0 <= k < j - i ensures !('A' <= l[i..j][k] <= 'Z') {
      assert l[i..j][k] == l[i + k];
    }
  }

  /** Replacing spaces in a stripped text without capitals normalises it. */
  lemma ReplaceNormalized(s: string)
    requires NoCapitals(s)
    requires s != [] ==> !IsSpace(s[0]) && !IsSpace(s[|s| - 1])
    ensures Normalized(ReplaceChar(s, ' ', '_'))
  {
    var r := ReplaceChar(s, ' ', '_');
    forall k | 0 <= k < |r| ensures !('A' <= r[k] <= 'Z') && r[k] != ' ' {
      assert r[k] == if s[k] == ' ' then '_' else s[k];
    }
    if s != [] {
      assert r[0] == s[0];
      assert r[|r| - 1] == s[|s| - 1];
    }
  }

  lemma NormalizedIdentity(c: string)
    requires Normalized(c)
    ensures NormalizeName(c) == c
  {
    assert Lower(c) == c;
    assert TrimStart(c) == c;
    assert TrimEnd(c) == c;
    assert ReplaceChar(c, ' ', '_') == c;
  }

  /** The stripped text is a slice of the text whose ends are not white space. */
  lemma {:induction false} StripKeeps(s: string)
    ensures exists i, j :: 0 <= i <= j <= |s| && Strip(s) == s[i..j]
    ensures Strip(s) != [] ==> !IsSpace(Strip(s)[0]) && !IsSpace(Strip(s)[|Strip(s)| - 1])
  {
    var a := TrimStartSlice(s);
    var t := TrimStart(s);
    var b := TrimEndSlice(t);
    assert Strip(s) == s[a..][..b];
    assert s[a..][..b] == s[a..a + b];
    if Strip(s) != [] {
      TrimEndFirst(t);
    }
  }

  lemma {:induction false} TrimStartSlice(s: string) returns (a: nat)
    ensures a <= |s| && TrimStart(s) == s[a..]
    decreases |s|
  {
    if s != [] && IsSpace(s[0]) {
      var a' := TrimStartSlice(s[1..]);
      a := a' + 1;
      assert s[1..][a'..] == s[a..];
    } else {
      a := 0;
    }
  }

  lemma {:induction false} TrimEndSlice(s: string) returns (b: nat)
    ensures b <= |s| && TrimEnd(s) == s[..b]
    decreases |s|
  {
    if s != [] && IsSpace(s[|s| - 1]) {
      b := TrimEndSlice(s[..|s| - 1]);
      assert s[..|s| - 1][..b] == s[..b];
    } else {
      b := |s|;
    }
  }

  /** Trimming the end of a text that does not start with white space
      keeps its first character. */
  lemma {:induction false} TrimEndFirst(s: string)
    requires s != [] ==> !IsSpace(s[0])
    ensures TrimEnd(s) != [] ==> TrimEnd(s)[0] == s[0]
    decreases |s|
  {
    if s != [] && IsSpace(s[|s| - 1]) {
      TrimEndFirst(s[..|s| - 1]);
    }
  }

  /** The canonical fields a column can be mapped to. */
  datatype FieldName =
    | SymbolField | TypeField | VolumeField | EntryPriceField | ExitPriceField | ProfitField
    | DateField | TimeField | CloseDateField | CloseTimeField | DurationField | CommissionField | SwapField

  /** The key of a field in the `mapped` dictionary. */
  function FieldKey(f: FieldName): string
  {
    match f
    case SymbolField => "symbol"
    case TypeField => "type"
    case VolumeField => "volume"
    case EntryPriceField => "entry_price"
    case ExitPriceField => "exit_price"
    case ProfitField => "profit"
    case DateField => "date"
    case TimeField => "time"
    case CloseDateField => "close_date"
    case CloseTimeField => "close_time"
    case DurationField => "duration"
    case CommissionField => "commission"
    case SwapField => "swap"
  }

  /** The fields in the order the mapping visits them. */
  const FieldOrder: seq<FieldName> := [
    SymbolField, TypeField, VolumeField, EntryPriceField, ExitPriceField, ProfitField,
    DateField, TimeField, CloseDateField, CloseTimeField, DurationField, CommissionField, SwapField
  ]

  /** The column names accepted for a field, tried in this order. */
  function Aliases(f: FieldName): seq<string>
  {
    match f
    case SymbolField => ["symbol", "ativo", "ticker", "instrumento", "asset"]
    case TypeField => ["type", "tipo", "side", "direction", "order_type", "trade_type"]
    case VolumeField => ["volume", "lots", "lotes", "quantity", "qty", "quantidade"]
    case EntryPriceField => ["entry_price", "preco_entrada", "open_price", "price_open", "entry", "preco"]
    case ExitPriceField => ["exit_price", "preco_saida", "close_price", "price_close", "exit"]
    case ProfitField => ["profit", "lucro", "resultado", "pnl", "result", "gain_loss", "pl"]
    case DateField => ["date", "data", "open_date", "trade_date", "datetime"]
    case TimeField => ["time", "hora", "open_time", "trade_time"]
    case CloseDateField => ["close_date", "data_fechamento", "exit_date"]
    case CloseTimeField => ["close_time", "hora_fechamento", "exit_time"]
    case DurationField => ["duration", "duracao", "duration_minutes", "holding_time"]
    case CommissionField => ["commission", "comissao", "fee", "taxa"]
    case SwapField => ["swap", "financing", "overnight"]
  }

  /** Every field is visited, and each field's own key is its first alias. */
  lemma FieldOrderSpec(f: FieldName)
    ensures f in FieldOrder
    ensures Aliases(f) != [] && Aliases(f)[0] == FieldKey(f)
  {
  }

  /** `find_column`: the first alias, in list order, that is a column. */
  function FindColumn(alts: seq<string>, cols: seq<string>): (r: Option<string>)
    ensures r.None? <==> forall a :: a in alts ==> a !in cols
    ensures r.Some? ==> exists i :: 0 <= i < |alts| && alts[i] == r.value && r.value in cols
                                    && forall j :: 0 <= j < i ==> alts[j] !in cols
    decreases |alts|
  {
    if alts == [] then None
    else if alts[0] in cols then Some(alts[0])
    else
      var r := FindColumn(alts[1..], cols);
      assert alts == [alts[0]] + alts[1..];
      if r.Some? then FirstAliasShift(alts, cols, r.value); r else r
  }

  /** The first alias of the tail that is a column is the first of the list
      when the head is not a column. */
  lemma FirstAliasShift(alts: seq<string>, cols: seq<string>, v: string)
    requires alts != [] && alts[0] !in cols
    requires exists i :: 0 <= i < |alts[1..]| && alts[1..][i] == v && v in cols
                         && forall j :: 0 <= j < i ==> alts[1..][j] !in cols
    ensures exists i :: 0 <= i < |alts| && alts[i] == v && v in cols
                        && forall j :: 0 <= j < i ==> alts[j] !in cols
  {
    var i :| 0 <= i < |alts[1..]| && alts[1..][i] == v && v in cols
             && forall j :: 0 <= j < i ==> alts[1..][j] !in cols;
    assert alts[i + 1] == v;
    forall j | 0 <= j < i + 1 ensures alts[j] !in cols {
      if j > 0 {
        assert alts[j] == alts[1..][j - 1];
      }
    }
  }

  /** The mapping the given fields give, built one field at a time. */
  function MapFields(fields: seq<FieldName>, cols: seq<string>): map<FieldName, string>
    decreases |fields|
  {
    if fields == [] then map[]
    else
      var m := MapFields(fields[..|fields| - 1], cols);
      var f := fields[|fields| - 1];
      match FindColumn(Aliases(f), cols)
      case Some(c) => m[f := c]
      case None => m
  }

  /** One more field extends the mapping by that field's column, if any. */
  lemma MapFieldsStep(fields: seq<FieldName>, cols: seq<string>, j: nat)
    requires j < |fields|
    ensures var m := MapFields(fields[..j], cols);
      MapFields(fields[..j + 1], cols)
        == match FindColumn(Aliases(fields[j]), cols) case Some(c) => m[fields[j] := c] case None => m
  {
    PrefixStep(fields, j);
    assert fields[..j + 1][..j] == fields[..j];
  }

  /** The `mapped` dictionary of a header. */
  function Mapping(cols: seq<string>): map<FieldName, string>
  {
    MapFields(FieldOrder, cols)
  }

  /** A visited field is mapped exactly when one of its aliases is a
      column, and then to the first such alias; nothing else is mapped. */
  lemma {:induction false} MapFieldsSpec(fields: seq<FieldName>, cols: seq<string>)
    ensures forall f :: f in MapFields(fields, cols) <==> f in fields && FindColumn(Aliases(f), cols).Some?
    ensures forall f :: f in MapFields(fields, cols) ==> MapFields(fields, cols)[f] == FindColumn(Aliases(f), cols).value
    decreases |fields|
  {
    if fields != [] {
      var p := fields[..|fields| - 1];
      MapFieldsSpec(p, cols);
      assert fields == p + [fields[|fields| - 1]];
    }
  }

  /** Every field is mapped exactly when one of its aliases is a column,
      and then to the first such alias. */
  lemma MappingSpec(cols: seq<string>)
    ensures forall f :: f in Mapping(cols) <==> FindColumn(Aliases(f), cols).Some?
    ensures forall f :: f in Mapping(cols) ==> Mapping(cols)[f] == FindColumn(Aliases(f), cols).value
  {
    MapFieldsSpec(FieldOrder, cols);
    forall f ensures f in FieldOrder {
      FieldOrderSpec(f);
    }
  }

  /** The loop that fills `mapped`. */
  method BuildMapping(cols: seq<string>) returns (mapped: map<FieldName, string>)
    ensures mapped == Mapping(cols)
  {
    mapped := map[];
    var j := 0;
    while j < |FieldOrder|
      invariant 0 <= j <= |FieldOrder|
      invariant mapped == MapFields(FieldOrder[..j], cols)
    {
      var f := FieldOrder[j];
      MapFieldsStep(FieldOrder, cols, j);
      var col := FindColumn(Aliases(f), cols);
      if col.Some? {
        mapped := mapped[f := col.value];
      }
      j := j + 1;
    }
    assert FieldOrder[..j] == FieldOrder;
  }

  /** The first column that pandas typed as a number. */
  function FirstNumeric(cols: seq<string>, numeric: seq<bool>): (r: Option<string>)
    requires |numeric| == |cols|
    ensures r.None? <==> forall i :: 0 <= i < |cols| ==> !numeric[i]
    ensures r.Some? ==> exists i :: 0 <= i < |cols| && cols[i] == r.value && numeric[i]
                                    && forall j :: 0 <= j < i ==> !numeric[j]
    decreases |cols|
  {
    if cols == [] then None
    else if numeric[0] then Some(cols[0])
    else
      var r := FirstNumeric(cols[1..], numeric[1..]);
      assert forall j :: 1 <= j < |cols| ==> numeric[j] == numeric[1..][j - 1] && cols[j] == cols[1..][j - 1];
      r
  }

  /** The required-column check: a missing symbol column fails; a missing
      profit column falls back to the first numeric column, and fails when
      there is none. */
  function RequireColumns(m: map<FieldName, string>, cols: seq<string>, numeric: seq<bool>): (r: Result<map<FieldName, string>, string>)
    requires |numeric| == |cols|
    ensures r.Ok? <==> SymbolField in m && (ProfitField in m || exists i :: 0 <= i < |cols| && numeric[i])
    ensures r.Ok? ==> SymbolField in r.value && ProfitField in r.value
    ensures r.Ok? && ProfitField in m ==> r.value == m
    ensures r.Ok? && ProfitField !in m ==> r.value == m[ProfitField := FirstNumeric(cols, numeric).value]
    ensures SymbolField !in m ==> r == Err("Coluna obrigatória não encontrada: symbol")
  {
    if SymbolField !in m then Err("Coluna obrigatória não encontrada: symbol")
    else if ProfitField in m then Ok(m)
    else match FirstNumeric(cols, numeric)
      case Some(c) => Ok(m[ProfitField := c])
      case None => Err("Coluna obrigatória não encontrada: profit")
  }

  // ------------------------------------------------------------ a row

  /** The columns and the `mapped` dictionary a row is read through. */
  datatype Layout = Layout(cols: seq<string>, mapped: map<FieldName, string>)

  /** The cell of the first column with the given name. */
  function Lookup(cols: seq<string>, row: seq<Cell>, name: string): (r: Option<Cell>)
    ensures |row| == |cols| ==> (r.Some? <==> name in cols)
    decreases |cols|
  {
    if cols == [] || row == [] then None
    else if cols[0] == name then Some(row[0])
    else Lookup(cols[1..], row[1..], name)
  }

  /** `row.get(mapped.get(key, ''))`: the cell of the field's column, or
      of a column named '' when the field is not mapped. */
  function Field(l: Layout, row: seq<Cell>, key: FieldName): Option<Cell>
  {
    Lookup(l.cols, row, if key in l.mapped then l.mapped[key] else "")
  }

  predicate NotNA(c: Cell)
  {
    !c.Missing?
  }

  /** Python truth value of a cell: NaN is true, zero and "" are false. */
  predicate Truthy(c: Cell)
  {
    match c
    case Missing => true
    case Num(x) => x != 0.0
    case Str(s) => s != ""
  }

  /** `str(cell)`. */
  function CellText(c: Cell, lib: Library): string
  {
    match c
    case Missing => "nan"
    case Num(x) => lib.numberText(x)
    case Str(s) => s
  }

  /** `float(cell or default)` for a cell that may be absent. A blank cell
      gives the default (see CellFloatAsWritten for the code as written). */
  function CellFloat(c: Option<Cell>, default: real, lib: Library): Result<real, string>
  {
    match c
    case None => Ok(default)
    case Some(Missing) => Ok(default)
    case Some(Num(x)) => Ok(if x != 0.0 then x else default)
    case Some(Str(s)) =>
      if s == "" then Ok(default)
      else match lib.parseFloat(s)
        case Some(x) => Ok(x)
        case None => Err("ValueError: could not convert string to float")
  }

  /** A Python float, which may be NaN. */
  datatype Float = NaN | Finite(value: real)

  /** `float(cell or default)` as written: a blank cell is NaN, which is
      true, so the default is not taken and the value is NaN. */
  function CellFloatAsWritten(c: Option<Cell>, default: real, lib: Library): Result<Float, string>
  {
    match c
    case Some(Missing) => Ok(NaN)
    case _ =>
      match CellFloat(c, default, lib)
      case Ok(x) => Ok(Finite(x))
      case Err(e) => Err(e)
  }

  /** `int(x)` on a float truncates toward zero. */
  function TruncReal(x: real): (n: int)
    ensures x >= 0.0 ==> n as real <= x < n as real + 1.0
    ensures x < 0.0 ==> n as real - 1.0 < x <= n as real
  {
    if x >= 0.0 then x.Floor else -((-x).Floor)
  }

  /** `int(cell)`. */
  function CellInt(c: Cell, lib: Library): Result<int, string>
  {
    match c
    case Missing => Err("ValueError: cannot convert float NaN to integer")
    case Num(x) => Ok(TruncReal(x))
    case Str(s) =>
      match lib.parseInt(s)
      case Some(n) => Ok(n)
      case None => Err("ValueError: invalid literal for int()")
  }

  /** The formats tried, in order, on date texts. */
  const DateFormats: seq<string> := [
    "%Y-%m-%d %H:%M:%S", "%Y-%m-%d %H:%M", "%Y-%m-%d",
    "%d/%m/%Y %H:%M:%S", "%d/%m/%Y %H:%M", "%d/%m/%Y",
    "%m/%d/%Y %H:%M:%S", "%m/%d/%Y"
  ]

  /** The first format that parses the text, as the `for fmt ... break` loop. */
  function FirstParse(text: string, formats: seq<string>, lib: Library): (r: Option<int>)
    ensures r.None? <==> forall f :: f in formats ==> lib.parseDate(text, f).None?
    ensures r.Some? ==> exists i :: 0 <= i < |formats| && lib.parseDate(text, formats[i]) == r
                                    && forall j :: 0 <= j < i ==> lib.parseDate(text, formats[j]).None?
    decreases |formats|
  {
    if formats == [] then None
    else if lib.parseDate(text, formats[0]).Some? then lib.parseDate(text, formats[0])
    else
      var r := FirstParse(text, formats[1..], lib);
      assert forall j :: 1 <= j < |formats| ==> formats[j] == formats[1..][j - 1];
      r
  }

  /** The row has a date column holding a value; this is what binds the
      list of date formats. */
  predicate Dated(l: Layout, row: seq<Cell>)
  {
    DateField in l.mapped && Field(l, row, DateField).Some? && NotNA(Field(l, row, DateField).value)
  }

  /** The opening time: the date cell, joined with the time cell when there
      is a time column holding a value, parsed by the first format that
      fits; `now` when there is no date or no format fits. */
  function RowOpenTime(l: Layout, row: seq<Cell>, lib: Library, now: int): int
  {
    if Dated(l, row) then
      var d := Field(l, row, DateField).value;
      var t := if Field(l, row, TimeField).Some? then Field(l, row, TimeField).value else Str("00:00:00");
      var text := if NotNA(t) && TimeField in l.mapped then CellText(d, lib) + " " + CellText(t, lib) else CellText(d, lib);
      match FirstParse(Strip(text), DateFormats, lib)
      case Some(x) => x
      case None => now
    else now
  }

  /** The closing time: none without a close-date value; otherwise the
      close date joined with the close-time cell (the text "00:00:00" when
      there is none) parsed by the first format that fits. Reading the
      format list before any row has bound it raises. */
  function RowCloseTime(l: Layout, row: seq<Cell>, lib: Library, formatsBound: bool): Result<Option<int>, string>
  {
    if CloseDateField in l.mapped && Field(l, row, CloseDateField).Some? && NotNA(Field(l, row, CloseDateField).value) then
      var cd := Field(l, row, CloseDateField).value;
      var ct := if Field(l, row, CloseTimeField).Some? then Field(l, row, CloseTimeField).value else Str("00:00:00");
      var text := if NotNA(ct) then CellText(cd, lib) + " " + CellText(ct, lib) else CellText(cd, lib);
      if !formatsBound then Err("UnboundLocalError: date_formats")
      else Ok(FirstParse(Strip(text), DateFormats, lib))
    else Ok(None)
  }

  /** The duration: the duration cell when there is one with a value, else
      the minutes from opening to closing when there is a closing time,
      else 0. */
  function RowDuration(l: Layout, row: seq<Cell>, lib: Library, open: int, close: Option<int>): Result<int, string>
  {
    if DurationField in l.mapped && Field(l, row, DurationField).Some? && NotNA(Field(l, row, DurationField).value) then
      CellInt(Field(l, row, DurationField).value, lib)
    else if close.Some? then Ok(MinutesBetween(open, close.value))
    else Ok(0)
  }

  /** The words whose presence in the upper-cased type cell makes a sale. */
  const SellWords: seq<string> := ["SELL", "VENDA", "SHORT", "S"]

  /** The trade type: SELL when the upper-cased type text contains one of
      the sell words, BUY otherwise and when there is no type column. */
  function RowType(l: Layout, row: seq<Cell>, lib: Library): string
  {
    if TypeField in l.mapped && Field(l, row, TypeField).Some? then
      var t := Upper(CellText(Field(l, row, TypeField).value, lib));
      if exists w :: w in SellWords && Contains(t, w) then "SELL" else "BUY"
    else "BUY"
  }

  /** The trade dictionary of one row. */
  datatype CsvTrade = CsvTrade(
    symbol: string, tradeType: string, volume: real, entryPrice: real, exitPrice: Option<real>,
    profit: real, commission: real, swap: real, openTime: int, closeTime: Option<int>,
    durationMinutes: int, source: string)

  /** The exit price: only when there is an exit column holding a value. */
  function RowExit(l: Layout, row: seq<Cell>, lib: Library): Result<Option<real>, string>
  {
    if ExitPriceField in l.mapped && Field(l, row, ExitPriceField).Some? && NotNA(Field(l, row, ExitPriceField).value) then
      match CellFloat(Field(l, row, ExitPriceField), 0.0, lib)
      case Ok(x) => Ok(Some(x))
      case Err(e) => Err(e)
    else Ok(None)
  }

  /** A required column's cell (`row[mapped[key]]`). */
  function Required(l: Layout, row: seq<Cell>, key: FieldName): Result<Cell, string>
  {
    if key in l.mapped && Field(l, row, key).Some? then Ok(Field(l, row, key).value) else Err("KeyError: " + FieldKey(key))
  }

  /** The closing time and the duration of a row, in that order. */
  function RowTiming(l: Layout, row: seq<Cell>, lib: Library, open: int, formatsBound: bool): Result<(Option<int>, int), string>
  {
    match RowCloseTime(l, row, lib, formatsBound)
    case Err(e) => Err(e)
    case Ok(close) =>
      match RowDuration(l, row, lib, open, close)
      case Err(e) => Err(e)
      case Ok(d) => Ok((close, d))
  }

  /** The values of a trade dictionary that come from cells. */
  datatype RowValues = RowValues(
    symbol: string, volume: real, entryPrice: real, exitPrice: Option<real>,
    profit: real, commission: real, swap: real)

  /** The cell values of a row, converted in the order the dictionary
      literal evaluates them: symbol, volume, entry price, exit price,
      profit, commission and swap. */
  function RowCells(l: Layout, row: seq<Cell>, lib: Library): Result<RowValues, string>
  {
    var symbol := Required(l, row, SymbolField);
    var volume := CellFloat(Field(l, row, VolumeField), 1.0, lib);
    var entry := CellFloat(Field(l, row, EntryPriceField), 0.0, lib);
    var exit := RowExit(l, row, lib);
    var profitCell := Required(l, row, ProfitField);
    if symbol.Err? then Err(symbol.error)
    else if volume.Err? then Err(volume.error)
    else if entry.Err? then Err(entry.error)
    else if exit.Err? then Err(exit.error)
    else if profitCell.Err? then Err(profitCell.error)
    else
      var profit := CellFloat(Some(profitCell.value), 0.0, lib);
      var commission := CellFloat(Field(l, row, CommissionField), 0.0, lib);
      var swap := CellFloat(Field(l, row, SwapField), 0.0, lib);
      if profit.Err? then Err(profit.error)
      else if commission.Err? then Err(commission.error)
      else if swap.Err? then Err(swap.error)
      else Ok(RowValues(Upper(Strip(CellText(symbol.value, lib))), volume.value, entry.value, exit.value,
                        profit.value, commission.value, swap.value))
  }

  /** The body of the `try` for one row: the trade, or the error that makes
      the loop skip the row. */
  function ParseRow(l: Layout, row: seq<Cell>, lib: Library, now: int, formatsBound: bool): Result<CsvTrade, string>
  {
    var open := RowOpenTime(l, row, lib, now);
    match RowTiming(l, row, lib, open, formatsBound)
    case Err(e) => Err(e)
    case Ok(timing) =>
      match RowCells(l, row, lib)
      case Err(e) => Err(e)
      case Ok(v) =>
        Ok(CsvTrade(v.symbol, RowType(l, row, lib), v.volume, v.entryPrice, v.exitPrice, v.profit,
                    v.commission, v.swap, open, timing.0, timing.1, "CSV"))
  }

  // ------------------------------------------------------ the row loop

  /** The loop's handling of failures: the trades of the rows that
      convert, in row order; a row whose conversion fails adds nothing. */
  function KeepConverted(rows: seq<seq<Cell>>, convert: seq<Cell> -> Result<CsvTrade, string>): (r: seq<CsvTrade>)
    ensures |r| <= |rows|
    decreases |rows|
  {
    if rows == [] then []
    else KeepConverted(rows[..|rows| - 1], convert) + RowTrades(convert(rows[|rows| - 1]))
  }

  /** The trade of a row that converts, nothing for one that fails. */
  function RowTrades(r: Result<CsvTrade, string>): (o: seq<CsvTrade>)
    ensures |o| <= 1
  {
    match r
    case Ok(t) => [t]
    case Err(_) => []
  }

  lemma KeepConvertedSnoc(rows: seq<seq<Cell>>, row: seq<Cell>, convert: seq<Cell> -> Result<CsvTrade, string>)
    ensures KeepConverted(rows + [row], convert) == KeepConverted(rows, convert) + RowTrades(convert(row))
  {
    assert (rows + [row])[..|rows|] == rows;
  }

  /** The conversion of one row under a layout, with the date formats
      always available. */
  function RowConverter(l: Layout, lib: Library, now: int): seq<Cell> -> Result<CsvTrade, string>
  {
    row => ParseRow(l, row, lib, now, true)
  }

  /** The trades of the rows that convert, in row order. */
  function ParseRows(l: Layout, rows: seq<seq<Cell>>, lib: Library, now: int): seq<CsvTrade>
  {
    KeepConverted(rows, RowConverter(l, lib, now))
  }

  /** Some row of the rows has a date value. */
  predicate AnyDated(l: Layout, rows: seq<seq<Cell>>)
  {
    exists i :: 0 <= i < |rows| && Dated(l, rows[i])
  }

  /** The row loop as written: the list of date formats only exists once a
      row with a date value has been read, so a close date met before that
      raises and its row is skipped. */
  function ParseRowsAsWritten(l: Layout, rows: seq<seq<Cell>>, lib: Library, now: int): (r: seq<CsvTrade>)
    ensures |r| <= |rows|
    decreases |rows|
  {
    if rows == [] then []
    else
      ParseRowsAsWritten(l, rows[..|rows| - 1], lib, now)
      + RowTrades(ParseRow(l, rows[|rows| - 1], lib, now, AnyDated(l, rows)))
  }

  /** `parse_csv_trades` on a frame: the required columns must be found and
      some row must convert. */
  function ParseCsv(f: Frame, lib: Library, now: int): Result<seq<CsvTrade>, string>
    requires Rectangular(f)
  {
    var cols := seq(|f.columns|, i requires 0 <= i < |f.columns| => NormalizeName(f.columns[i]));
    match RequireColumns(Mapping(cols), cols, f.numeric)
    case Err(e) => Err(e)
    case Ok(m) =>
      var trades := ParseRows(Layout(cols, m), f.rows, lib, now);
      if trades == [] then Err("Nenhum trade válido encontrado no arquivo") else Ok(trades)
  }

  /** `parse_csv_trades`: normalise the header, map the fields, check the
      required columns, then convert the rows one by one, skipping a row
      whose conversion fails. */
  method ParseCsvTrades(f: Frame, lib: Library, now: int) returns (r: Result<seq<CsvTrade>, string>)
    requires Rectangular(f)
    ensures r == ParseCsv(f, lib, now)
  {
    var cols := seq(|f.columns|, i requires 0 <= i < |f.columns| => NormalizeName(f.columns[i]));
    var mapped := BuildMapping(cols);
    if SymbolField !in mapped {
      return Err("Coluna obrigatória não encontrada: symbol");
    }
    if ProfitField !in mapped {
      var c := FirstNumeric(cols, f.numeric);
      if c.None? {
        return Err("Coluna obrigatória não encontrada: profit");
      }
      mapped := mapped[ProfitField := c.value];
    }
    var trades := ConvertRows(f.rows, RowConverter(Layout(cols, mapped), lib, now));
    if trades == [] {
      return Err("Nenhum trade válido encontrado no arquivo");
    }
    r := Ok(trades);
  }

  /** The loop over the rows: each row's trade is appended, and a row
      whose conversion raises is skipped. */
  method ConvertRows(rows: seq<seq<Cell>>, convert: seq<Cell> -> Result<CsvTrade, string>) returns (trades: seq<CsvTrade>)
    ensures trades == KeepConverted(rows, convert)
  {
    trades := [];
    var i := 0;
    while i < |rows|
      invariant 0 <= i <= |rows|
      invariant trades == KeepConverted(rows[..i], convert)
    {
      KeepConvertedSnoc(rows[..i], rows[i], convert);
      PrefixStep(rows, i);
      trades := trades + RowTrades(convert(rows[i]));
      i := i + 1;
    }
    assert rows[..i] == rows;
  }

  // ------------------------------------------------------- properties

  /** SELL, SHORT and S all contain the letter S, so the type is SELL
      exactly when the upper-cased type text contains an S or the word
      VENDA, and BUY otherwise and without a type column. */
  lemma RowTypeSpec(l: Layout, row: seq<Cell>, lib: Library)
    ensures RowType(l, row, lib) in {"BUY", "SELL"}
    ensures RowType(l, row, lib) == "SELL" <==>
      && TypeField in l.mapped && Field(l, row, TypeField).Some?
      && var t := Upper(CellText(Field(l, row, TypeField).value, lib));
         'S' in t || Contains(t, "VENDA")
  {
    if TypeField in l.mapped && Field(l, row, TypeField).Some? {
      var t := Upper(CellText(Field(l, row, TypeField).value, lib));
      ContainsChar(t, 'S');
      assert "S" == ['S'];
      if exists w :: w in SellWords && Contains(t, w) {
        var w :| w in SellWords && Contains(t, w);
        if w != "VENDA" {
          ContainsChars(t, w);
          assert 'S' in w;
        }
      } else {
        assert !Contains(t, "S") && !Contains(t, "VENDA");
      }
    }
  }

  /** A converted row: its symbol is upper-cased and stripped, its source
      is CSV, its volume is 1 when the volume column is absent or holds zero
      or nothing, and its exit price is absent when the exit column is
      absent or holds nothing. */
  lemma ParseRowFields(l: Layout, row: seq<Cell>, lib: Library, now: int, bound: bool)
    requires ParseRow(l, row, lib, now, bound).Ok?
    ensures var t := ParseRow(l, row, lib, now, bound).value;
      && t.source == "CSV"
      && t.symbol == Upper(Strip(CellText(Field(l, row, SymbolField).value, lib)))
      && Upper(t.symbol) == t.symbol
      && t.tradeType == RowType(l, row, lib)
      && ((Field(l, row, VolumeField).None? || !Truthy(Field(l, row, VolumeField).value)
           || Field(l, row, VolumeField).value.Missing?) ==> t.volume == 1.0)
      && ((ExitPriceField !in l.mapped || Field(l, row, ExitPriceField).None?
           || Field(l, row, ExitPriceField).value.Missing?) ==> t.exitPrice.None?)
      && t.openTime == RowOpenTime(l, row, lib, now)
  {
    var t := ParseRow(l, row, lib, now, bound).value;
    UpperIdempotent(Strip(CellText(Field(l, row, SymbolField).value, lib)));
  }

  /** The duration is the duration cell's value when there is one, else the
      truncated minutes between opening and closing when the row closes,
      else 0; without a duration column a closed row never has a negative
      duration when it closes after it opens. */
  lemma RowDurationSpec(l: Layout, row: seq<Cell>, lib: Library, open: int, close: Option<int>)
    ensures var hasCell := DurationField in l.mapped && Field(l, row, DurationField).Some? && NotNA(Field(l, row, DurationField).value);
      && (hasCell ==> RowDuration(l, row, lib, open, close) == CellInt(Field(l, row, DurationField).value, lib))
      && (!hasCell && close.Some? ==> RowDuration(l, row, lib, open, close) == Ok(MinutesBetween(open, close.value)))
      && (!hasCell && close.Some? && open <= close.value ==>
            0 <= RowDuration(l, row, lib, open, close).value
            && 60 * RowDuration(l, row, lib, open, close).value <= close.value - open
               < 60 * RowDuration(l, row, lib, open, close).value + 60)
      && (!hasCell && close.Some? && close.value < open ==>
            RowDuration(l, row, lib, open, close).value <= 0
            && 60 * RowDuration(l, row, lib, open, close).value - 60 < close.value - open
               <= 60 * RowDuration(l, row, lib, open, close).value)
      && (!hasCell && close.None? ==> RowDuration(l, row, lib, open, close) == Ok(0))
  {
    if close.Some? {
      MinutesBetweenSign(open, close.value);
    }
  }

  /** The loop keeps the rows that convert and skips the others, so the
      rows of two batches convert independently and a bad row leaves the
      rest untouched. */
  lemma {:induction false} KeepConvertedConcat(a: seq<seq<Cell>>, b: seq<seq<Cell>>, convert: seq<Cell> -> Result<CsvTrade, string>)
    ensures KeepConverted(a + b, convert) == KeepConverted(a, convert) + KeepConverted(b, convert)
    decreases |b|
  {
    if b == [] {
      assert a + b == a;
    } else {
      var q := b[..|b| - 1];
      assert (a + b)[..|a + b| - 1] == a + q;
      KeepConvertedConcat(a, q, convert);
    }
  }

  /** A single row gives its trade, or nothing when it fails. */
  lemma KeepConvertedSingle(row: seq<Cell>, convert: seq<Cell> -> Result<CsvTrade, string>)
    ensures KeepConverted([row], convert) == RowTrades(convert(row))
  {
    KeepConvertedSnoc([], row, convert);
    assert [] + [row] == [row];
  }

  /** Every trade comes from a row that converts, and when every row
      converts none is lost. */
  lemma {:induction false} KeepConvertedOrigin(rows: seq<seq<Cell>>, convert: seq<Cell> -> Result<CsvTrade, string>)
    ensures var out := KeepConverted(rows, convert);
      forall k :: 0 <= k < |out| ==> exists i :: 0 <= i < |rows| && convert(rows[i]) == Ok(out[k])
    ensures (forall i :: 0 <= i < |rows| ==> convert(rows[i]).Ok?) ==> |KeepConverted(rows, convert)| == |rows|
    decreases |rows|
  {
    if rows != [] {
      var p := rows[..|rows| - 1];
      KeepConvertedOrigin(p, convert);
      var out := KeepConverted(rows, convert);
      forall k | 0 <= k < |out|
        ensures exists i :: 0 <= i < |rows| && convert(rows[i]) == Ok(out[k])
      {
        if k < |KeepConverted(p, convert)| {
          var i :| 0 <= i < |p| && convert(p[i]) == Ok(KeepConverted(p, convert)[k]);
          assert rows[i] == p[i];
        } else {
          assert convert(rows[|rows| - 1]) == Ok(out[k]);
        }
      }
      if forall i :: 0 <= i < |rows| ==> convert(rows[i]).Ok? {
        assert forall i :: 0 <= i < |p| ==> p[i] == rows[i];
        assert convert(rows[|rows| - 1]).Ok?;
      }
    }
  }

  /** No header without a symbol column gives trades, and neither does a
      file none of whose rows converts. */
  lemma ParseCsvErrors(f: Frame, lib: Library, now: int)
    requires Rectangular(f)
    ensures var cols := seq(|f.columns|, i requires 0 <= i < |f.columns| => NormalizeName(f.columns[i]));
      SymbolField !in Mapping(cols) ==> ParseCsv(f, lib, now) == Err("Coluna obrigatória não encontrada: symbol")
    ensures f.rows == [] ==> ParseCsv(f, lib, now).Err?
    ensures ParseCsv(f, lib, now).Ok? ==> 0 < |ParseCsv(f, lib, now).value| <= |f.rows|
  {
  }

  // ----------------------------------------------------------- findings

  /** A blank numeric cell (volume, entry price, profit, commission, swap):
      as written the field is NaN rather than its default, because NaN is
      true for `or`; the corrected conversion gives the default. On every
      other cell the two agree. */
  lemma BlankCellIsNaN(lib: Library)
    ensures forall d: real :: CellFloatAsWritten(Some(Missing), d, lib) == Ok(NaN)
    ensures forall d: real :: CellFloat(Some(Missing), d, lib) == Ok(d)
    ensures forall c: Option<Cell>, d: real :: c != Some(Missing) ==>
      CellFloatAsWritten(c, d, lib) == match CellFloat(c, d, lib)
        case Ok(x) => Ok(Finite(x))
        case Err(e) => Err(e)
  {
  }

  /** The header of the close-date example. */
  const CloseOnlyHeader: seq<string> := ["symbol", "profit", "close_date"]

  /** In that header only the symbol, profit and close-date fields find a
      column, each under its own name. */
  lemma CloseOnlyAliases(f: FieldName)
    ensures FindColumn(Aliases(f), CloseOnlyHeader) ==
      if f in {SymbolField, ProfitField, CloseDateField} then Some(FieldKey(f)) else None
  {
    if f in {SymbolField, ProfitField, CloseDateField} {
      assert Aliases(f)[0] == FieldKey(f) && FieldKey(f) in CloseOnlyHeader;
    } else {
      CloseOnlyUnmatched(f);
    }
  }

  lemma CloseOnlyUnmatched(f: FieldName)
    requires f !in {SymbolField, ProfitField, CloseDateField}
    ensures forall a :: a in Aliases(f) ==> a !in CloseOnlyHeader
  {
  }

  /** A header maps the fields whose aliases it finds, as the mapping e
      says, and no other. */
  lemma MappingFrom(cols: seq<string>, e: map<FieldName, string>)
    requires forall f :: FindColumn(Aliases(f), cols) == if f in e then Some(e[f]) else None
    ensures Mapping(cols) == e
  {
    MappingSpec(cols);
    var m := Mapping(cols);
    assert m.Keys == e.Keys;
    forall f | f in m ensures m[f] == e[f] {
      assert FindColumn(Aliases(f), cols) == Some(e[f]);
    }
  }

  /** The `mapped` dictionary that header gives. */
  const CloseOnlyMapped: map<FieldName, string> := map[SymbolField := "symbol", ProfitField := "profit", CloseDateField := "close_date"]

  lemma CloseOnlyMapping()
    ensures Mapping(CloseOnlyHeader) == CloseOnlyMapped
  {
    var e := CloseOnlyMapped;
    forall f ensures FindColumn(Aliases(f), CloseOnlyHeader) == if f in e then Some(e[f]) else None {
      CloseOnlyAliases(f);
    }
    MappingFrom(CloseOnlyHeader, e);
  }

  /** As written, a row with a close date read before any row with a date
      is skipped: the list of date formats has not been bound. */
  lemma UnboundFormats(l: Layout, rows: seq<seq<Cell>>, row: seq<Cell>, lib: Library, now: int)
    requires forall r :: r in rows + [row] ==> !Dated(l, r)
    requires CloseDateField in l.mapped && Field(l, row, CloseDateField).Some? && NotNA(Field(l, row, CloseDateField).value)
    ensures ParseRowsAsWritten(l, rows + [row], lib, now) == ParseRowsAsWritten(l, rows, lib, now)
    ensures RowCloseTime(l, row, lib, false) == Err("UnboundLocalError: date_formats")
  {
    var all := rows + [row];
    assert all[..|all| - 1] == rows;
    assert !AnyDated(l, all) by {
      forall i | 0 <= i < |all| ensures !Dated(l, all[i]) {
        assert all[i] in all;
      }
    }
  }

  /** The one row of the close-date example. */
  const CloseOnlyRow: seq<Cell> := [Str("WINZ24"), Num(150.0), Str("2024-01-15")]

  /** A file with a symbol, a profit and a close-date column and no date
      column: as written its one row is skipped, because the list of date
      formats is never bound, and the file yields no trade. */
  lemma CloseDateWithoutDate(lib: Library, now: int)
    ensures ParseRowsAsWritten(Layout(CloseOnlyHeader, CloseOnlyMapped), [CloseOnlyRow], lib, now) == []
  {
    var l := Layout(CloseOnlyHeader, CloseOnlyMapped);
    assert Field(l, CloseOnlyRow, CloseDateField) == Some(Str("2024-01-15"));
    assert !Dated(l, CloseOnlyRow);
    UnboundFormats(l, [], CloseOnlyRow, lib, now);
    assert [] + [CloseOnlyRow] == [CloseOnlyRow];
  }

  /** With the formats available, the same row converts. */
  lemma CloseDateConverts(lib: Library, now: int)
    ensures |ParseRows(Layout(CloseOnlyHeader, CloseOnlyMapped), [CloseOnlyRow], lib, now)| == 1
  {
    var l := Layout(CloseOnlyHeader, CloseOnlyMapped);
    var row := CloseOnlyRow;
    CloseOnlyRowConverts(l, row, lib, now);
    KeepConvertedSingle(row, RowConverter(l, lib, now));
  }

  lemma CloseOnlyRowConverts(l: Layout, row: seq<Cell>, lib: Library, now: int)
    requires l == Layout(CloseOnlyHeader, CloseOnlyMapped) && row == CloseOnlyRow
    ensures ParseRow(l, row, lib, now, true).Ok?
  {
    CloseOnlyTiming(l, row, lib, RowOpenTime(l, row, lib, now));
    CloseOnlyCells(l, row, lib);
  }

  lemma CloseOnlyTiming(l: Layout, row: seq<Cell>, lib: Library, open: int)
    requires l == Layout(CloseOnlyHeader, CloseOnlyMapped) && row == CloseOnlyRow
    ensures RowTiming(l, row, lib, open, true).Ok?
  {
    CloseOnlyFields(l, row);
    CloseOnlyUnmapped(l, row, CloseTimeField);
    CloseOnlyUnmapped(l, row, DurationField);
    var close := RowCloseTime(l, row, lib, true);
    assert close.Ok?;
    assert RowDuration(l, row, lib, open, close.value).Ok?;
  }

  lemma CloseOnlyCells(l: Layout, row: seq<Cell>, lib: Library)
    requires l == Layout(CloseOnlyHeader, CloseOnlyMapped) && row == CloseOnlyRow
    ensures RowCells(l, row, lib).Ok?
  {
    CloseOnlyFields(l, row);
    CloseOnlyUnmapped(l, row, VolumeField);
    CloseOnlyUnmapped(l, row, EntryPriceField);
    CloseOnlyUnmapped(l, row, ExitPriceField);
    CloseOnlyUnmapped(l, row, CommissionField);
    CloseOnlyUnmapped(l, row, SwapField);
    assert Required(l, row, SymbolField).Ok?;
    assert CellFloat(Field(l, row, VolumeField), 1.0, lib) == Ok(1.0);
    assert CellFloat(Field(l, row, EntryPriceField), 0.0, lib) == Ok(0.0);
    assert RowExit(l, row, lib) == Ok(None);
    assert Required(l, row, ProfitField) == Ok(Num(150.0));
    assert CellFloat(Some(Num(150.0)), 0.0, lib) == Ok(150.0);
    assert CellFloat(Field(l, row, CommissionField), 0.0, lib) == Ok(0.0);
    assert CellFloat(Field(l, row, SwapField), 0.0, lib) == Ok(0.0);
  }

  /** The cells the example row gives each field. */
  lemma CloseOnlyFields(l: Layout, row: seq<Cell>)
    requires l == Layout(CloseOnlyHeader, CloseOnlyMapped) && row == CloseOnlyRow
    ensures Field(l, row, CloseDateField) == Some(Str("2024-01-15"))
    ensures Required(l, row, SymbolField) == Ok(Str("WINZ24"))
    ensures Required(l, row, ProfitField) == Ok(Num(150.0))
  {
    CloseOnlyLookups(row);
    assert l.mapped[SymbolField] == "symbol" && l.mapped[ProfitField] == "profit";
    assert l.mapped[CloseDateField] == "close_date";
  }

  /** A field the example header does not map reads the column named ''. */
  lemma CloseOnlyUnmapped(l: Layout, row: seq<Cell>, f: FieldName)
    requires l == Layout(CloseOnlyHeader, CloseOnlyMapped) && row == CloseOnlyRow
    requires f != SymbolField && f != ProfitField && f != CloseDateField
    ensures Field(l, row, f) == None
  {
    assert f !in l.mapped;
    CloseOnlyLookups(row);
  }

  /** The cells the example header's columns, and a column named '', give. */
  lemma CloseOnlyLookups(row: seq<Cell>)
    requires row == CloseOnlyRow
    ensures Lookup(CloseOnlyHeader, row, "") == None
    ensures Lookup(CloseOnlyHeader, row, "symbol") == Some(Str("WINZ24"))
    ensures Lookup(CloseOnlyHeader, row, "profit") == Some(Num(150.0))
    ensures Lookup(CloseOnlyHeader, row, "close_date") == Some(Str("2024-01-15"))
  {
    var h := CloseOnlyHeader;
    assert h[0] == "symbol" && h[1..][0] == "profit" && h[1..][1..][0] == "close_date" && h[1..][1..][1..] == [];
    assert row[1..][0] == Num(150.0) && row[1..][1..][0] == Str("2024-01-15");
    assert Lookup(h[1..][1..], row[1..][1..], "") == None;
    assert Lookup(h[1..][1..], row[1..][1..], "close_date") == Some(Str("2024-01-15"));
    assert Lookup(h[1..], row[1..], "profit") == Some(Num(150.0));
  }
}

=== FILE: grouping.dfy ===
/** Grouping of a list by a key, as the handlers do when they fill a
    dictionary of buckets in a loop. Python dictionaries iterate in insertion
    order, so the keys of a grouping are the distinct keys in order of first
    appearance (Keys), and the bucket of key k holds the elements with that
    key in input order (Select). */
module Grouping {
  import opened Seqs

  /** The elements of s whose key is k, in order. */
  function Select<T, K(==)>(s: seq<T>, key: T -> K, k: K): (r: seq<T>)
    ensures |r| <= |s|
    decreases |s|
  {
    if s == [] then []
    else Select(s[..|s| - 1], key, k) + (if key(s[|s| - 1]) == k then [s[|s| - 1]] else [])
  }

  /** The distinct keys of s in order of first appearance. */
  function Keys<T, K(==)>(s: seq<T>, key: T -> K): seq<K>
    decreases |s|
  {
    if s == [] then []
    else
      var ks := Keys(s[..|s| - 1], key);
      if key(s[|s| - 1]) in ks then ks else ks + [key(s[|s| - 1])]
  }

  ghost predicate Distinct<K>(ks: seq<K>)
  {
    forall i, j :: 0 <= i < j < |ks| ==> ks[i] != ks[j]
  }

  /** Every element of s has its key in ks. */
  ghost predicate Covers<T, K>(ks: seq<K>, s: seq<T>, key: T -> K)
  {
    forall i :: 0 <= i < |s| ==> key(s[i]) in ks
  }

  /** Keys lists each key of s exactly once and no other key. */
  lemma {:induction false} KeysSpec<T, K>(s: seq<T>, key: T -> K)
    ensures Distinct(Keys(s, key))
    ensures Covers(Keys(s, key), s, key)
    ensures forall k :: k in Keys(s, key) ==> |Select(s, key, k)| > 0
    ensures |Keys(s, key)| <= |s|
    ensures |s| > 0 ==> |Keys(s, key)| > 0
    decreases |s|
  {
    if s != [] {
      var p := s[..|s| - 1];
      KeysSpec(p, key);
      forall i | 0 <= i < |s| ensures key(s[i]) in Keys(s, key) {
        if i < |s| - 1 {
          assert s[i] == p[i];
        }
      }
    }
  }

  /** The bucket of k holds elements of s whose key is k. */
  lemma {:induction false} SelectMembers<T, K>(s: seq<T>, key: T -> K, k: K)
    ensures forall x :: x in Select(s, key, k) ==> x in s && key(x) == k
    decreases |s|
  {
    if s != [] {
      SelectMembers(s[..|s| - 1], key, k);
      assert forall x :: x in s[..|s| - 1] ==> x in s;
    }
  }

  /** A key that does not occur in s selects nothing. */
  lemma {:induction false} SelectOutsideKeys<T, K>(s: seq<T>, key: T -> K, k: K)
    requires k !in Keys(s, key)
    ensures Select(s, key, k) == []
    decreases |s|
  {
    if s != [] {
      var p := s[..|s| - 1];
      assert k !in Keys(p, key);
      SelectOutsideKeys(p, key, k);
    }
  }

  /** Select of a list extended by one element. */
  lemma SelectSnoc<T, K>(s: seq<T>, x: T, key: T -> K, k: K)
    ensures Select(s + [x], key, k) == Select(s, key, k) + (if key(x) == k then [x] else [])
  {
    assert (s + [x])[..|s|] == s;
  }

  /** Keys of a list extended by one element. */
  lemma KeysSnoc<T, K>(s: seq<T>, x: T, key: T -> K)
    ensures Keys(s + [x], key) == if key(x) in Keys(s, key) then Keys(s, key) else Keys(s, key) + [key(x)]
  {
    assert (s + [x])[..|s|] == s;
  }

  /** The buckets of ks laid end to end. */
  function Flatten<T, K(==)>(s: seq<T>, key: T -> K, ks: seq<K>): seq<T>
  {
    if ks == [] then [] else Select(s, key, ks[0]) + Flatten(s, key, ks[1..])
  }

  /** The tail of a list of distinct keys is distinct and lacks the head. */
  lemma DistinctTail<K>(ks: seq<K>)
    requires Distinct(ks) && ks != []
    ensures Distinct(ks[1..]) && ks[0] !in ks[1..]
    ensures forall k :: k in ks <==> k == ks[0] || k in ks[1..]
  {
    assert ks == [ks[0]] + ks[1..];
    forall i, j | 0 <= i < j < |ks[1..]| ensures ks[1..][i] != ks[1..][j] {
      assert ks[1..][i] == ks[i + 1] && ks[1..][j] == ks[j + 1];
    }
    forall j | 0 <= j < |ks[1..]| ensures ks[1..][j] != ks[0] {
      assert ks[1..][j] == ks[j + 1];
    }
  }

  lemma {:induction false} FlattenSnoc<T, K>(s: seq<T>, x: T, key: T -> K, ks: seq<K>)
    requires Distinct(ks)
    ensures multiset(Flatten(s + [x], key, ks))
         == multiset(Flatten(s, key, ks)) + (if key(x) in ks then multiset{x} else multiset{})
  {
    if ks != [] {
      DistinctTail(ks);
      SelectSnoc(s, x, key, ks[0]);
      FlattenSnoc(s, x, key, ks[1..]);
    }
  }

  /** The buckets of a covering list of distinct keys partition s: each
      element lands in exactly one bucket. */
  lemma {:induction false} FlattenPerm<T, K>(s: seq<T>, key: T -> K, ks: seq<K>)
    requires Distinct(ks) && Covers(ks, s, key)
    ensures multiset(Flatten(s, key, ks)) == multiset(s)
    decreases |s|
  {
    if s == [] {
      FlattenEmpty(key, ks);
    } else {
      var p := s[..|s| - 1];
      var x := s[|s| - 1];
      assert s == p + [x];
      assert Covers(ks, p, key) by {
        forall i | 0 <= i < |p| ensures key(p[i]) in ks {
          assert p[i] == s[i];
        }
      }
      FlattenPerm(p, key, ks);
      FlattenSnoc(p, x, key, ks);
      assert key(s[|s| - 1]) in ks;
    }
  }

  lemma {:induction false} FlattenEmpty<T, K>(key: T -> K, ks: seq<K>)
    ensures Flatten([], key, ks) == []
  {
    if ks != [] {
      FlattenEmpty(key, ks[1..]);
    }
  }

  /** A list of buckets, one per key of ks, each carrying the real measure g
      equal to the sum of f over its bucket, sums to the sum of f over the
      buckets laid end to end. */
  lemma {:induction false} BucketSumReal<T, K, B>(s: seq<T>, key: T -> K, ks: seq<K>, b: seq<B>, g: B -> real, f: T -> real)
    requires |b| == |ks|
    requires forall j :: 0 <= j < |ks| ==> g(b[j]) == SumReal(Select(s, key, ks[j]), f)
    ensures SumReal(b, g) == SumReal(Flatten(s, key, ks), f)
  {
    if ks != [] {
      forall j | 0 <= j < |ks| - 1 ensures g(b[1..][j]) == SumReal(Select(s, key, ks[1..][j]), f) {
        assert b[1..][j] == b[j + 1] && ks[1..][j] == ks[j + 1];
      }
      BucketSumReal(s, key, ks[1..], b[1..], g, f);
      assert b == [b[0]] + b[1..];
      SumRealConcat([b[0]], b[1..], g);
      assert SumReal([b[0]], g) == g(b[0]) by {
        assert [b[0]][..0] == [];
      }
      SumRealConcat(Select(s, key, ks[0]), Flatten(s, key, ks[1..]), f);
    }
  }

  /** Integer counterpart of BucketSumReal for bucket sizes. */
  lemma {:induction false} BucketCount<T, K, B>(s: seq<T>, key: T -> K, ks: seq<K>, b: seq<B>, g: B -> int)
    requires |b| == |ks|
    requires forall j :: 0 <= j < |ks| ==> g(b[j]) == |Select(s, key, ks[j])|
    ensures SumInt(b, g) == |Flatten(s, key, ks)|
  {
    if ks != [] {
      forall j | 0 <= j < |ks| - 1 ensures g(b[1..][j]) == |Select(s, key, ks[1..][j])| {
        assert b[1..][j] == b[j + 1] && ks[1..][j] == ks[j + 1];
      }
      BucketCount(s, key, ks[1..], b[1..], g);
      assert b == [b[0]] + b[1..];
      SumIntConcat([b[0]], b[1..], g);
      assert SumInt([b[0]], g) == g(b[0]) by {
        assert [b[0]][..0] == [];
      }
    }
  }

  /** Sum and count of the buckets of a covering list of distinct keys equal
      the sum and count over the whole list. */
  lemma Partition<T, K, B>(s: seq<T>, key: T -> K, ks: seq<K>, b: seq<B>, g: B -> real, f: T -> real, n: B -> int)
    requires Distinct(ks) && Covers(ks, s, key) && |b| == |ks|
    requires forall j :: 0 <= j < |ks| ==> g(b[j]) == SumReal(Select(s, key, ks[j]), f)
    requires forall j :: 0 <= j < |ks| ==> n(b[j]) == |Select(s, key, ks[j])|
    ensures SumReal(b, g) == SumReal(s, f)
    ensures SumInt(b, n) == |s|
  {
    FlattenPerm(s, key, ks);
    BucketSumReal(s, key, ks, b, g, f);
    BucketCount(s, key, ks, b, n);
    SumRealPerm(Flatten(s, key, ks), s, f);
    assert |Flatten(s, key, ks)| == |multiset(Flatten(s, key, ks))| == |multiset(s)| == |s|;
  }
}

=== FILE: insight_style.dfy ===
/** frontend/src/lib/utils.ts: how an insight's type is shown, as an icon
    and as the CSS classes of its card. */
module InsightStyle {
  import opened Insights

  /** `getInsightIcon`. */
  function InsightIcon(kind: string): string
  {
    match kind
    case "success" => "✅"
    case "warning" => "⚠️"
    case "danger" => "🚨"
    case "info" => "💡"
    case _ => "📊"
  }

  /** `getInsightColor`. */
  function InsightColor(kind: string): string
  {
    match kind
    case "success" => "border-success bg-success/10"
    case "warning" => "border-warning bg-warning/10"
    case "danger" => "border-danger bg-danger/10"
    case "info" => "border-secondary bg-secondary/10"
    case _ => "border-border bg-surface-light"
  }

  const Kinds: seq<string> := ["success", "warning", "danger", "info"]

  /** The four insight types get four different icons, and every other
      type the chart icon, which none of the four has. */
  lemma InsightIconSpec(kind: string)
    ensures forall i, j :: 0 <= i < j < |Kinds| ==> InsightIcon(Kinds[i]) != InsightIcon(Kinds[j])
    ensures kind !in Kinds ==> InsightIcon(kind) == "📊"
    ensures forall i :: 0 <= i < |Kinds| ==> InsightIcon(Kinds[i]) != "📊"
  {
  }

  /** The four insight types get four different class strings, and every
      other type the neutral border, which none of the four has. */
  lemma InsightColorSpec(kind: string)
    ensures forall i, j :: 0 <= i < j < |Kinds| ==> InsightColor(Kinds[i]) != InsightColor(Kinds[j])
    ensures kind !in Kinds ==> InsightColor(kind) == "border-border bg-surface-light"
    ensures forall i :: 0 <= i < |Kinds| ==> InsightColor(Kinds[i]) != "border-border bg-surface-light"
  {
  }

  /** Every insight the rule engines emit is drawn with its own icon and
      card style, never the fallback ones. */
  lemma KindStyles(k: InsightKind, k2: InsightKind)
    ensures k != k2 ==> InsightIcon(KindName(k)) != InsightIcon(KindName(k2))
    ensures k != k2 ==> InsightColor(KindName(k)) != InsightColor(KindName(k2))
    ensures InsightIcon(KindName(k)) != "📊" && InsightColor(KindName(k)) != "border-border bg-surface-light"
  {
  }
}

=== FILE: insights.dfy ===
/** The insight records that the rule engines of
    backend/app/services/ai_service.py and backend/app/routers/ai_insights.py
    emit, and that the front end renders by type. */
module Insights {
  import opened Wrappers

  /** The `type` field of an insight. */
  datatype InsightKind = Success | Warning | Danger | Info

  /** The wire name of a kind, as the JSON `type` string carries it. */
  function KindName(k: InsightKind): string
  {
    match k
    case Success => "success"
    case Warning => "warning"
    case Danger => "danger"
    case Info => "info"
  }

  /** The numbers an insight's description reports; the description and
      action sentences themselves are fixed text around them. */
  datatype Detail =
    | RateDetail(winRate: real)
    | AveragesDetail(averageLoss: real, averageWin: real)
    | FactorDetail(profitFactor: real)
    | StreakDetail(streak: nat)
    | HourDetail(hour: int, profit: real)
    | SymbolDetail(symbol: string, winRate: real, wins: nat, trades: nat, profit: real)
    | LimitsDetail(dailyLoss: real, dailyGain: real)
    | CountDetail(trades: nat)

  /** One insight: its type, its category (absent on the "more data needed"
      notice), its title and the figures it reports. */
  datatype Insight = Insight(kind: InsightKind, category: Option<string>, title: string, detail: Detail)

  /** The insights of category c, in order. */
  function OfCategory(r: seq<Insight>, c: string): (o: seq<Insight>)
    ensures |o| <= |r|
    ensures forall x :: x in o ==> x in r && x.category == Some(c)
    decreases |r|
  {
    if r == [] then []
    else OfCategory(r[..|r| - 1], c) + (if r[|r| - 1].category == Some(c) then [r[|r| - 1]] else [])
  }

  /** The insights of kind k, in order. */
  function OfKind(r: seq<Insight>, k: InsightKind): (o: seq<Insight>)
    ensures |o| <= |r|
    ensures forall x :: x in o ==> x in r && x.kind == k
    decreases |r|
  {
    if r == [] then []
    else OfKind(r[..|r| - 1], k) + (if r[|r| - 1].kind == k then [r[|r| - 1]] else [])
  }

  lemma {:induction false} OfCategoryConcat(a: seq<Insight>, b: seq<Insight>, c: string)
    ensures OfCategory(a + b, c) == OfCategory(a, c) + OfCategory(b, c)
    decreases |b|
  {
    if b == [] {
      assert a + b == a;
    } else {
      var q := b[..|b| - 1];
      assert (a + b)[..|a + b| - 1] == a + q;
      OfCategoryConcat(a, q, c);
    }
  }

  lemma {:induction false} OfKindConcat(a: seq<Insight>, b: seq<Insight>, k: InsightKind)
    ensures OfKind(a + b, k) == OfKind(a, k) + OfKind(b, k)
    decreases |b|
  {
    if b == [] {
      assert a + b == a;
    } else {
      var q := b[..|b| - 1];
      assert (a + b)[..|a + b| - 1] == a + q;
      OfKindConcat(a, q, k);
    }
  }

  /** Selecting by category keeps all of a list of that category and none
      of a list without it. */
  lemma {:induction false} OfCategoryAllOrNone(r: seq<Insight>, c: string)
    ensures (forall x :: x in r ==> x.category == Some(c)) ==> OfCategory(r, c) == r
    ensures (forall x :: x in r ==> x.category != Some(c)) ==> OfCategory(r, c) == []
    decreases |r|
  {
    if r != [] {
      var q := r[..|r| - 1];
      assert forall x :: x in q ==> x in r;
      OfCategoryAllOrNone(q, c);
      assert r == q + [r[|r| - 1]];
    }
  }

  lemma {:induction false} OfKindAllOrNone(r: seq<Insight>, k: InsightKind)
    ensures (forall x :: x in r ==> x.kind == k) ==> OfKind(r, k) == r
    ensures (forall x :: x in r ==> x.kind != k) ==> OfKind(r, k) == []
    decreases |r|
  {
    if r != [] {
      var q := r[..|r| - 1];
      assert forall x :: x in q ==> x in r;
      OfKindAllOrNone(q, k);
      assert r == q + [r[|r| - 1]];
    }
  }

  /** Appending insights of other categories leaves the selection of
      category c unchanged. */
  lemma NoneAfter(a: seq<Insight>, b: seq<Insight>, c: string)
    requires forall x :: x in b ==> x.category != Some(c)
    ensures OfCategory(a + b, c) == OfCategory(a, c)
  {
    OfCategoryConcat(a, b, c);
    OfCategoryAllOrNone(b, c);
    assert OfCategory(a, c) + [] == OfCategory(a, c);
  }

  /** When only the appended part b has category c, the selection is b. */
  lemma OnlyLast(a: seq<Insight>, b: seq<Insight>, c: string)
    requires forall x :: x in a ==> x.category != Some(c)
    requires forall x :: x in b ==> x.category == Some(c)
    ensures OfCategory(a + b, c) == b
  {
    OfCategoryConcat(a, b, c);
    OfCategoryAllOrNone(a, c);
    OfCategoryAllOrNone(b, c);
    assert [] + b == b;
  }

  /** The same for a kind k. */
  lemma OnlyLastKind(a: seq<Insight>, b: seq<Insight>, k: InsightKind)
    requires forall x :: x in a ==> x.kind != k
    requires forall x :: x in b ==> x.kind == k
    ensures OfKind(a + b, k) == b
  {
    OfKindConcat(a, b, k);
    OfKindAllOrNone(a, k);
    OfKindAllOrNone(b, k);
    assert [] + b == b;
  }

  /** A list closed by an insight x of kind k, after insights of other
      kinds, ends with x and holds no other insight of kind k. */
  lemma ClosingInsight(a: seq<Insight>, x: Insight, k: InsightKind)
    requires forall y :: y in a ==> y.kind != k
    requires x.kind == k
    ensures var out := a + [x]; |out| >= 1 && out[|out| - 1] == x && OfKind(out, k) == [x]
  {
    OnlyLastKind(a, [x], k);
  }
}

=== FILE: integrations.dfy ===
/** backend/app/routers/integrations.py: the handlers that bring trades in
    from a MetaTrader 5 terminal, from the MetaAPI cloud bridge and from a
    TradingView alert. The two sync handlers insert a fetched trade only
    when the user has no row with the same external id and source, and
    count the trades imported and skipped; the webhook inserts one row
    with no such check. The store is the table of TradeStore, updated by
    each insertion (the session flushes before every query). */
module Integrations {
  import opened Wrappers
  import opened Seqs
  import opened Text
  import opened TradeModel
  import opened TradeStore
  import MetaTrader
  import MetaApi
  import TradingView

  // -------------------------------------------------- keyed insertion

  /** A fetched trade as a sync loop sees it: the external id it is looked
      up under, and the row it becomes, or None when building the row
      raises (the loop then moves on without counting it). */
  datatype Candidate = Candidate(key: string, row: Option<Trade>)

  /** The store's rows and next id, with the two counters of a sync loop. */
  datatype Tally = Tally(rows: seq<Trade>, nextId: int, imported: nat, skipped: nat)

  /** Every candidate row belongs to the user, carries its key as external
      id, and names the source. */
  predicate WellKeyed(cs: seq<Candidate>, userId: int, source: string)
  {
    forall c :: c in cs && c.row.Some? ==>
      c.row.value.userId == userId && c.row.value.externalId == Some(c.key) && c.row.value.source == source
  }

  /** One turn of a sync loop: a key the user already has under the
      source is skipped; otherwise a row that builds is stored under the
      next id and counted, and one that raises changes nothing. */
  function Offer(s: Tally, userId: int, source: string, c: Candidate): Tally
  {
    if Keyed(s.rows, userId, c.key, source) then s.(skipped := s.skipped + 1)
    else if c.row.None? then s
    else Tally(s.rows + [c.row.value.(id := s.nextId)], s.nextId + 1, s.imported + 1, s.skipped)
  }

  /** The whole loop, over the candidates in order. */
  function OfferAll(s: Tally, userId: int, source: string, cs: seq<Candidate>): Tally
    decreases |cs|
  {
    if cs == [] then s
    else Offer(OfferAll(s, userId, source, cs[..|cs| - 1]), userId, source, cs[|cs| - 1])
  }

  /** The dedup-and-insert loop shared by both sync handlers. */
  method ImportKeyed(store: Store, userId: int, source: string, cs: seq<Candidate>) returns (imported: nat, skipped: nat)
    requires store.Valid()
    modifies store
    ensures store.Valid()
    ensures Tally(store.rows, store.nextId, imported, skipped)
      == OfferAll(Tally(old(store.rows), old(store.nextId), 0, 0), userId, source, cs)
  {
    ghost var start := Tally(store.rows, store.nextId, 0, 0);
    imported, skipped := 0, 0;
    for k := 0 to |cs|
      invariant store.Valid()
      invariant Tally(store.rows, store.nextId, imported, skipped) == OfferAll(start, userId, source, cs[..k])
    {
      assert cs[..k + 1][..k] == cs[..k];
      var c := cs[k];
      if store.HasKey(userId, c.key, source) {
        skipped := skipped + 1;
        continue;
      }
      if c.row.None? {
        continue;
      }
      var stored := store.Insert(c.row.value);
      imported := imported + 1;
    }
    assert cs[..|cs|] == cs;
  }

  /** No two rows of the user under the source share an external id. */
  ghost predicate UniqueKeys(rows: seq<Trade>, userId: int, source: string)
  {
    forall i, j :: 0 <= i < j < |rows| && rows[i].userId == userId && rows[j].userId == userId
      && rows[i].source == source && rows[j].source == source && rows[i].externalId.Some?
      ==> rows[i].externalId != rows[j].externalId
  }

  /** A stored row is a candidate's row under some id. */
  ghost predicate Proposed(cs: seq<Candidate>, t: Trade)
  {
    exists c :: c in cs && c.row.Some? && t == c.row.value.(id := t.id)
  }

  /** The loop keeps every earlier row, appends one row per import under
      consecutive ids, and counts each candidate at most once: exactly
      once when every row builds. */
  lemma {:induction false} OfferAllShape(s: Tally, userId: int, source: string, cs: seq<Candidate>)
    ensures var r := OfferAll(s, userId, source, cs);
      && r.imported >= s.imported && r.skipped >= s.skipped
      && r.imported + r.skipped <= s.imported + s.skipped + |cs|
      && |r.rows| == |s.rows| + (r.imported - s.imported)
      && r.nextId == s.nextId + (r.imported - s.imported)
      && r.rows[..|s.rows|] == s.rows
    ensures (forall c :: c in cs ==> c.row.Some?) ==>
      var r := OfferAll(s, userId, source, cs);
      r.imported + r.skipped == s.imported + s.skipped + |cs|
    decreases |cs|
  {
    if cs != [] {
      var q := cs[..|cs| - 1];
      OfferAllShape(s, userId, source, q);
      assert forall c :: c in q ==> c in cs;
      var m := OfferAll(s, userId, source, q);
      var r := Offer(m, userId, source, cs[|cs| - 1]);
      assert r.rows[..|m.rows|] == m.rows;
      assert r.rows[..|s.rows|] == m.rows[..|s.rows|];
    }
  }

  /** Every row stored by the loop is a candidate's row, under the next id
      in turn. */
  lemma {:induction false} OfferAllSound(s: Tally, userId: int, source: string, cs: seq<Candidate>)
    ensures var r := OfferAll(s, userId, source, cs);
      forall k :: |s.rows| <= k < |r.rows| ==> Proposed(cs, r.rows[k]) && r.rows[k].id == s.nextId + (k - |s.rows|)
    decreases |cs|
  {
    if cs != [] {
      var q := cs[..|cs| - 1];
      var c := cs[|cs| - 1];
      OfferAllSound(s, userId, source, q);
      OfferAllShape(s, userId, source, q);
      var m := OfferAll(s, userId, source, q);
      var r := Offer(m, userId, source, c);
      forall k | |s.rows| <= k < |r.rows| ensures Proposed(cs, r.rows[k]) && r.rows[k].id == s.nextId + (k - |s.rows|) {
        if k < |m.rows| {
          assert r.rows[k] == m.rows[k];
          var d :| d in q && d.row.Some? && m.rows[k] == d.row.value.(id := m.rows[k].id);
          assert d in cs;
        } else {
          assert r.rows[k] == c.row.value.(id := m.nextId);
        }
      }
    }
  }

  /** Afterwards every candidate whose row builds has its key stored, and
      no key stored before is lost. */
  lemma {:induction false} OfferAllKeys(s: Tally, userId: int, source: string, cs: seq<Candidate>)
    requires WellKeyed(cs, userId, source)
    ensures var r := OfferAll(s, userId, source, cs);
      forall c :: c in cs && c.row.Some? ==> Keyed(r.rows, userId, c.key, source)
    ensures var r := OfferAll(s, userId, source, cs);
      forall key :: Keyed(s.rows, userId, key, source) ==> Keyed(r.rows, userId, key, source)
    decreases |cs|
  {
    if cs != [] {
      var q := cs[..|cs| - 1];
      var c := cs[|cs| - 1];
      assert forall d :: d in q ==> d in cs;
      OfferAllKeys(s, userId, source, q);
      var m := OfferAll(s, userId, source, q);
      var r := Offer(m, userId, source, c);
      assert r.rows[..|m.rows|] == m.rows;
      KeyedGrows(m.rows, r.rows);
      if !Keyed(m.rows, userId, c.key, source) && c.row.Some? {
        assert r.rows[|m.rows|] == c.row.value.(id := m.nextId);
      }
    }
  }

  /** A key stays stored when rows are appended. */
  lemma KeyedGrows(rows: seq<Trade>, longer: seq<Trade>)
    requires |rows| <= |longer| && longer[..|rows|] == rows
    ensures forall u, key, src :: Keyed(rows, u, key, src) ==> Keyed(longer, u, key, src)
  {
    forall u, key, src | Keyed(rows, u, key, src) ensures Keyed(longer, u, key, src) {
      var i :| 0 <= i < |rows| && rows[i].userId == u && rows[i].externalId == Some(key) && rows[i].source == src;
      assert longer[i] == rows[i];
    }
  }

  /** When every key is already stored (or its row cannot be built),
      the loop stores nothing. */
  lemma {:induction false} OfferAllSettled(s: Tally, userId: int, source: string, cs: seq<Candidate>)
    requires forall c :: c in cs ==> Keyed(s.rows, userId, c.key, source) || c.row.None?
    ensures var r := OfferAll(s, userId, source, cs);
      r.rows == s.rows && r.nextId == s.nextId && r.imported == s.imported
    decreases |cs|
  {
    if cs != [] {
      var q := cs[..|cs| - 1];
      assert forall c :: c in q ==> c in cs;
      OfferAllSettled(s, userId, source, q);
      assert cs[|cs| - 1] in cs;
    }
  }

  /** Running the same sync a second time imports nothing and leaves the
      table as the first run left it. */
  lemma SyncTwice(s: Tally, userId: int, source: string, cs: seq<Candidate>)
    requires WellKeyed(cs, userId, source)
    ensures var r1 := OfferAll(s, userId, source, cs);
      var r2 := OfferAll(Tally(r1.rows, r1.nextId, 0, 0), userId, source, cs);
      r2.rows == r1.rows && r2.imported == 0
  {
    OfferAllKeys(s, userId, source, cs);
    var r1 := OfferAll(s, userId, source, cs);
    OfferAllSettled(Tally(r1.rows, r1.nextId, 0, 0), userId, source, cs);
  }

  /** The loop never stores a second row under a key of the user and
      source, even when the fetched list repeats a key. */
  lemma {:induction false} OfferAllUnique(s: Tally, userId: int, source: string, cs: seq<Candidate>)
    requires WellKeyed(cs, userId, source) && UniqueKeys(s.rows, userId, source)
    ensures UniqueKeys(OfferAll(s, userId, source, cs).rows, userId, source)
    decreases |cs|
  {
    if cs != [] {
      var q := cs[..|cs| - 1];
      var c := cs[|cs| - 1];
      assert forall d :: d in q ==> d in cs;
      OfferAllUnique(s, userId, source, q);
      var m := OfferAll(s, userId, source, q);
      if !Keyed(m.rows, userId, c.key, source) && c.row.Some? {
        var rows := m.rows + [c.row.value.(id := m.nextId)];
        forall i, j | 0 <= i < j < |rows| && rows[i].userId == userId && rows[j].userId == userId
          && rows[i].source == source && rows[j].source == source && rows[i].externalId.Some?
          ensures rows[i].externalId != rows[j].externalId
        {
          if j == |m.rows| && rows[i].externalId == rows[j].externalId {
            assert false;
          }
        }
      }
    }
  }

  // ------------------------------------------------------ MetaTrader 5

  const Mt5Source: string := "METATRADER"

  const SyncAlternatives: seq<string> := [
    "📁 Exporte o histórico do MT5 como arquivo CSV",
    "📤 Use a opção 'Upload CSV' para importar os trades",
    "💡 No MT5: Histórico > Clique direito > Relatório > Salvar como CSV"]

  const SyncDoneMessage: string := "✅ Sincronização concluída!"
  const NothingFoundMessage: string := "Nenhum trade encontrado no período"

  /** The reply of `sync_mt5_trades`. */
  datatype Mt5SyncReply = Mt5SyncReply(
    success: bool, message: string, imported: nat, skipped: nat, alternatives: seq<string>)

  function NotWindowsSyncMessage(platform: string): string
  {
    "⚠️ Integração direta com MetaTrader5 só funciona no Windows. Você está usando " + platform + "."
  }

  /** The row a closed MetaTrader position becomes: its entry fields, its
      exit price, time, profit and swap, the duration in whole minutes
      truncated toward zero, source METATRADER and the entry deal's ticket
      as external id. */
  function Mt5Row(userId: int, p: MetaTrader.PositionRecord): (t: Trade)
    requires p.closing.Some?
    ensures t.userId == userId && t.symbol == p.symbol && t.tradeType == p.tradeType
    ensures t.volume == p.volume && t.entryPrice == p.priceOpen && t.exitPrice == Some(p.closing.value.priceClose)
    ensures t.profit == p.closing.value.profit && t.commission == p.commission && t.swap == p.closing.value.swap
    ensures t.openTime == p.timeOpen && t.closeTime == Some(p.closing.value.timeClose)
    ensures t.durationMinutes == MinutesBetween(p.timeOpen, p.closing.value.timeClose)
    ensures t.source == Mt5Source && t.externalId == Some(IntToString(p.ticket))
    ensures t.stopLoss.None? && t.takeProfit.None? && t.notes.None? && t.profitPips == 0.0
  {
    var c := p.closing.value;
    Trade(0, userId, p.symbol, p.tradeType, p.volume, p.priceOpen, Some(c.priceClose), None, None,
          c.profit, 0.0, p.commission, c.swap, p.timeOpen, Some(c.timeClose),
          MinutesBetween(p.timeOpen, c.timeClose), Mt5Source, Some(IntToString(p.ticket)), None)
  }

  /** The trades the terminal's history yields: none without a deal list,
      the paired trades otherwise; each carries its exit's fields. */
  function Mt5Fetched(deals: Option<seq<MetaTrader.Mt5Deal>>): (r: seq<MetaTrader.PositionRecord>)
    ensures forall k :: 0 <= k < |r| ==> r[k].closing.Some?
  {
    if deals.None? then []
    else
      MetaTrader.ReplayCounts(deals.value);
      MetaTrader.Paired(deals.value)
  }

  /** The MetaTrader trades as candidates, keyed by their ticket. */
  function Mt5Candidates(userId: int, trades: seq<MetaTrader.PositionRecord>): (cs: seq<Candidate>)
    requires forall k :: 0 <= k < |trades| ==> trades[k].closing.Some?
    ensures |cs| == |trades|
    ensures forall k :: 0 <= k < |cs| ==> cs[k] == Candidate(IntToString(trades[k].ticket), Some(Mt5Row(userId, trades[k])))
  {
    seq(|trades|, k requires 0 <= k < |trades| => Candidate(IntToString(trades[k].ticket), Some(Mt5Row(userId, trades[k]))))
  }

  /** MetaTrader candidates are keyed by their own external id, and every
      one of them builds a row. */
  lemma Mt5CandidatesKeyed(userId: int, trades: seq<MetaTrader.PositionRecord>)
    requires forall k :: 0 <= k < |trades| ==> trades[k].closing.Some?
    ensures WellKeyed(Mt5Candidates(userId, trades), userId, Mt5Source)
    ensures forall c :: c in Mt5Candidates(userId, trades) ==> c.row.Some?
  {
    var cs := Mt5Candidates(userId, trades);
    forall c | c in cs ensures c.row.Some? && c.row.value.userId == userId
      && c.row.value.externalId == Some(c.key) && c.row.value.source == Mt5Source
    {
      var k :| 0 <= k < |cs| && cs[k] == c;
    }
  }

  /** `sync_mt5_trades`. Off Windows it answers with the alternatives and
      touches nothing; a failed connection, or a history without trades,
      answers with zero counts and stores nothing; otherwise each fetched
      trade is imported unless its ticket is already stored for the user. */
  method SyncMt5(store: Store, userId: int, platform: string, lib: MetaTrader.Library, server: string,
                 deals: Option<seq<MetaTrader.Mt5Deal>>) returns (r: Mt5SyncReply)
    requires store.Valid()
    modifies store
    ensures store.Valid()
    ensures platform != "Windows" ==>
      r == Mt5SyncReply(false, NotWindowsSyncMessage(platform), 0, 0, SyncAlternatives)
      && store.rows == old(store.rows) && store.nextId == old(store.nextId)
    ensures platform == "Windows" && !lib.LoggedIn? ==>
      r == Mt5SyncReply(false, MetaTrader.LibraryReply(lib, server).message, 0, 0, [])
      && store.rows == old(store.rows) && store.nextId == old(store.nextId)
    ensures platform == "Windows" && lib.LoggedIn? && Mt5Fetched(deals) == [] ==>
      r == Mt5SyncReply(true, NothingFoundMessage, 0, 0, [])
      && store.rows == old(store.rows) && store.nextId == old(store.nextId)
    ensures platform == "Windows" && lib.LoggedIn? && Mt5Fetched(deals) != [] ==>
      && r.success && r.message == SyncDoneMessage && r.alternatives == []
      && Tally(store.rows, store.nextId, r.imported, r.skipped)
         == OfferAll(Tally(old(store.rows), old(store.nextId), 0, 0), userId, Mt5Source,
                     Mt5Candidates(userId, Mt5Fetched(deals)))
  {
    if platform != "Windows" {
      return Mt5SyncReply(false, NotWindowsSyncMessage(platform), 0, 0, SyncAlternatives);
    }
    var service := new MetaTrader.MetaTraderService();
    var reply := service.Connect(platform, lib, server);
    if !reply.success {
      return Mt5SyncReply(false, reply.message, 0, 0, []);
    }
    var history := service.GetHistory(deals);
    assert history.Trades?;
    var trades := history.trades;
    assert trades == Mt5Fetched(deals);
    if trades == [] {
      return Mt5SyncReply(true, NothingFoundMessage, 0, 0, []);
    }
    var imported, skipped := ImportKeyed(store, userId, Mt5Source, Mt5Candidates(userId, trades));
    service.Disconnect();
    r := Mt5SyncReply(true, SyncDoneMessage, imported, skipped, []);
  }

  /** Every fetched MetaTrader trade is counted once, as imported or as
      skipped; a second sync of the same history imports nothing; and the
      table never holds two rows of the user with the same ticket. */
  lemma Mt5SyncCounts(s: Tally, userId: int, deals: Option<seq<MetaTrader.Mt5Deal>>)
    ensures var cs := Mt5Candidates(userId, Mt5Fetched(deals));
      var r := OfferAll(s, userId, Mt5Source, cs);
      r.imported - s.imported + r.skipped - s.skipped == |Mt5Fetched(deals)|
    ensures var cs := Mt5Candidates(userId, Mt5Fetched(deals));
      var r1 := OfferAll(s, userId, Mt5Source, cs);
      OfferAll(Tally(r1.rows, r1.nextId, 0, 0), userId, Mt5Source, cs).rows == r1.rows
    ensures UniqueKeys(s.rows, userId, Mt5Source) ==>
      UniqueKeys(OfferAll(s, userId, Mt5Source, Mt5Candidates(userId, Mt5Fetched(deals))).rows, userId, Mt5Source)
  {
    var cs := Mt5Candidates(userId, Mt5Fetched(deals));
    Mt5CandidatesKeyed(userId, Mt5Fetched(deals));
    OfferAllShape(s, userId, Mt5Source, cs);
    SyncTwice(s, userId, Mt5Source, cs);
    if UniqueKeys(s.rows, userId, Mt5Source) {
      OfferAllUnique(s, userId, Mt5Source, cs);
    }
  }

  /** The status `connect_mt5` reports: the library's absence (or another
      platform) with the alternatives, a connection with the account, or
      a failure message. */
  datatype Mt5Status =
    | MockStatus(message: string, alternatives: seq<string>, platformInfo: string)
    | Linked(message: string, accountName: string, balance: real, server: string)
    | Unlinked(message: string)

  const UploadHint: string := "Use a opção de Upload CSV para importar seus trades."

  /** What `connect` answers on a platform. */
  function ConnectAnswer(platform: string, lib: MetaTrader.Library, server: string): MetaTrader.ConnectReply
  {
    if platform != "Windows" then MetaTrader.NotWindowsReply(platform) else MetaTrader.LibraryReply(lib, server)
  }

  /** `connect_mt5`'s mapping of the service's reply. */
  function StatusOf(reply: MetaTrader.ConnectReply, server: string): Mt5Status
  {
    if reply.isMock then MockStatus(reply.message, reply.alternatives, UploadHint)
    else if reply.success && reply.account.Some? then
      Linked(reply.message, reply.account.value.name, reply.account.value.balance, server)
    else Unlinked(reply.message)
  }

  /** `connect_mt5`: a fresh service connects and its reply is mapped. */
  method ConnectMt5(platform: string, lib: MetaTrader.Library, server: string) returns (s: Mt5Status)
    ensures s == StatusOf(ConnectAnswer(platform, lib, server), server)
  {
    var service := new MetaTrader.MetaTraderService();
    var reply := service.Connect(platform, lib, server);
    s := StatusOf(reply, server);
  }

  /** The connection is reported exactly after a login on Windows, with
      the account's name and balance and the server asked for; a mock
      status exactly off Windows (with the three alternatives) or without
      the library (with none). */
  lemma ConnectMt5Cases(platform: string, lib: MetaTrader.Library, server: string)
    ensures var s := StatusOf(ConnectAnswer(platform, lib, server), server);
      s.Linked? <==> platform == "Windows" && lib.LoggedIn?
    ensures var s := StatusOf(ConnectAnswer(platform, lib, server), server);
      s.Linked? ==> s.accountName == lib.name && s.balance == lib.balance && s.server == server
    ensures var s := StatusOf(ConnectAnswer(platform, lib, server), server);
      s.MockStatus? <==> platform != "Windows" || lib.NotInstalled?
    ensures var s := StatusOf(ConnectAnswer(platform, lib, server), server);
      s.MockStatus? ==> (s.platformInfo == UploadHint
        && s.alternatives == (if platform != "Windows" then MetaTrader.Alternatives else []))
  {
  }

  // ------------------------------------------------------------ MetaAPI

  const MetaApiSourceName: string := "METAAPI"

  /** The reply of `sync_metaapi_trades`; the skipped count and the total
      appear only after a sync loop, the account only on success. */
  datatype MetaApiSyncReply = MetaApiSyncReply(
    success: bool, message: string, imported: nat, skipped: Option<nat>,
    totalFound: Option<nat>, account: Option<MetaApi.AccountData>)

  const ConnectedNothingMessage: string := "✅ Conexão OK, mas nenhum trade encontrado no período"

  /** Python's `str` of a value that may be None. */
  function PyStr(v: Option<string>): string
  {
    if v.None? then "None" else v.value
  }

  /** The external id of a MetaAPI trade: its symbol and open time. */
  function MetaKey(t: MetaApi.MetaTrade): string
  {
    "metaapi_" + PyStr(t.symbol) + "_" + PyStr(t.openTime)
  }

  /** A time of a MetaAPI trade, as `fromisoformat` reads it. */
  function ReadIso(text: string, iso: MetaApi.IsoParser): Option<int>
  {
    iso(MetaApi.ExpandZulu(text))
  }

  /** The close time is given: present and not empty. */
  predicate HasCloseTime(t: MetaApi.MetaTrade)
  {
    t.closeTime.Some? && t.closeTime.value != ""
  }

  /** Building the row succeeds: the open time is present and parses, a
      given close time parses, and the required columns have values. */
  predicate Builds(t: MetaApi.MetaTrade, iso: MetaApi.IsoParser)
  {
    && t.openTime.Some? && ReadIso(t.openTime.value, iso).Some?
    && (HasCloseTime(t) ==> ReadIso(t.closeTime.value, iso).Some?)
    && t.symbol.Some? && t.volume.Some? && t.entryPrice.Some?
  }

  /** The row a MetaAPI trade becomes, or None when building it raises:
      its fields, the parsed times, its duration, source METAAPI and its
      key as external id. */
  function MetaRow(userId: int, t: MetaApi.MetaTrade, iso: MetaApi.IsoParser): (r: Option<Trade>)
    ensures r.Some? <==> Builds(t, iso)
    ensures r.Some? ==> var row := r.value;
      && row.userId == userId && row.symbol == t.symbol.value && row.tradeType == t.tradeType
      && row.volume == t.volume.value && row.entryPrice == t.entryPrice.value && row.exitPrice == t.exitPrice
      && row.profit == t.profit && row.commission == t.commission && row.swap == t.swap
      && row.openTime == ReadIso(t.openTime.value, iso).value
      && row.closeTime == (if HasCloseTime(t) then ReadIso(t.closeTime.value, iso) else None)
      && row.durationMinutes == t.durationMinutes
      && row.source == MetaApiSourceName && row.externalId == Some(MetaKey(t))
  {
    if !Builds(t, iso) then None
    else
      var closeTime := if HasCloseTime(t) then ReadIso(t.closeTime.value, iso) else None;
      Some(Trade(0, userId, t.symbol.value, t.tradeType, t.volume.value, t.entryPrice.value, t.exitPrice,
                 None, None, t.profit, 0.0, t.commission, t.swap, ReadIso(t.openTime.value, iso).value,
                 closeTime, t.durationMinutes, MetaApiSourceName, Some(MetaKey(t)), None))
  }

  function MetaCandidates(userId: int, trades: seq<MetaApi.MetaTrade>, iso: MetaApi.IsoParser): (cs: seq<Candidate>)
    ensures |cs| == |trades|
    ensures forall k :: 0 <= k < |cs| ==> cs[k] == Candidate(MetaKey(trades[k]), MetaRow(userId, trades[k], iso))
  {
    seq(|trades|, k requires 0 <= k < |trades| => Candidate(MetaKey(trades[k]), MetaRow(userId, trades[k], iso)))
  }

  /** What `test_connection` answers for these credentials. */
  function MetaConnection(apiToken: Option<string>, accountId: Option<string>, outcome: MetaApi.HttpOutcome<MetaApi.AccountData>): MetaApi.Connection
  {
    if MetaApi.Blank(apiToken) || MetaApi.Blank(accountId) then MetaApi.Connection(false, MetaApi.CredentialsMessage, None)
    else MetaApi.ConnectionReply(outcome)
  }

  /** `sync_metaapi_trades`. A failed connection test, or a failed history
      request, answers with its message and stores nothing; an empty
      history answers success with the account; otherwise each trade is
      imported unless its key is already stored, and trades whose row
      cannot be built are counted neither way. */
  method SyncMetaApi(store: Store, userId: int, apiToken: Option<string>, accountId: Option<string>,
                     test: MetaApi.HttpOutcome<MetaApi.AccountData>, fetch: MetaApi.HttpOutcome<seq<MetaApi.Deal>>,
                     iso: MetaApi.IsoParser) returns (r: MetaApiSyncReply)
    requires store.Valid()
    modifies store
    ensures store.Valid()
    ensures var conn := MetaConnection(apiToken, accountId, test);
      !conn.success ==> (r == MetaApiSyncReply(false, conn.message, 0, None, None, None)
        && store.rows == old(store.rows) && store.nextId == old(store.nextId))
    ensures var conn := MetaConnection(apiToken, accountId, test);
      var history := MetaApi.HistoryReply(fetch, iso);
      conn.success && !history.success ==> (r == MetaApiSyncReply(false, history.message.value, 0, None, None, None)
        && store.rows == old(store.rows) && store.nextId == old(store.nextId))
    ensures var conn := MetaConnection(apiToken, accountId, test);
      var history := MetaApi.HistoryReply(fetch, iso);
      conn.success && history.success && history.trades == [] ==>
        r == MetaApiSyncReply(true, ConnectedNothingMessage, 0, None, None, conn.account)
        && store.rows == old(store.rows) && store.nextId == old(store.nextId)
    ensures var conn := MetaConnection(apiToken, accountId, test);
      var history := MetaApi.HistoryReply(fetch, iso);
      conn.success && history.success && history.trades != [] ==>
        && r.success && r.message == SyncDoneMessage && r.account == conn.account
        && r.skipped.Some? && r.totalFound == Some(|history.trades|)
        && Tally(store.rows, store.nextId, r.imported, r.skipped.value)
           == OfferAll(Tally(old(store.rows), old(store.nextId), 0, 0), userId, MetaApiSourceName,
                       MetaCandidates(userId, history.trades, iso))
  {
    var service := new MetaApi.MetaApiService(apiToken, accountId);
    var connection := service.TestConnection(test);
    if !connection.success {
      service.Close();
      return MetaApiSyncReply(false, connection.message, 0, None, None, None);
    }
    var history := service.GetHistory(fetch, iso);
    if !history.success {
      service.Close();
      return MetaApiSyncReply(false, history.message.value, 0, None, None, None);
    }
    var trades := history.trades;
    if trades == [] {
      service.Close();
      return MetaApiSyncReply(true, ConnectedNothingMessage, 0, None, None, connection.account);
    }
    var imported, skipped := ImportKeyed(store, userId, MetaApiSourceName, MetaCandidates(userId, trades, iso));
    service.Close();
    r := MetaApiSyncReply(true, SyncDoneMessage, imported, Some(skipped), Some(|trades|), connection.account);
  }

  /** MetaAPI candidates are keyed by their own external id. */
  lemma MetaCandidatesKeyed(userId: int, trades: seq<MetaApi.MetaTrade>, iso: MetaApi.IsoParser)
    ensures WellKeyed(MetaCandidates(userId, trades, iso), userId, MetaApiSourceName)
  {
    var cs := MetaCandidates(userId, trades, iso);
    forall c | c in cs && c.row.Some? ensures c.row.value.userId == userId
      && c.row.value.externalId == Some(c.key) && c.row.value.source == MetaApiSourceName
    {
      var k :| 0 <= k < |cs| && cs[k] == c;
    }
  }

  /** Missing credentials end the MetaAPI sync before any request, with
      nothing imported; a sync's counts never exceed the trades found; a
      second sync of the same history imports nothing; and the table never
      holds two rows of the user under one MetaAPI key. */
  lemma MetaApiSyncCounts(s: Tally, userId: int, trades: seq<MetaApi.MetaTrade>, iso: MetaApi.IsoParser,
                          apiToken: Option<string>, accountId: Option<string>, test: MetaApi.HttpOutcome<MetaApi.AccountData>)
    ensures MetaApi.Blank(apiToken) || MetaApi.Blank(accountId) ==>
      !MetaConnection(apiToken, accountId, test).success
    ensures var r := OfferAll(s, userId, MetaApiSourceName, MetaCandidates(userId, trades, iso));
      r.imported - s.imported + r.skipped - s.skipped <= |trades|
    ensures (forall k :: 0 <= k < |trades| ==> Builds(trades[k], iso)) ==>
      var r := OfferAll(s, userId, MetaApiSourceName, MetaCandidates(userId, trades, iso));
      r.imported - s.imported + r.skipped - s.skipped == |trades|
    ensures var cs := MetaCandidates(userId, trades, iso);
      var r1 := OfferAll(s, userId, MetaApiSourceName, cs);
      OfferAll(Tally(r1.rows, r1.nextId, 0, 0), userId, MetaApiSourceName, cs).rows == r1.rows
    ensures UniqueKeys(s.rows, userId, MetaApiSourceName) ==>
      UniqueKeys(OfferAll(s, userId, MetaApiSourceName, MetaCandidates(userId, trades, iso)).rows, userId, MetaApiSourceName)
  {
    var cs := MetaCandidates(userId, trades, iso);
    MetaCandidatesKeyed(userId, trades, iso);
    OfferAllShape(s, userId, MetaApiSourceName, cs);
    if forall k :: 0 <= k < |trades| ==> Builds(trades[k], iso) {
      forall c | c in cs ensures c.row.Some? {
        var k :| 0 <= k < |cs| && cs[k] == c;
      }
    }
    SyncTwice(s, userId, MetaApiSourceName, cs);
    if UniqueKeys(s.rows, userId, MetaApiSourceName) {
      OfferAllUnique(s, userId, MetaApiSourceName, cs);
    }
  }

  // -------------------------------------------------------- TradingView

  const TradingViewSource: string := "TRADINGVIEW"

  /** The webhook body as the request schema reads it: symbol, type and
      price are required; volume defaults to 1.0 when absent, but may be
      sent as null, and so may the message and the id. */
  datatype WebhookBody = WebhookBody(
    symbol: string, kind: string, price: real, volume: Option<real>, message: Option<string>, id: Option<string>)

  datatype WebhookReply = WebhookReply(success: bool, message: string, tradeId: int)

  /** The detail of the 400 answer when `float(None)` raises on a null volume. */
  const NullVolumeError: string := "float() argument must be a string or a real number, not 'NoneType'"

  /** The row a webhook becomes: the normalised symbol and type, the price
      as entry price, profit 0, opened now, source TRADINGVIEW, the id and
      the message as sent. */
  function WebhookRow(userId: int, b: WebhookBody, volume: real, now: int): (t: Trade)
    ensures t.userId == userId && t.entryPrice == b.price && t.volume == volume && t.profit == 0.0
    ensures t.openTime == now && t.source == TradingViewSource
    ensures t.externalId == b.id && t.notes == b.message
    ensures t.exitPrice.None? && t.closeTime.None? && t.durationMinutes == 0
  {
    Trade(0, userId, Upper(TradingView.StripExchange(b.symbol)), TradingView.NormalizeType(b.kind), volume, b.price,
          None, None, None, 0.0, 0.0, 0.0, 0.0, now, None, 0, TradingViewSource, b.id, b.message)
  }

  /** The row carries exactly the symbol, type, price and volume that
      `parse_webhook` makes of the body, whatever clock reading it uses. */
  lemma WebhookMatchesParse(userId: int, b: WebhookBody, volume: real, now: int, stamp: string)
    ensures var sig := TradingView.ParseWebhook(
              TradingView.Payload(Some(b.kind), Some(b.symbol), Some(b.price), Some(volume), b.message, b.id), stamp);
      var t := WebhookRow(userId, b, volume, now);
      t.symbol == sig.symbol && t.tradeType == sig.tradeType && t.entryPrice == sig.price && t.volume == sig.volume
    ensures b.message.Some? ==> WebhookRow(userId, b, volume, now).notes == Some(TradingView.ParseWebhook(
              TradingView.Payload(Some(b.kind), Some(b.symbol), Some(b.price), Some(volume), b.message, b.id), stamp).message)
  {
  }

  /** `tradingview_webhook`: a null volume makes `float` raise, answered
      with 400 and no change; otherwise exactly one row is appended, with
      no duplicate check, and its id reported. */
  method ReceiveWebhook(store: Store, userId: int, b: WebhookBody, now: int) returns (r: Result<WebhookReply, HttpError>)
    requires store.Valid()
    modifies store
    ensures store.Valid()
    ensures b.volume.None? ==> (r == Err(HttpError(400, NullVolumeError))
      && store.rows == old(store.rows) && store.nextId == old(store.nextId))
    ensures b.volume.Some? ==>
      && r == Ok(WebhookReply(true, "Trade registrado via TradingView", old(store.nextId)))
      && store.rows == old(store.rows) + [WebhookRow(userId, b, b.volume.value, now).(id := old(store.nextId))]
  {
    if b.volume.None? {
      return Err(HttpError(400, NullVolumeError));
    }
    var stored := store.Insert(WebhookRow(userId, b, b.volume.value, now));
    r := Ok(WebhookReply(true, "Trade registrado via TradingView", stored.id));
  }
}

=== FILE: metaapi.dfy ===
/** backend/app/services/metaapi_service.py: the client of the MetaAPI cloud
    bridge to MetaTrader. The HTTP exchanges are not part of this model:
    what a request brought back (a status and a decoded body, a timeout or
    another failure) is passed in, and the service keeps only whether its
    HTTP client is open. What the model states is the credential guard of
    the connection test, the shaping of the replies, and the pairing of the
    history's deals into trades. */
module MetaApi {
  import opened Wrappers
  import opened Seqs
  import opened Text
  import opened TradeModel

  /** What one request to the bridge came to. */
  datatype HttpOutcome<T> = Response(status: int, body: T) | Timeout(error: string) | Failure(error: string)

  // ------------------------------------------------------ connection test

  /** The account fields the connection test reports. */
  datatype AccountData = AccountData(
    name: Option<string>, login: Option<string>, server: Option<string>,
    platform: Option<string>, state: Option<string>)

  /** The reply of `test_connection`. */
  datatype Connection = Connection(success: bool, message: string, account: Option<AccountData>)

  const CredentialsMessage: string := "Token de API e Account ID são obrigatórios"
  const ConnectedMessage: string := "✅ Conectado ao MetaAPI com sucesso!"
  const BadTokenMessage: string := "❌ Token de API inválido"
  const UnknownAccountMessage: string := "❌ Account ID não encontrado"
  const TimeoutMessage: string := "❌ Timeout na conexão. Tente novamente."

  /** A credential that is absent or empty. */
  predicate Blank(s: Option<string>)
  {
    s.None? || s.value == []
  }

  /** The reply to the account request: success with the account's fields
      on status 200, and a message naming the cause otherwise. */
  function ConnectionReply(outcome: HttpOutcome<AccountData>): (r: Connection)
    ensures r.success <==> outcome.Response? && outcome.status == 200
    ensures r.success ==> r.account == Some(outcome.body) && r.message == ConnectedMessage
    ensures !r.success ==> r.account.None? && r.message != ConnectedMessage && r.message != CredentialsMessage
    ensures outcome.Response? && outcome.status == 401 ==> r.message == BadTokenMessage
    ensures outcome.Response? && outcome.status == 404 ==> r.message == UnknownAccountMessage
    ensures outcome.Timeout? ==> r.message == TimeoutMessage
  {
    match outcome
    case Response(status, body) =>
      if status == 200 then Connection(true, ConnectedMessage, Some(body))
      else if status == 401 then Connection(false, BadTokenMessage, None)
      else if status == 404 then Connection(false, UnknownAccountMessage, None)
      else
        var m := "❌ Erro na API: " + IntToString(status);
        assert m[0] != ConnectedMessage[0] && m[0] != CredentialsMessage[0];
        Connection(false, m, None)
    case Timeout(_) => Connection(false, TimeoutMessage, None)
    case Failure(error) =>
      var m := "❌ Erro: " + error;
      assert m[0] != ConnectedMessage[0] && m[0] != CredentialsMessage[0];
      Connection(false, m, None)
  }

  // --------------------------------------------------------- deal pairing

  /** A deal of the history as the bridge sends it; a key the deal lacks is
      None. Times are ISO 8601 text. */
  datatype Deal = Deal(
    kind: Option<string>, positionId: Option<string>, entryType: Option<string>,
    symbol: Option<string>, volume: Option<real>, price: Option<real>, time: Option<string>,
    commission: Option<real>, profit: Option<real>, swap: Option<real>)

  /** A position an opening deal recorded. */
  datatype OpenPosition = OpenPosition(
    symbol: Option<string>, tradeType: string, volume: Option<real>,
    entryPrice: Option<real>, openTime: Option<string>, commission: real)

  /** A trade: a position completed by its closing deal. */
  datatype MetaTrade = MetaTrade(
    symbol: Option<string>, tradeType: string, volume: Option<real>,
    entryPrice: Option<real>, openTime: Option<string>, commission: real,
    exitPrice: Option<real>, closeTime: Option<string>, profit: real, swap: real,
    durationMinutes: int)

  /** A buy or sell deal; deposits, withdrawals and the like are not. */
  predicate IsTradeDeal(d: Deal)
  {
    d.kind == Some("DEAL_TYPE_BUY") || d.kind == Some("DEAL_TYPE_SELL")
  }

  predicate IsOpening(d: Deal)
  {
    IsTradeDeal(d) && d.entryType == Some("DEAL_ENTRY_IN")
  }

  predicate IsClosing(d: Deal)
  {
    IsTradeDeal(d) && d.entryType == Some("DEAL_ENTRY_OUT")
  }

  /** The position an opening deal records: BUY for a buy deal, SELL for a
      sell deal, commission 0 when the deal has none. */
  function OpenFrom(d: Deal): (p: OpenPosition)
    requires IsTradeDeal(d)
    ensures p.tradeType in {"BUY", "SELL"}
    ensures p.tradeType == "BUY" <==> d.kind == Some("DEAL_TYPE_BUY")
    ensures p.symbol == d.symbol && p.volume == d.volume && p.entryPrice == d.price && p.openTime == d.time
    ensures p.commission == d.commission.GetOr(0.0)
  {
    OpenPosition(d.symbol, if d.kind == Some("DEAL_TYPE_BUY") then "BUY" else "SELL",
                 d.volume, d.price, d.time, d.commission.GetOr(0.0))
  }

  /** The time text with each 'Z' written as the offset "+00:00", as it is
      handed to `datetime.fromisoformat`. */
  function ExpandZulu(s: string): (r: string)
    ensures 'Z' !in r
    ensures 'Z' !in s ==> r == s
    decreases |s|
  {
    if s == [] then []
    else (if s[0] == 'Z' then "+00:00" else [s[0]]) + ExpandZulu(s[1..])
  }

  /** The instant an ISO 8601 time denotes, in seconds, or None when
      `fromisoformat` rejects it. */
  type IsoParser = string -> Option<int>

  /** Both times are present and parse. */
  predicate Timed(openTime: Option<string>, closeTime: Option<string>, iso: IsoParser)
  {
    openTime.Some? && closeTime.Some? && iso(ExpandZulu(openTime.value)).Some? && iso(ExpandZulu(closeTime.value)).Some?
  }

  /** The whole minutes from open to close, truncated toward zero, or 0 when
      either time is absent or does not parse. */
  function Duration(openTime: Option<string>, closeTime: Option<string>, iso: IsoParser): int
  {
    if Timed(openTime, closeTime, iso) then
      MinutesBetween(iso(ExpandZulu(openTime.value)).value, iso(ExpandZulu(closeTime.value)).value)
    else 0
  }

  /** The trade a closing deal makes of an open position: the position's
      fields, the deal's price and time, profit and swap 0 by default, and
      the two commissions added. */
  function CloseWith(p: OpenPosition, d: Deal, iso: IsoParser): (t: MetaTrade)
    ensures t.symbol == p.symbol && t.tradeType == p.tradeType && t.volume == p.volume
    ensures t.entryPrice == p.entryPrice && t.openTime == p.openTime
    ensures t.exitPrice == d.price && t.closeTime == d.time
    ensures t.profit == d.profit.GetOr(0.0) && t.swap == d.swap.GetOr(0.0)
    ensures t.commission == p.commission + d.commission.GetOr(0.0)
    ensures t.durationMinutes == Duration(p.openTime, d.time, iso)
  {
    MetaTrade(p.symbol, p.tradeType, p.volume, p.entryPrice, p.openTime,
              p.commission + d.commission.GetOr(0.0), d.price, d.time,
              d.profit.GetOr(0.0), d.swap.GetOr(0.0), Duration(p.openTime, d.time, iso))
  }

  /** The loop state: the trades so far and the open positions by position
      id (a deal without one files its position under None). */
  datatype Pairing = Pairing(trades: seq<MetaTrade>, open: map<Option<string>, OpenPosition>)

  /** One deal: an opening deal records (or replaces) its position; a
      closing deal of an open position completes it and removes it; any
      other deal changes nothing. */
  function Step(s: Pairing, d: Deal, iso: IsoParser): Pairing
  {
    if IsOpening(d) then Pairing(s.trades, s.open[d.positionId := OpenFrom(d)])
    else if IsClosing(d) && d.positionId in s.open then
      Pairing(s.trades + [CloseWith(s.open[d.positionId], d, iso)], s.open - {d.positionId})
    else s
  }

  /** The state after the deals, in order. */
  function Replay(deals: seq<Deal>, iso: IsoParser): Pairing
    decreases |deals|
  {
    if deals == [] then Pairing([], map[])
    else Step(Replay(deals[..|deals| - 1], iso), deals[|deals| - 1], iso)
  }

  /** `_process_deals_to_trades`. */
  method ProcessDeals(deals: seq<Deal>, iso: IsoParser) returns (trades: seq<MetaTrade>)
    ensures trades == Replay(deals, iso).trades
  {
    var positions: map<Option<string>, OpenPosition> := map[];
    trades := [];
    for i := 0 to |deals|
      invariant Pairing(trades, positions) == Replay(deals[..i], iso)
    {
      assert deals[..i + 1][..i] == deals[..i];
      var deal := deals[i];
      if !IsTradeDeal(deal) {
        continue;
      }
      if deal.entryType == Some("DEAL_ENTRY_IN") {
        positions := positions[deal.positionId := OpenFrom(deal)];
      } else if deal.entryType == Some("DEAL_ENTRY_OUT") && deal.positionId in positions {
        var pos := positions[deal.positionId];
        positions := positions - {deal.positionId};
        trades := trades + [CloseWith(pos, deal, iso)];
      }
    }
    assert deals[..|deals|] == deals;
  }

  // ------------------------------------------------------ history reply

  /** The reply of `get_history`; the two totals are present on success only. */
  datatype History = History(
    success: bool, message: Option<string>, trades: seq<MetaTrade>,
    totalDeals: Option<nat>, totalTrades: Option<nat>)

  /** The reply to the history request: on status 200 the paired trades
      with the number of deals and of trades; otherwise a message and no
      trades. */
  function HistoryReply(outcome: HttpOutcome<seq<Deal>>, iso: IsoParser): (r: History)
    ensures r.success <==> outcome.Response? && outcome.status == 200
    ensures r.success ==> r.trades == Replay(outcome.body, iso).trades && r.message.None?
    ensures r.success ==> r.totalDeals == Some(|outcome.body|) && r.totalTrades == Some(|r.trades|)
    ensures !r.success ==> r.trades == [] && r.message.Some? && r.totalDeals.None? && r.totalTrades.None?
  {
    match outcome
    case Response(status, deals) =>
      if status == 200 then
        var trades := Replay(deals, iso).trades;
        History(true, None, trades, Some(|deals|), Some(|trades|))
      else History(false, Some("Erro ao buscar histórico: " + IntToString(status)), [], None, None)
    case Timeout(error) => History(false, Some(error), [], None, None)
    case Failure(error) => History(false, Some(error), [], None, None)
  }

  // ------------------------------------------------------------ service

  /** `MetaAPIService`: its credentials and whether its HTTP client is open. */
  class MetaApiService {
    const apiToken: Option<string>
    const accountId: Option<string>
    var clientOpen: bool

    constructor (apiToken: Option<string>, accountId: Option<string>)
      ensures this.apiToken == apiToken && this.accountId == accountId && !clientOpen
    {
      this.apiToken := apiToken;
      this.accountId := accountId;
      clientOpen := false;
    }

    /** `test_connection`: without a token or an account id it answers at
        once, whatever the bridge would have said, and opens no client;
        otherwise it opens the client and shapes the bridge's reply. */
    method TestConnection(outcome: HttpOutcome<AccountData>) returns (r: Connection)
      modifies this
      ensures Blank(apiToken) || Blank(accountId) ==>
        r == Connection(false, CredentialsMessage, None) && clientOpen == old(clientOpen)
      ensures !Blank(apiToken) && !Blank(accountId) ==> r == ConnectionReply(outcome) && clientOpen
    {
      if Blank(apiToken) || Blank(accountId) {
        return Connection(false, CredentialsMessage, None);
      }
      clientOpen := true;
      r := ConnectionReply(outcome);
    }

    /** `get_history`: opens the client and shapes the bridge's reply,
        pairing the deals of a successful one. */
    method GetHistory(outcome: HttpOutcome<seq<Deal>>, iso: IsoParser) returns (r: History)
      modifies this
      ensures clientOpen
      ensures r == HistoryReply(outcome, iso)
    {
      clientOpen := true;
      match outcome {
        case Response(status, deals) =>
          if status == 200 {
            var trades := ProcessDeals(deals, iso);
            r := History(true, None, trades, Some(|deals|), Some(|trades|));
          } else {
            r := History(false, Some("Erro ao buscar histórico: " + IntToString(status)), [], None, None);
          }
        case Timeout(error) =>
          r := History(false, Some(error), [], None, None);
        case Failure(error) =>
          r := History(false, Some(error), [], None, None);
      }
    }

    /** `close`: the client, if open, is closed. */
    method Close()
      modifies this
      ensures !clientOpen
    {
      if clientOpen {
        clientOpen := false;
      }
    }
  }

  // ------------------------------------------------------- properties

  lemma ReplaySnoc(deals: seq<Deal>, d: Deal, iso: IsoParser)
    ensures Replay(deals + [d], iso) == Step(Replay(deals, iso), d, iso)
  {
    assert (deals + [d])[..|deals|] == deals;
  }

  /** A deal that is neither an opening nor a closing buy or sell deal
      (a deposit, a withdrawal, an unknown entry type) changes nothing. */
  lemma SkipOtherDeal(deals: seq<Deal>, d: Deal, iso: IsoParser)
    requires !IsOpening(d) && !IsClosing(d)
    ensures Replay(deals + [d], iso) == Replay(deals, iso)
  {
    ReplaySnoc(deals, d, iso);
  }

  /** An opening deal records its position under its id, replacing any
      position open under that id, and emits nothing. */
  lemma OpeningRecords(deals: seq<Deal>, d: Deal, iso: IsoParser)
    requires IsOpening(d)
    ensures Replay(deals + [d], iso).trades == Replay(deals, iso).trades
    ensures Replay(deals + [d], iso).open == Replay(deals, iso).open[d.positionId := OpenFrom(d)]
  {
    ReplaySnoc(deals, d, iso);
  }

  /** Each closing deal adds at most one trade and each opening deal
      accounts for at most one trade or one open position. */
  lemma {:induction false} ReplayCounts(deals: seq<Deal>, iso: IsoParser)
    ensures |Replay(deals, iso).trades| <= |Filter(deals, IsClosing)|
    ensures |Replay(deals, iso).trades| + |Replay(deals, iso).open| <= |Filter(deals, IsOpening)|
    decreases |deals|
  {
    if deals != [] {
      var p := deals[..|deals| - 1];
      var d := deals[|deals| - 1];
      ReplayCounts(p, iso);
      assert deals == p + [d];
      FilterSnoc(p, d, IsClosing);
      FilterSnoc(p, d, IsOpening);
      var s := Replay(p, iso);
      var key := d.positionId;
      if IsOpening(d) {
        assert s.open[key := OpenFrom(d)].Keys == s.open.Keys + {key};
        assert |s.open.Keys + {key}| <= |s.open.Keys| + 1;
      } else if IsClosing(d) && key in s.open {
        assert (s.open - {key}).Keys == s.open.Keys - {key};
      }
    }
  }

  /** A position is open under an id only if an opening deal with that id
      recorded it. */
  ghost predicate OpenedBy(deals: seq<Deal>, key: Option<string>, p: OpenPosition)
  {
    exists i :: 0 <= i < |deals| && IsOpening(deals[i]) && deals[i].positionId == key && p == OpenFrom(deals[i])
  }

  /** A trade is the position of an opening deal completed by a later
      closing deal with the same position id. */
  ghost predicate ClosedBy(deals: seq<Deal>, t: MetaTrade, iso: IsoParser)
  {
    exists i, j :: 0 <= i < j < |deals| && IsOpening(deals[i]) && IsClosing(deals[j])
      && deals[i].positionId == deals[j].positionId && t == CloseWith(OpenFrom(deals[i]), deals[j], iso)
  }

  /** Every open position was recorded by an opening deal, and every trade
      is an opening deal's position completed by a later closing deal of
      the same position: a position never closed yields no trade. */
  lemma {:induction false} ReplaySound(deals: seq<Deal>, iso: IsoParser)
    ensures forall k :: k in Replay(deals, iso).open ==> OpenedBy(deals, k, Replay(deals, iso).open[k])
    ensures forall t :: t in Replay(deals, iso).trades ==> ClosedBy(deals, t, iso)
    decreases |deals|
  {
    if deals != [] {
      var p := deals[..|deals| - 1];
      var d := deals[|deals| - 1];
      var n := |p|;
      ReplaySound(p, iso);
      var s := Replay(p, iso);
      var s' := Replay(deals, iso);
      var key := d.positionId;
      assert forall i :: 0 <= i < n ==> deals[i] == p[i];
      forall k | k in s'.open ensures OpenedBy(deals, k, s'.open[k]) {
        if IsOpening(d) && k == key {
          assert IsOpening(deals[n]) && deals[n].positionId == k;
        } else {
          var i :| 0 <= i < n && IsOpening(p[i]) && p[i].positionId == k && s.open[k] == OpenFrom(p[i]);
          assert IsOpening(deals[i]) && deals[i].positionId == k;
        }
      }
      forall t | t in s'.trades ensures ClosedBy(deals, t, iso) {
        if t in s.trades {
          var i, j :| 0 <= i < j < n && IsOpening(p[i]) && IsClosing(p[j])
            && p[i].positionId == p[j].positionId && t == CloseWith(OpenFrom(p[i]), p[j], iso);
          assert deals[i] == p[i] && deals[j] == p[j];
        } else {
          assert !IsOpening(d) && IsClosing(d) && key in s.open && t == CloseWith(s.open[key], d, iso);
          var i :| 0 <= i < n && IsOpening(p[i]) && p[i].positionId == key && s.open[key] == OpenFrom(p[i]);
          assert deals[i] == p[i] && deals[n] == d;
        }
      }
    }
  }

  /** A closing deal for a position no earlier deal opened adds nothing. */
  lemma UnmatchedClose(deals: seq<Deal>, d: Deal, iso: IsoParser)
    requires IsClosing(d)
    requires forall i :: 0 <= i < |deals| && IsOpening(deals[i]) ==> deals[i].positionId != d.positionId
    ensures Replay(deals + [d], iso) == Replay(deals, iso)
  {
    ReplaySnoc(deals, d, iso);
    ReplaySound(deals, iso);
  }

  /** An opening deal followed by a closing deal of the same position adds
      exactly one trade made of the two, and leaves that position closed;
      a second closing deal of it then adds nothing. */
  lemma OpenThenClose(deals: seq<Deal>, e: Deal, x: Deal, y: Deal, iso: IsoParser)
    requires IsOpening(e) && IsClosing(x) && x.positionId == e.positionId
    requires IsClosing(y) && y.positionId == e.positionId
    ensures Replay(deals + [e, x], iso).trades == Replay(deals, iso).trades + [CloseWith(OpenFrom(e), x, iso)]
    ensures e.positionId !in Replay(deals + [e, x], iso).open
    ensures Replay(deals + [e, x, y], iso) == Replay(deals + [e, x], iso)
  {
    ReplaySnoc(deals, e, iso);
    ReplaySnoc(deals + [e], x, iso);
    assert deals + [e] + [x] == deals + [e, x];
    ReplaySnoc(deals + [e, x], y, iso);
    assert deals + [e, x] + [y] == deals + [e, x, y];
  }

  /** Later deals only append: trades come out in the order of their
      closing deals. */
  lemma {:induction false} ReplayPrefix(deals: seq<Deal>, k: nat, iso: IsoParser)
    requires k <= |deals|
    ensures var a := Replay(deals[..k], iso).trades;
      var b := Replay(deals, iso).trades;
      |a| <= |b| && b[..|a|] == a
    decreases |deals| - k
  {
    if k < |deals| {
      ReplayPrefix(deals, k + 1, iso);
      ReplaySnoc(deals[..k], deals[k], iso);
      PrefixStep(deals, k);
      var a := Replay(deals[..k], iso).trades;
      var a1 := Replay(deals[..k + 1], iso).trades;
      var b := Replay(deals, iso).trades;
      StepAppends(Replay(deals[..k], iso), deals[k], iso);
      assert b[..|a1|][..|a|] == b[..|a|];
    } else {
      assert deals[..k] == deals;
    }
  }

  /** A step keeps the trades so far and adds at most one. */
  lemma StepAppends(s: Pairing, d: Deal, iso: IsoParser)
    ensures var t := Step(s, d, iso).trades;
      |s.trades| <= |t| <= |s.trades| + 1 && t[..|s.trades|] == s.trades
  {
    var t := Step(s, d, iso).trades;
    assert t == s.trades || t == s.trades + [CloseWith(s.open[d.positionId], d, iso)];
  }

  /** The duration is the truncated number of minutes between the parsed
      times: non-negative and within a minute of the elapsed time when the
      close is not earlier; 0 when a time is missing or does not parse. */
  lemma DurationSpec(openTime: Option<string>, closeTime: Option<string>, iso: IsoParser)
    ensures !Timed(openTime, closeTime, iso) ==> Duration(openTime, closeTime, iso) == 0
    ensures Timed(openTime, closeTime, iso) ==>
      var o := iso(ExpandZulu(openTime.value)).value;
      var c := iso(ExpandZulu(closeTime.value)).value;
      var m := Duration(openTime, closeTime, iso);
      (o <= c ==> 0 <= m && 60 * m <= c - o < 60 * m + 60)
      && (c < o ==> m <= 0 && 60 * m - 60 < c - o <= 60 * m)
  {
  }
}

=== FILE: metatrader.dfy ===
/** backend/app/services/metatrader_service.py: the bridge to a local
    MetaTrader 5 terminal through its Python library, which exists on
    Windows only. The library is not part of this model: what its calls
    return is passed in, and the service keeps its two fields, whether a
    login succeeded (`_connected`) and whether the library was loaded
    (`_mt5`). The history pairing keeps each position's record as one
    shared object that every later exit deal of that position rewrites;
    the model gives those objects identities as slots of an arena. */
module MetaTrader {
  import opened Wrappers
  import opened Seqs

  // ---------------------------------------------------------- connection

  /** How far the library got in `connect`: it could not be imported; it
      was loaded but `initialize` failed; `initialize` or a later call
      raised; `login` was refused; or `login` succeeded, with the account's
      name and balance, or with a failure reading the account. */
  datatype Library =
    | NotInstalled
    | InitFailed(lastError: string)
    | Raised(error: string)
    | LoginRefused(lastError: string)
    | LoggedIn(name: string, balance: real)
    | LoggedInAccountFailed(error: string)

  /** The account part of a successful reply. */
  datatype Mt5Account = Mt5Account(name: string, balance: real, server: string)

  /** The reply of `connect`. */
  datatype ConnectReply = ConnectReply(
    success: bool, isMock: bool, message: string, alternatives: seq<string>, account: Option<Mt5Account>)

  const Alternatives: seq<string> := [
    "1. Exporte o histórico do MT5 como CSV e faça upload",
    "2. Use uma VPS Windows para rodar a integração",
    "3. Use a API da sua corretora diretamente"]

  const NotInstalledMessage: string := "❌ Biblioteca MetaTrader5 não instalada. Instale com: pip install MetaTrader5"

  /** The reply `connect` gives on a platform other than Windows. */
  function NotWindowsReply(platform: string): (r: ConnectReply)
    ensures !r.success && r.isMock && |r.alternatives| == 3 && r.account.None?
  {
    ConnectReply(false, true,
      "⚠️ MetaTrader5 só funciona no Windows. Você está usando " + platform
        + ". Use a opção de Upload CSV para importar seus trades do MT5.",
      Alternatives, None)
  }

  /** The reply `connect` gives on Windows, from what the library did:
      success exactly after a login whose account could be read; a mock
      reply only when the library is missing. */
  function LibraryReply(lib: Library, server: string): (r: ConnectReply)
    ensures r.success <==> lib.LoggedIn?
    ensures r.isMock <==> lib.NotInstalled?
    ensures r.success ==> r.account == Some(Mt5Account(lib.name, lib.balance, server))
    ensures !r.success ==> r.account.None?
    ensures r.alternatives == []
  {
    match lib
    case NotInstalled => ConnectReply(false, true, NotInstalledMessage, [], None)
    case InitFailed(e) => ConnectReply(false, false, "❌ Falha ao inicializar MT5: " + e, [], None)
    case Raised(e) => ConnectReply(false, false, "❌ Erro de conexão: " + e, [], None)
    case LoginRefused(e) => ConnectReply(false, false, "❌ Falha no login: " + e, [], None)
    case LoggedIn(name, balance) =>
      ConnectReply(true, false, "✅ Conectado ao MT5: " + name, [], Some(Mt5Account(name, balance, server)))
    case LoggedInAccountFailed(e) => ConnectReply(false, false, "❌ Erro de conexão: " + e, [], None)
  }

  /** The account information the terminal reports. */
  datatype AccountInfo = AccountInfo(
    login: int, name: string, server: string, balance: real, equity: real,
    profit: real, margin: real, marginFree: real, currency: string)

  /** The answer of `get_account_info`: nothing ({}) when not connected,
      the terminal's figures, or the fixed demonstration account. */
  datatype AccountAnswer = NoAccount | Figures(info: AccountInfo)

  const DemoAccount: AccountInfo :=
    AccountInfo(12345678, "Demo Account", "Demo-Server", 10000.0, 10150.0, 150.0, 500.0, 9650.0, "USD")

  /** An open position as the terminal reports it; `kind` 0 is a buy. */
  datatype Mt5Position = Mt5Position(
    ticket: int, symbol: string, kind: int, volume: real, priceOpen: real,
    priceCurrent: real, profit: real, swap: real, time: int)

  /** An open position as `get_open_positions` lists it. */
  datatype PositionView = PositionView(
    ticket: int, symbol: string, tradeType: string, volume: real, priceOpen: real,
    priceCurrent: real, profit: real, swap: real, time: int)

  function ViewOf(p: Mt5Position): (v: PositionView)
    ensures v.tradeType == (if p.kind == 0 then "BUY" else "SELL")
    ensures v.ticket == p.ticket && v.symbol == p.symbol && v.time == p.time
  {
    PositionView(p.ticket, p.symbol, if p.kind == 0 then "BUY" else "SELL", p.volume,
                 p.priceOpen, p.priceCurrent, p.profit, p.swap, p.time)
  }

  // ---------------------------------------------------- history pairing

  /** A deal of the terminal's history. `kind` 0 is a buy and 1 a sell;
      `entry` 0 opens a position and 1 closes it. Times are seconds. */
  datatype Mt5Deal = Mt5Deal(
    ticket: int, kind: int, entry: int, positionId: int, symbol: string,
    volume: real, price: real, time: int, commission: real, profit: real, swap: real)

  /** The fields an exit deal writes into its position's record. */
  datatype Closing = Closing(priceClose: real, timeClose: int, profit: real, swap: real)

  /** A position's record (a dictionary in the source): the entry deal's
      fields and, once an exit deal was seen, the latest exit's fields. */
  datatype PositionRecord = PositionRecord(
    ticket: int, symbol: string, tradeType: string, volume: real, priceOpen: real,
    timeOpen: int, commission: real, closing: Option<Closing>)

  predicate IsTradeDeal(d: Mt5Deal)
  {
    d.kind == 0 || d.kind == 1
  }

  predicate IsEntryDeal(d: Mt5Deal)
  {
    IsTradeDeal(d) && d.entry == 0
  }

  predicate IsExitDeal(d: Mt5Deal)
  {
    IsTradeDeal(d) && d.entry == 1
  }

  /** The record an entry deal starts: its ticket, symbol, volume, price,
      time and commission, BUY for kind 0 and SELL for kind 1. */
  function OpenRecord(d: Mt5Deal): (r: PositionRecord)
    requires IsTradeDeal(d)
    ensures r.tradeType in {"BUY", "SELL"}
    ensures r.tradeType == "BUY" <==> d.kind == 0
    ensures r.ticket == d.ticket && r.symbol == d.symbol && r.volume == d.volume
    ensures r.priceOpen == d.price && r.timeOpen == d.time && r.commission == d.commission
    ensures r.closing.None?
  {
    PositionRecord(d.ticket, d.symbol, if d.kind == 0 then "BUY" else "SELL",
                   d.volume, d.price, d.time, d.commission, None)
  }

  function ClosingOf(d: Mt5Deal): Closing
  {
    Closing(d.price, d.time, d.profit, d.swap)
  }

  /** The record after an exit deal wrote its price, time, profit and swap. */
  function CloseRecord(r: PositionRecord, d: Mt5Deal): PositionRecord
  {
    r.(closing := Some(ClosingOf(d)))
  }

  /** The loop state. `records` are the dictionaries created so far, each
      identified by its slot; `positions` maps a position id to the slot of
      its latest record; `emitted` lists, in order, the slots appended to
      the result (the same slot once per exit deal). */
  datatype Ledger = Ledger(records: seq<PositionRecord>, positions: map<int, nat>, emitted: seq<nat>)

  /** Every slot in use exists. */
  predicate Indexed(l: Ledger)
  {
    && (forall p :: p in l.positions ==> l.positions[p] < |l.records|)
    && (forall k :: 0 <= k < |l.emitted| ==> l.emitted[k] < |l.records|)
  }

  /** One deal: an entry deal starts a new record and files it under its
      position, replacing the one filed there; an exit deal of a filed
      position rewrites that record's closing fields and appends the record,
      leaving it filed; any other deal changes nothing. */
  function Step(l: Ledger, d: Mt5Deal): (l': Ledger)
    requires Indexed(l)
    ensures Indexed(l')
  {
    if IsEntryDeal(d) then
      Ledger(l.records + [OpenRecord(d)], l.positions[d.positionId := |l.records|], l.emitted)
    else if IsExitDeal(d) && d.positionId in l.positions then
      var i := l.positions[d.positionId];
      Ledger(l.records[i := CloseRecord(l.records[i], d)], l.positions, l.emitted + [i])
    else l
  }

  function Replay(deals: seq<Mt5Deal>): (l: Ledger)
    ensures Indexed(l)
    decreases |deals|
  {
    if deals == [] then Ledger([], map[], [])
    else Step(Replay(deals[..|deals| - 1]), deals[|deals| - 1])
  }

  /** The result list read at the end: each appended record as it is then. */
  function Emitted(l: Ledger): (r: seq<PositionRecord>)
    requires Indexed(l)
    ensures |r| == |l.emitted|
    ensures forall k :: 0 <= k < |r| ==> r[k] == l.records[l.emitted[k]]
  {
    seq(|l.emitted|, k requires 0 <= k < |l.emitted| => l.records[l.emitted[k]])
  }

  /** The trades the history pairing returns for a list of deals. */
  function Paired(deals: seq<Mt5Deal>): seq<PositionRecord>
  {
    Emitted(Replay(deals))
  }

  /** The pairing loop of `get_history`, over the records as an arena. */
  method CollectTrades(deals: seq<Mt5Deal>) returns (trades: seq<PositionRecord>)
    ensures trades == Paired(deals)
  {
    var records: seq<PositionRecord> := [];
    var positions: map<int, nat> := map[];
    var emitted: seq<nat> := [];
    for i := 0 to |deals|
      invariant Ledger(records, positions, emitted) == Replay(deals[..i])
    {
      assert deals[..i + 1][..i] == deals[..i];
      var deal := deals[i];
      if deal.kind == 0 || deal.kind == 1 {
        if deal.entry == 0 {
          positions := positions[deal.positionId := |records|];
          records := records + [OpenRecord(deal)];
        } else if deal.entry == 1 {
          if deal.positionId in positions {
            var slot := positions[deal.positionId];
            records := records[slot := CloseRecord(records[slot], deal)];
            emitted := emitted + [slot];
          }
        }
      }
    }
    assert deals[..|deals|] == deals;
    trades := Emitted(Ledger(records, positions, emitted));
  }

  /** What `get_history` returns: the random demonstration history (not
      part of this model) or a list of trades. */
  datatype HistoryAnswer = MockHistory | Trades(trades: seq<PositionRecord>)

  // ------------------------------------------------------------ service

  /** `MetaTraderService`. */
  class MetaTraderService {
    var connected: bool
    var libraryLoaded: bool

    constructor ()
      ensures !connected && !libraryLoaded
    {
      connected := false;
      libraryLoaded := false;
    }

    /** `connect`: off Windows it answers at once and changes nothing;
        otherwise a loaded library is kept, and only a successful login
        sets the connected flag. */
    method Connect(platform: string, lib: Library, server: string) returns (r: ConnectReply)
      modifies this
      ensures platform != "Windows" ==> r == NotWindowsReply(platform) && unchanged(this)
      ensures platform == "Windows" ==> r == LibraryReply(lib, server)
      ensures platform == "Windows" ==> libraryLoaded == (old(libraryLoaded) || !lib.NotInstalled?)
      ensures platform == "Windows" ==> connected == (old(connected) || lib.LoggedIn? || lib.LoggedInAccountFailed?)
      ensures r.success ==> connected && libraryLoaded
    {
      if platform != "Windows" {
        return NotWindowsReply(platform);
      }
      if lib.NotInstalled? {
        return ConnectReply(false, true, NotInstalledMessage, [], None);
      }
      libraryLoaded := true;
      match lib {
        case InitFailed(e) =>
          r := ConnectReply(false, false, "❌ Falha ao inicializar MT5: " + e, [], None);
        case Raised(e) =>
          r := ConnectReply(false, false, "❌ Erro de conexão: " + e, [], None);
        case LoginRefused(e) =>
          r := ConnectReply(false, false, "❌ Falha no login: " + e, [], None);
        case LoggedIn(name, balance) =>
          connected := true;
          r := ConnectReply(true, false, "✅ Conectado ao MT5: " + name, [], Some(Mt5Account(name, balance, server)));
        case LoggedInAccountFailed(e) =>
          connected := true;
          r := ConnectReply(false, false, "❌ Erro de conexão: " + e, [], None);
      }
    }

    /** `disconnect`: the terminal is shut down if loaded, and the flag cleared. */
    method Disconnect()
      modifies this
      ensures !connected && libraryLoaded == old(libraryLoaded)
    {
      connected := false;
    }

    /** `is_connected`. */
    function IsConnected(): (c: bool)
      reads this
      ensures c <==> connected
    {
      connected
    }

    /** `get_account_info`: {} when not connected; the terminal's figures
        when it reports them; the demonstration account otherwise (no
        figures, or a failing call). */
    method GetAccountInfo(info: Option<AccountInfo>) returns (r: AccountAnswer)
      ensures !connected ==> r == NoAccount
      ensures connected && libraryLoaded && info.Some? ==> r == Figures(info.value)
      ensures connected && !(libraryLoaded && info.Some?) ==> r == Figures(DemoAccount)
    {
      if !connected {
        return NoAccount;
      }
      if libraryLoaded && info.Some? {
        return Figures(info.value);
      }
      r := Figures(DemoAccount);
    }

    /** `get_open_positions`: [] when not connected or when the terminal
        lists none; otherwise one view per position, in order. */
    method GetOpenPositions(positions: seq<Mt5Position>) returns (r: seq<PositionView>)
      ensures !connected || !libraryLoaded ==> r == []
      ensures connected && libraryLoaded ==> |r| == |positions|
      ensures connected && libraryLoaded ==> forall k :: 0 <= k < |r| ==> r[k] == ViewOf(positions[k])
    {
      if !connected || !libraryLoaded {
        return [];
      }
      r := [];
      for k := 0 to |positions|
        invariant |r| == k
        invariant forall j :: 0 <= j < k ==> r[j] == ViewOf(positions[j])
      {
        r := r + [ViewOf(positions[k])];
      }
    }

    /** `get_history`: without the library, the demonstration history; with
        it, [] when the terminal returns no deal list, and the paired
        trades otherwise. */
    method GetHistory(deals: Option<seq<Mt5Deal>>) returns (r: HistoryAnswer)
      ensures !libraryLoaded ==> r == MockHistory
      ensures libraryLoaded && deals.None? ==> r == Trades([])
      ensures libraryLoaded && deals.Some? ==> r == Trades(Paired(deals.value))
    {
      if !libraryLoaded {
        return MockHistory;
      }
      if deals.None? {
        return Trades([]);
      }
      var trades := CollectTrades(deals.value);
      r := Trades(trades);
    }
  }

  // ------------------------------------------------------- properties

  lemma ReplaySnoc(deals: seq<Mt5Deal>, d: Mt5Deal)
    ensures Replay(deals + [d]) == Step(Replay(deals), d)
  {
    assert (deals + [d])[..|deals|] == deals;
  }

  /** A deal that is not a buy or sell entry or exit changes nothing. */
  lemma SkipOtherDeal(deals: seq<Mt5Deal>, d: Mt5Deal)
    requires !IsEntryDeal(d) && !IsExitDeal(d)
    ensures Replay(deals + [d]) == Replay(deals)
  {
    ReplaySnoc(deals, d);
  }

  /** An entry deal files a fresh record of itself under its position id
      and leaves the result unchanged. */
  lemma EntryRecords(deals: seq<Mt5Deal>, e: Mt5Deal)
    requires IsEntryDeal(e)
    ensures var l := Replay(deals + [e]);
      e.positionId in l.positions && l.records[l.positions[e.positionId]] == OpenRecord(e)
    ensures Paired(deals + [e]) == Paired(deals)
  {
    ReplaySnoc(deals, e);
  }

  /** An exit deal of a filed position appends one trade: that position's
      record with the exit's price, time, profit and swap. */
  lemma ExitEmits(deals: seq<Mt5Deal>, x: Mt5Deal)
    requires IsExitDeal(x) && x.positionId in Replay(deals).positions
    ensures var l := Replay(deals);
      var r := Paired(deals + [x]);
      |r| == |Paired(deals)| + 1
      && r[|r| - 1] == l.records[l.positions[x.positionId]].(closing := Some(Closing(x.price, x.time, x.profit, x.swap)))
  {
    ReplaySnoc(deals, x);
  }

  /** Only entry deals file positions. */
  lemma {:induction false} FiledByEntry(deals: seq<Mt5Deal>, p: int)
    requires p in Replay(deals).positions
    ensures exists i :: 0 <= i < |deals| && IsEntryDeal(deals[i]) && deals[i].positionId == p
    decreases |deals|
  {
    var q := deals[..|deals| - 1];
    var d := deals[|deals| - 1];
    ReplaySnoc(q, d);
    assert deals == q + [d];
    if !(IsEntryDeal(d) && d.positionId == p) {
      FiledByEntry(q, p);
      var i :| 0 <= i < |q| && IsEntryDeal(q[i]) && q[i].positionId == p;
      assert deals[i] == q[i];
    }
  }

  /** An exit deal of a position no earlier entry deal opened is ignored. */
  lemma UnknownExit(deals: seq<Mt5Deal>, x: Mt5Deal)
    requires IsExitDeal(x)
    requires forall i :: 0 <= i < |deals| && IsEntryDeal(deals[i]) ==> deals[i].positionId != x.positionId
    ensures Replay(deals + [x]) == Replay(deals)
  {
    ReplaySnoc(deals, x);
    if x.positionId in Replay(deals).positions {
      FiledByEntry(deals, x.positionId);
    }
  }

  /** The position stays filed after its exit, so a second exit deal of it
      appends a second trade; both entries are the one shared record, and
      both show the second exit's price, time, profit and swap. */
  lemma SecondExit(deals: seq<Mt5Deal>, e: Mt5Deal, x: Mt5Deal, y: Mt5Deal)
    requires IsEntryDeal(e) && IsExitDeal(x) && IsExitDeal(y)
    requires x.positionId == e.positionId && y.positionId == e.positionId
    ensures var r := CloseRecord(OpenRecord(e), y);
      Paired(deals + [e, x, y]) == Paired(deals) + [r, r]
  {
    var l := Replay(deals);
    ReplayThree(deals, e, x, y);
    EntryThenTwoExits(l, e, x, y);
    EmittedTwice(l, Step(Step(Step(l, e), x), y), CloseRecord(OpenRecord(e), y));
  }

  /** Replaying three more deals is three more steps. */
  lemma ReplayThree(deals: seq<Mt5Deal>, a: Mt5Deal, b: Mt5Deal, c: Mt5Deal)
    ensures Replay(deals + [a, b, c]) == Step(Step(Step(Replay(deals), a), b), c)
  {
    var d1, d2, d3 := deals + [a], deals + [a, b], deals + [a, b, c];
    assert d1[..|d1| - 1] == deals && d1[|d1| - 1] == a;
    assert d2[..|d2| - 1] == d1 && d2[|d2| - 1] == b;
    assert d3[..|d3| - 1] == d2 && d3[|d3| - 1] == c;
    assert Replay(d1) == Step(Replay(deals), a);
    assert Replay(d2) == Step(Replay(d1), b);
    assert Replay(d3) == Step(Replay(d2), c);
  }

  /** The ledger after an entry deal and two exit deals of its position:
      one new record, closed by the second exit, emitted twice. */
  lemma EntryThenTwoExits(l: Ledger, e: Mt5Deal, x: Mt5Deal, y: Mt5Deal)
    requires Indexed(l)
    requires IsEntryDeal(e) && IsExitDeal(x) && IsExitDeal(y)
    requires x.positionId == e.positionId && y.positionId == e.positionId
    ensures var l3 := Step(Step(Step(l, e), x), y);
      && l3.records == l.records + [CloseRecord(OpenRecord(e), y)]
      && l3.emitted == l.emitted + [|l.records|, |l.records|]
  {
    var n := |l.records|;
    var l1 := Step(l, e);
    assert l1.positions[e.positionId] == n && l1.emitted == l.emitted;
    var l2 := Step(l1, x);
    assert l2.positions == l1.positions && l2.emitted == l.emitted + [n];
    assert l2.records == l.records + [CloseRecord(OpenRecord(e), x)];
  }

  /** Appending one record and emitting its slot twice adds it twice to
      the result. */
  lemma EmittedTwice(l: Ledger, l3: Ledger, r: PositionRecord)
    requires Indexed(l) && Indexed(l3)
    requires l3.records == l.records + [r] && l3.emitted == l.emitted + [|l.records|, |l.records|]
    ensures Emitted(l3) == Emitted(l) + [r, r]
  {
    var p, p3 := Emitted(l), Emitted(l3);
    forall k | 0 <= k < |p3| ensures p3[k] == (p + [r, r])[k] {
      if k < |p| {
        assert l3.records[l.emitted[k]] == l.records[l.emitted[k]];
      }
    }
  }

  /** Every emitted record carries an exit's fields, and there are no more
      trades than exit deals. */
  lemma {:induction false} ReplayCounts(deals: seq<Mt5Deal>)
    ensures |Paired(deals)| <= |Filter(deals, IsExitDeal)|
    ensures forall k :: 0 <= k < |Paired(deals)| ==> Paired(deals)[k].closing.Some?
    decreases |deals|
  {
    if deals != [] {
      var q := deals[..|deals| - 1];
      var d := deals[|deals| - 1];
      assert deals == q + [d];
      ReplayCounts(q);
      ReplaySnoc(q, d);
      FilterSnoc(q, d, IsExitDeal);
      var l := Replay(q);
      if IsEntryDeal(d) {
        assert Paired(deals) == Paired(q);
      } else if IsExitDeal(d) && d.positionId in l.positions {
        var s := l.positions[d.positionId];
        var l' := Replay(deals);
        forall k | 0 <= k < |Paired(deals)| ensures Paired(deals)[k].closing.Some? {
          if k < |l.emitted| && l.emitted[k] != s {
            assert Paired(deals)[k] == Paired(q)[k];
          }
        }
      }
    }
  }

  /** The record in slot `rec` descends from entry deal i: it is that
      deal's record, or that record closed by a later exit deal of the
      same position. */
  ghost predicate RecordOf(deals: seq<Mt5Deal>, i: int, rec: PositionRecord)
  {
    && 0 <= i < |deals| && IsEntryDeal(deals[i])
    && rec.(closing := None) == OpenRecord(deals[i])
    && (rec.closing.Some? ==>
          exists j :: (i < j < |deals| && IsExitDeal(deals[j])
            && deals[j].positionId == deals[i].positionId && rec.closing == Some(ClosingOf(deals[j]))))
  }

  /** The record descends from some entry deal. */
  ghost predicate Descends(deals: seq<Mt5Deal>, rec: PositionRecord)
  {
    exists i :: RecordOf(deals, i, rec)
  }

  /** The record descends from an entry deal of position p. */
  ghost predicate DescendsFor(deals: seq<Mt5Deal>, p: int, rec: PositionRecord)
  {
    exists i :: RecordOf(deals, i, rec) && deals[i].positionId == p
  }

  /** What the loop keeps true of its ledger: slots exist, no two
      positions share a slot, and every record descends from an entry deal
      (of the position it is filed under). */
  ghost predicate Traced(deals: seq<Mt5Deal>, l: Ledger)
  {
    && Indexed(l)
    && (forall p, q :: p in l.positions && q in l.positions && p != q ==> l.positions[p] != l.positions[q])
    && (forall p :: p in l.positions ==> DescendsFor(deals, p, l.records[l.positions[p]]))
    && (forall k :: 0 <= k < |l.records| ==> Descends(deals, l.records[k]))
  }

  lemma RecordOfExtends(deals: seq<Mt5Deal>, d: Mt5Deal, i: int, rec: PositionRecord)
    requires RecordOf(deals, i, rec)
    ensures RecordOf(deals + [d], i, rec)
  {
    if rec.closing.Some? {
      var j :| i < j < |deals| && IsExitDeal(deals[j])
        && deals[j].positionId == deals[i].positionId && rec.closing == Some(ClosingOf(deals[j]));
      assert (deals + [d])[j] == deals[j];
    }
  }

  /** The records of a traced ledger stay traced when a deal is added. */
  lemma TracedCarry(q: seq<Mt5Deal>, d: Mt5Deal, l: Ledger)
    requires Traced(q, l)
    ensures forall k :: 0 <= k < |l.records| ==> Descends(q + [d], l.records[k])
    ensures forall p :: p in l.positions ==> DescendsFor(q + [d], p, l.records[l.positions[p]])
  {
    forall k | 0 <= k < |l.records| ensures Descends(q + [d], l.records[k]) {
      var i :| RecordOf(q, i, l.records[k]);
      RecordOfExtends(q, d, i, l.records[k]);
    }
    forall p | p in l.positions ensures DescendsFor(q + [d], p, l.records[l.positions[p]]) {
      var i :| RecordOf(q, i, l.records[l.positions[p]]) && q[i].positionId == p;
      RecordOfExtends(q, d, i, l.records[l.positions[p]]);
    }
  }

  lemma TracedEntry(q: seq<Mt5Deal>, d: Mt5Deal, l: Ledger)
    requires Traced(q, l) && IsEntryDeal(d)
    ensures Traced(q + [d], Step(l, d))
  {
    var deals := q + [d];
    var l' := Step(l, d);
    TracedCarry(q, d, l);
    assert RecordOf(deals, |q|, OpenRecord(d));
    forall k | 0 <= k < |l'.records| ensures Descends(deals, l'.records[k]) {
      if k < |l.records| {
        assert l'.records[k] == l.records[k];
      } else {
        assert RecordOf(deals, |q|, l'.records[k]);
      }
    }
    forall p | p in l'.positions
      ensures DescendsFor(deals, p, l'.records[l'.positions[p]])
    {
      if p != d.positionId {
        assert l'.records[l'.positions[p]] == l.records[l.positions[p]];
      } else {
        assert RecordOf(deals, |q|, l'.records[l'.positions[p]]) && deals[|q|].positionId == p;
      }
    }
  }

  lemma TracedExit(q: seq<Mt5Deal>, d: Mt5Deal, l: Ledger)
    requires Traced(q, l) && IsExitDeal(d) && d.positionId in l.positions
    ensures Traced(q + [d], Step(l, d))
  {
    var deals := q + [d];
    var l' := Step(l, d);
    TracedCarry(q, d, l);
    var s := l.positions[d.positionId];
    var i :| RecordOf(deals, i, l.records[s]) && deals[i].positionId == d.positionId;
    var c := CloseRecord(l.records[s], d);
    assert RecordOf(deals, i, c) by {
      assert deals[|q|] == d;
    }
    assert l'.records == l.records[s := c];
    forall k | 0 <= k < |l'.records| ensures Descends(deals, l'.records[k]) {
      if k != s {
        assert l'.records[k] == l.records[k];
      } else {
        assert RecordOf(deals, i, l'.records[k]);
      }
    }
    forall p | p in l'.positions
      ensures DescendsFor(deals, p, l'.records[l'.positions[p]])
    {
      if p != d.positionId {
        assert l'.positions[p] != s;
        assert l'.records[l'.positions[p]] == l.records[l.positions[p]];
      } else {
        assert RecordOf(deals, i, l'.records[l'.positions[p]]) && deals[i].positionId == p;
      }
    }
  }

  lemma {:induction false} ReplayTraced(deals: seq<Mt5Deal>)
    ensures Traced(deals, Replay(deals))
    decreases |deals|
  {
    if deals != [] {
      var q := deals[..|deals| - 1];
      var d := deals[|deals| - 1];
      assert deals == q + [d];
      ReplayTraced(q);
      ReplaySnoc(q, d);
      var l := Replay(q);
      if IsEntryDeal(d) {
        TracedEntry(q, d, l);
      } else if IsExitDeal(d) && d.positionId in l.positions {
        TracedExit(q, d, l);
      } else {
        TracedCarry(q, d, l);
      }
    }
  }

  /** A trade is the record of an entry deal closed by a later exit deal
      of the same position. */
  ghost predicate ClosedBy(deals: seq<Mt5Deal>, t: PositionRecord)
  {
    exists i, j :: 0 <= i < j < |deals| && IsEntryDeal(deals[i]) && IsExitDeal(deals[j])
      && deals[i].positionId == deals[j].positionId && t == CloseRecord(OpenRecord(deals[i]), deals[j])
  }

  /** Every trade the pairing returns is the record of an entry deal closed
      by a later exit deal of the same position. */
  lemma PairedSound(deals: seq<Mt5Deal>)
    ensures forall t :: t in Paired(deals) ==> ClosedBy(deals, t)
  {
    ReplayTraced(deals);
    ReplayCounts(deals);
    var l := Replay(deals);
    forall t | t in Paired(deals) ensures ClosedBy(deals, t) {
      var k :| 0 <= k < |Paired(deals)| && Paired(deals)[k] == t;
      assert t == l.records[l.emitted[k]];
      var i :| RecordOf(deals, i, t);
      var j :| i < j < |deals| && IsExitDeal(deals[j])
        && deals[j].positionId == deals[i].positionId && t.closing == Some(ClosingOf(deals[j]));
      assert t == CloseRecord(OpenRecord(deals[i]), deals[j]);
    }
  }
}

=== FILE: runs.dfy ===
/** Longest run of consecutive elements that satisfy a predicate: the
    streak statistics of the insight generators. */
module Runs {

  /** Length of the run of p that ends at the last element of s. */
  function Trailing<T>(s: seq<T>, p: T -> bool): nat
    decreases |s|
  {
    if s == [] || !p(s[|s| - 1]) then 0 else Trailing(s[..|s| - 1], p) + 1
  }

  /** Length of the longest run of p anywhere in s. */
  function Longest<T>(s: seq<T>, p: T -> bool): nat
    decreases |s|
  {
    if s == [] then 0
    else
      var prev := Longest(s[..|s| - 1], p);
      var t := Trailing(s, p);
      if t > prev then t else prev
  }

  /** Every element of s[i..j] satisfies p. */
  ghost predicate AllOf<T>(s: seq<T>, i: int, j: int, p: T -> bool)
    requires 0 <= i <= j <= |s|
  {
    forall k :: i <= k < j ==> p(s[k])
  }

  /** s[i..i+n] is a run of p. */
  ghost predicate RunAt<T>(s: seq<T>, i: int, n: nat, p: T -> bool)
  {
    0 <= i && i + n <= |s| && AllOf(s, i, i + n, p)
  }

  lemma {:induction false} TrailingSpec<T>(s: seq<T>, p: T -> bool)
    ensures Trailing(s, p) <= |s|
    ensures AllOf(s, |s| - Trailing(s, p), |s|, p)
    ensures forall i :: 0 <= i <= |s| && AllOf(s, i, |s|, p) ==> |s| - i <= Trailing(s, p)
    decreases |s|
  {
    if s != [] {
      var q := s[..|s| - 1];
      TrailingSpec(q, p);
      forall i | 0 <= i <= |s| && AllOf(s, i, |s|, p) ensures |s| - i <= Trailing(s, p) {
        if i < |s| {
          assert p(s[|s| - 1]);
          assert AllOf(q, i, |q|, p) by {
            forall k | i <= k < |q| ensures p(q[k]) { assert q[k] == s[k]; }
          }
        }
      }
      if p(s[|s| - 1]) {
        forall k | |s| - Trailing(s, p) <= k < |s| ensures p(s[k]) {
          if k < |s| - 1 { assert s[k] == q[k]; }
        }
      }
    }
  }

  /** When the last element satisfies p or q, one of them has a run. */
  lemma LastStartsRun<T>(s: seq<T>, p: T -> bool, q: T -> bool)
    requires s != [] && (p(s[|s| - 1]) || q(s[|s| - 1]))
    ensures Longest(s, p) >= 1 || Longest(s, q) >= 1
  {
    var n := |s|;
    if p(s[n - 1]) {
      LongestSpec(s, p);
      assert AllOf(s, n - 1, n, p);
    } else {
      LongestSpec(s, q);
      assert AllOf(s, n - 1, n, q);
    }
  }

  lemma {:induction false} LongestSpec<T>(s: seq<T>, p: T -> bool)
    ensures Longest(s, p) <= |s|
    ensures exists i :: RunAt(s, i, Longest(s, p), p)
    ensures forall i, j :: 0 <= i <= j <= |s| && AllOf(s, i, j, p) ==> j - i <= Longest(s, p)
    decreases |s|
  {
    if s == [] {
      assert RunAt(s, 0, 0, p);
    } else {
      var q := s[..|s| - 1];
      LongestSpec(q, p);
      TrailingSpec(s, p);
      if Trailing(s, p) > Longest(q, p) {
        assert RunAt(s, |s| - Trailing(s, p), Longest(s, p), p);
      } else {
        var i :| RunAt(q, i, Longest(q, p), p);
        assert RunAt(s, i, Longest(s, p), p) by {
          forall k | i <= k < i + Longest(s, p) ensures p(s[k]) { assert s[k] == q[k]; }
        }
      }
      forall i, j | 0 <= i <= j <= |s| && AllOf(s, i, j, p) ensures j - i <= Longest(s, p) {
        if j == |s| {
          assert AllOf(s, i, |s|, p);
        } else {
          assert AllOf(q, i, j, p) by {
            forall k | i <= k < j ensures p(q[k]) { assert q[k] == s[k]; }
          }
        }
      }
    }
  }

  /** Extending a list by one element: the run ending at the new element
      grows or restarts, and the longest run is updated with it. */
  lemma RunsSnoc<T>(s: seq<T>, x: T, p: T -> bool)
    ensures Trailing(s + [x], p) == if p(x) then Trailing(s, p) + 1 else 0
    ensures Longest(s + [x], p) == if Trailing(s + [x], p) > Longest(s, p) then Trailing(s + [x], p) else Longest(s, p)
  {
    assert (s + [x])[..|s|] == s;
  }

  /** A predicate implied by another has runs at least as long. */
  lemma {:induction false} LongestMono<T>(s: seq<T>, p: T -> bool, q: T -> bool)
    requires forall x :: p(x) ==> q(x)
    ensures Trailing(s, p) <= Trailing(s, q) && Longest(s, p) <= Longest(s, q)
    decreases |s|
  {
    if s != [] {
      LongestMono(s[..|s| - 1], p, q);
    }
  }
}

=== FILE: seqs.dfy ===
/** Sums, a stable sort and first-maximum selection over sequences: the
    library operations (`sum`, `list.sort`, `max`, `min`) that the handlers
    apply to their lists. */
module Seqs {

  /** Sum of f over s, folded from the end so that it matches a loop that
      extends a prefix one element at a time. */
  function SumReal<T>(s: seq<T>, f: T -> real): real
    decreases |s|
  {
    if s == [] then 0.0 else SumReal(s[..|s| - 1], f) + f(s[|s| - 1])
  }

  /** A loop's prefix grows by the element it visits. */
  lemma PrefixStep<T>(s: seq<T>, i: nat)
    requires i < |s|
    ensures s[..i + 1] == s[..i] + [s[i]]
  {
  }

  /** Integer counterpart of SumReal. */
  function SumInt<T>(s: seq<T>, f: T -> int): int
    decreases |s|
  {
    if s == [] then 0 else SumInt(s[..|s| - 1], f) + f(s[|s| - 1])
  }

  /** The elements of s that satisfy p, in order (a list comprehension with
      an `if`, or `Array.filter`). */
  function Filter<T>(s: seq<T>, p: T -> bool): (r: seq<T>)
    ensures |r| <= |s|
    ensures forall i :: 0 <= i < |r| ==> p(r[i])
    decreases |s|
  {
    if s == [] then []
    else Filter(s[..|s| - 1], p) + (if p(s[|s| - 1]) then [s[|s| - 1]] else [])
  }

  lemma FilterSnoc<T>(s: seq<T>, x: T, p: T -> bool)
    ensures Filter(s + [x], p) == Filter(s, p) + (if p(x) then [x] else [])
  {
    assert (s + [x])[..|s|] == s;
  }

  /** Filtering keeps only elements of the list. */
  lemma {:induction false} FilterSubset<T>(s: seq<T>, p: T -> bool)
    ensures forall x :: x in Filter(s, p) ==> x in s
    decreases |s|
  {
    if s != [] {
      var q := s[..|s| - 1];
      FilterSubset(q, p);
      assert forall x :: x in q ==> x in s;
    }
  }

  /** Filtering keeps exactly the elements of the list that pass. */
  lemma {:induction false} FilterMembers<T>(s: seq<T>, p: T -> bool)
    ensures forall x :: x in Filter(s, p) <==> x in s && p(x)
    decreases |s|
  {
    if s != [] {
      var q := s[..|s| - 1];
      FilterMembers(q, p);
      assert s == q + [s[|s| - 1]];
    }
  }

  /** A filter every element passes keeps the whole list. */
  lemma {:induction false} FilterAll<T>(s: seq<T>, p: T -> bool)
    requires forall i :: 0 <= i < |s| ==> p(s[i])
    ensures Filter(s, p) == s
    decreases |s|
  {
    if s != [] {
      FilterAll(s[..|s| - 1], p);
      assert s == s[..|s| - 1] + [s[|s| - 1]];
    }
  }

  /** A filter and its complement split the list between them. */
  lemma {:induction false} FilterSplit<T>(s: seq<T>, p: T -> bool, q: T -> bool)
    requires forall i :: 0 <= i < |s| ==> (q(s[i]) <==> !p(s[i]))
    ensures |Filter(s, p)| + |Filter(s, q)| == |s|
    decreases |s|
  {
    if s != [] {
      FilterSplit(s[..|s| - 1], p, q);
    }
  }

  lemma SumRealSnoc<T>(s: seq<T>, x: T, f: T -> real)
    ensures SumReal(s + [x], f) == SumReal(s, f) + f(x)
  {
    assert (s + [x])[..|s|] == s;
  }

  /** Two lists whose elements have equal measures pointwise have equal sums. */
  lemma {:induction false} SumRealPointwise<A, B>(a: seq<A>, f: A -> real, b: seq<B>, g: B -> real)
    requires |a| == |b| && forall i :: 0 <= i < |a| ==> f(a[i]) == g(b[i])
    ensures SumReal(a, f) == SumReal(b, g)
    decreases |a|
  {
    if a != [] {
      SumRealPointwise(a[..|a| - 1], f, b[..|b| - 1], g);
    }
  }

  lemma {:induction false} SumRealConcat<T>(a: seq<T>, b: seq<T>, f: T -> real)
    ensures SumReal(a + b, f) == SumReal(a, f) + SumReal(b, f)
    decreases |b|
  {
    if b == [] {
      assert a + b == a;
    } else {
      assert (a + b)[..|a + b| - 1] == a + b[..|b| - 1];
      SumRealConcat(a, b[..|b| - 1], f);
    }
  }

  lemma {:induction false} SumIntConcat<T>(a: seq<T>, b: seq<T>, f: T -> int)
    ensures SumInt(a + b, f) == SumInt(a, f) + SumInt(b, f)
    decreases |b|
  {
    if b == [] {
      assert a + b == a;
    } else {
      assert (a + b)[..|a + b| - 1] == a + b[..|b| - 1];
      SumIntConcat(a, b[..|b| - 1], f);
    }
  }

  /** Splits b around position j, the step shared by the permutation lemmas. */
  lemma SplitAt<T>(b: seq<T>, j: nat)
    requires j < |b|
    ensures b == b[..j] + [b[j]] + b[j + 1..]
    ensures multiset(b) == multiset(b[..j] + b[j + 1..]) + multiset{b[j]}
  {
    assert b == b[..j] + [b[j]] + b[j + 1..];
  }

  /** An element at two positions occurs at least twice. */
  lemma DuplicateCount<T>(s: seq<T>, i: nat, j: nat)
    requires i < j < |s| && s[i] == s[j]
    ensures multiset(s)[s[i]] >= 2
  {
    SplitAt(s, j);
    assert s[i] in s[..j];
  }

  /** In a list without repetitions every element occurs at most once. */
  lemma {:induction false} DistinctCount<T>(s: seq<T>, x: T)
    requires forall i, j :: 0 <= i < j < |s| ==> s[i] != s[j]
    ensures multiset(s)[x] <= 1
    decreases |s|
  {
    if s != [] {
      var p, y := s[..|s| - 1], s[|s| - 1];
      assert s == p + [y];
      DistinctCount(p, x);
      if y == x {
        assert x !in p by {
          forall k | 0 <= k < |p| ensures p[k] != x {
            assert p[k] == s[k];
          }
        }
      }
    }
  }

  /** The last element of a has a partner in its permutation b, and the
      remaining elements are permutations of each other. */
  lemma MatchLast<T>(a: seq<T>, b: seq<T>) returns (j: nat)
    requires multiset(a) == multiset(b) && a != []
    ensures j < |b| && b[j] == a[|a| - 1]
    ensures multiset(a[..|a| - 1]) == multiset(b[..j] + b[j + 1..])
  {
    var p, x := a[..|a| - 1], a[|a| - 1];
    assert a == p + [x];
    assert multiset(a) == multiset(p) + multiset{x};
    assert x in multiset(b);
    j :| 0 <= j < |b| && b[j] == x;
    SplitAt(b, j);
    assert multiset(p) == multiset(a) - multiset{x};
    assert multiset(b[..j] + b[j + 1..]) == multiset(b) - multiset{x};
  }

  /** Removing the element at j takes its measure off the sum. */
  lemma SumRealRemove<T>(b: seq<T>, j: nat, f: T -> real)
    requires j < |b|
    ensures SumReal(b, f) == SumReal(b[..j] + b[j + 1..], f) + f(b[j])
  {
    SplitAt(b, j);
    SumRealConcat(b[..j] + [b[j]], b[j + 1..], f);
    SumRealSnoc(b[..j], b[j], f);
    SumRealConcat(b[..j], b[j + 1..], f);
  }

  lemma SumIntRemove<T>(b: seq<T>, j: nat, f: T -> int)
    requires j < |b|
    ensures SumInt(b, f) == SumInt(b[..j] + b[j + 1..], f) + f(b[j])
  {
    SplitAt(b, j);
    SumIntConcat(b[..j] + [b[j]], b[j + 1..], f);
    assert (b[..j] + [b[j]])[..j] == b[..j];
    SumIntConcat(b[..j], b[j + 1..], f);
  }

  /** A sum does not depend on the order of the summands. */
  lemma {:induction false} SumRealPerm<T>(a: seq<T>, b: seq<T>, f: T -> real)
    requires multiset(a) == multiset(b)
    ensures SumReal(a, f) == SumReal(b, f)
    decreases |a|
  {
    if a == [] {
      assert |b| == |multiset(b)| == 0;
    } else {
      var j := MatchLast(a, b);
      SumRealPerm(a[..|a| - 1], b[..j] + b[j + 1..], f);
      SumRealRemove(b, j, f);
    }
  }

  lemma {:induction false} SumIntPerm<T>(a: seq<T>, b: seq<T>, f: T -> int)
    requires multiset(a) == multiset(b)
    ensures SumInt(a, f) == SumInt(b, f)
    decreases |a|
  {
    if a == [] {
      assert |b| == |multiset(b)| == 0;
    } else {
      var j := MatchLast(a, b);
      SumIntPerm(a[..|a| - 1], b[..j] + b[j + 1..], f);
      SumIntRemove(b, j, f);
    }
  }

  /** s is in ascending order of key. */
  ghost predicate SortedBy<T>(s: seq<T>, key: T -> real)
  {
    forall i, j :: 0 <= i < j < |s| ==> key(s[i]) <= key(s[j])
  }

  /** Inserts x in front of the first element whose key is not smaller:
      x, which came first in the input, stays before elements of equal key. */
  function Insert<T(==)>(x: T, s: seq<T>, key: T -> real): (r: seq<T>)
    ensures multiset(r) == multiset(s) + multiset{x}
    ensures |r| == |s| + 1 && (r[0] == x || (s != [] && r[0] == s[0]))
  {
    if s == [] || key(x) <= key(s[0]) then [x] + s
    else
      var rest := Insert(x, s[1..], key);
      assert s == [s[0]] + s[1..];
      [s[0]] + rest
  }

  lemma {:induction false} InsertSorted<T>(x: T, s: seq<T>, key: T -> real)
    requires SortedBy(s, key)
    ensures SortedBy(Insert(x, s, key), key)
  {
    if s == [] || key(x) <= key(s[0]) {
    } else {
      InsertSorted(x, s[1..], key);
      var r := Insert(x, s, key);
      var rest := Insert(x, s[1..], key);
      assert r == [s[0]] + rest;
      assert key(s[0]) <= key(rest[0]) by {
        if rest[0] != x {
          assert rest[0] == s[1..][0] == s[1];
        }
      }
      forall i, j | 0 <= i < j < |r| ensures key(r[i]) <= key(r[j]) {
        assert r[j] == rest[j - 1];
        if i > 0 {
          assert r[i] == rest[i - 1];
        } else if j > 1 {
          assert key(rest[0]) <= key(rest[j - 1]);
        }
      }
    }
  }

  /** A stable ascending sort by key, the model of Python's `sorted` and
      `list.sort` (a descending sort is this one on the negated key). */
  function SortBy<T(==)>(s: seq<T>, key: T -> real): (r: seq<T>)
    ensures multiset(r) == multiset(s)
    ensures SortedBy(r, key)
  {
    if s == [] then []
    else
      assert s == [s[0]] + s[1..];
      var rest := SortBy(s[1..], key);
      InsertSorted(s[0], rest, key);
      Insert(s[0], rest, key)
  }

  /** Index of the first element with the largest f: Python's `max(xs, key=f)`
      keeps the first of equal maxima. */
  function ArgMaxFirst<T>(s: seq<T>, f: T -> real): (i: nat)
    requires |s| > 0
    ensures i < |s|
    ensures forall j :: 0 <= j < |s| ==> f(s[j]) <= f(s[i])
    ensures forall j :: 0 <= j < i ==> f(s[j]) < f(s[i])
  {
    if |s| == 1 then 0
    else
      var k := ArgMaxFirst(s[1..], f) + 1;
      if f(s[0]) >= f(s[k]) then 0 else k
  }

  /** Index of the first element with the smallest f: Python's `min(xs, key=f)`. */
  function ArgMinFirst<T>(s: seq<T>, f: T -> real): (i: nat)
    requires |s| > 0
    ensures i < |s|
    ensures forall j :: 0 <= j < |s| ==> f(s[i]) <= f(s[j])
    ensures forall j :: 0 <= j < i ==> f(s[i]) < f(s[j])
  {
    if |s| == 1 then 0
    else
      var k := ArgMinFirst(s[1..], f) + 1;
      if f(s[0]) <= f(s[k]) then 0 else k
  }
}

=== FILE: tallies.dfy ===
/** The per-bucket counters that the statistics handlers and the insight
    generators keep in their dictionaries, and the accumulation loop that
    fills such a dictionary in order of the trades. */
module Tallies {
  import opened Seqs
  import opened Grouping
  import opened TradeModel

  /** The counters the handlers keep per bucket: trades, summed profit,
      wins (profit above zero) and the remaining trades, which the insight
      generators count as losses in the `else` branch of the win test. */
  datatype Tally = Tally(trades: nat, profit: real, wins: nat, losses: nat)

  const EmptyTally: Tally := Tally(0, 0.0, 0, 0)

  /** The tally of a list of trades: every trade is a win or, failing the
      win test, a loss. */
  function TallyOf(s: seq<Trade>): (t: Tally)
    ensures t.wins + t.losses == t.trades == |s|
  {
    ClassCounts(s);
    Tally(|s|, SumReal(s, Profit), |Filter(s, IsWin)|, |Filter(s, IsNonWin)|)
  }

  /** One loop step: one more trade, its profit, and a win if its profit is
      positive, a loss otherwise. */
  function AddTrade(t: Tally, x: Trade): Tally
  {
    if x.profit > 0.0 then Tally(t.trades + 1, t.profit + x.profit, t.wins + 1, t.losses)
    else Tally(t.trades + 1, t.profit + x.profit, t.wins, t.losses + 1)
  }

  lemma TallySnoc(s: seq<Trade>, x: Trade)
    ensures TallyOf(s + [x]) == AddTrade(TallyOf(s), x)
  {
    FilterSnoc(s, x, IsWin);
    FilterSnoc(s, x, IsNonWin);
    SumRealSnoc(s, x, Profit);
  }

  /** The loop invariant of a grouping of trades into a dictionary of
      tallies kept in insertion order. */
  ghost predicate Grouped<K(!new)>(s: seq<Trade>, key: Trade -> K, order: seq<K>, data: map<K, Tally>)
  {
    && order == Keys(s, key)
    && (forall k :: k in data <==> k in order)
    && (forall k :: k in data ==> data[k] == TallyOf(Select(s, key, k)))
  }

  /** One step of such a grouping: a new key starts an empty tally at the
      end of the order, then the trade is added to its key's tally. */
  lemma TallyStep<K(!new)>(s: seq<Trade>, x: Trade, key: Trade -> K, order: seq<K>, data: map<K, Tally>, order': seq<K>, data': map<K, Tally>)
    requires Grouped(s, key, order, data)
    requires order' == if key(x) in data then order else order + [key(x)]
    requires forall j :: j in data' <==> j in data || j == key(x)
    requires forall j :: j in data && j != key(x) ==> data'[j] == data[j]
    requires key(x) in data' && data'[key(x)] == AddTrade(if key(x) in data then data[key(x)] else EmptyTally, x)
    ensures Grouped(s + [x], key, order', data')
  {
    KeysSnoc(s, x, key);
    if key(x) !in data {
      SelectOutsideKeys(s, key, key(x));
      assert TallyOf([]) == EmptyTally;
    }
    forall k | k in data'
      ensures data'[k] == TallyOf(Select(s + [x], key, k))
    {
      TallyUpdate(s, x, key, k);
      if k == key(x) {
        var before := if k in data then data[k] else EmptyTally;
        assert before == TallyOf(Select(s, key, k));
      }
    }
  }

  /** The tally of one key after one more trade. */
  lemma TallyUpdate<K>(s: seq<Trade>, x: Trade, key: Trade -> K, k: K)
    ensures TallyOf(Select(s + [x], key, k))
         == if key(x) == k then AddTrade(TallyOf(Select(s, key, k)), x) else TallyOf(Select(s, key, k))
  {
    SelectSnoc(s, x, key, k);
    if key(x) == k {
      TallySnoc(Select(s, key, k), x);
    } else {
      assert Select(s + [x], key, k) == Select(s, key, k) + [] == Select(s, key, k);
    }
  }

  /** The accumulation loop shared by the symbol and daily handlers: a
      dictionary from key to tally, filled in order of the trades, a new key
      first getting an empty tally. */
  method GroupTallies<K(==,!new)>(s: seq<Trade>, key: Trade -> K) returns (order: seq<K>, data: map<K, Tally>)
    ensures Grouped(s, key, order, data)
  {
    order := [];
    data := map[];
    var i := 0;
    while i < |s|
      invariant 0 <= i <= |s|
      invariant Grouped(s[..i], key, order, data)
    {
      var t := s[i];
      var k := key(t);
      ghost var order0, data0 := order, data;
      if k !in data {
        order := order + [k];
        data := data[k := EmptyTally];
      }
      data := data[k := AddTrade(data[k], t)];
      TallyStep(s[..i], t, key, order0, data0, order, data);
      PrefixStep(s, i);
      i := i + 1;
    }
    assert s[..i] == s;
  }

  /** The summed profit of the trades with key k. */
  function KeyProfit<K(==)>(s: seq<Trade>, key: Trade -> K, k: K): real
  {
    SumReal(Select(s, key, k), Profit)
  }

  /** The loop invariant of a grouping of trades into a dictionary of summed
      profits kept in insertion order. */
  ghost predicate ProfitGrouped<K(!new)>(s: seq<Trade>, key: Trade -> K, order: seq<K>, sums: map<K, real>)
  {
    && order == Keys(s, key)
    && (forall k :: k in sums <==> k in order)
    && (forall k :: k in sums ==> sums[k] == KeyProfit(s, key, k))
  }

  /** The accumulation loop of the weekly handler: a dictionary from key to
      summed profit, a new key first getting 0. */
  method GroupProfits<K(==,!new)>(s: seq<Trade>, key: Trade -> K) returns (order: seq<K>, sums: map<K, real>)
    ensures ProfitGrouped(s, key, order, sums)
  {
    order := [];
    sums := map[];
    var i := 0;
    while i < |s|
      invariant 0 <= i <= |s|
      invariant ProfitGrouped(s[..i], key, order, sums)
    {
      var t := s[i];
      var k := key(t);
      ghost var order0, sums0 := order, sums;
      if k !in sums {
        order := order + [k];
        sums := sums[k := 0.0];
      }
      sums := sums[k := sums[k] + t.profit];
      ProfitStep(s[..i], t, key, order0, sums0, order, sums);
      PrefixStep(s, i);
      i := i + 1;
    }
    assert s[..i] == s;
  }

  /** One step of such a grouping: a new key starts at 0 at the end of the
      order, then the trade's profit is added to its key's sum. */
  lemma ProfitStep<K(!new)>(s: seq<Trade>, x: Trade, key: Trade -> K, order: seq<K>, sums: map<K, real>,
                            order': seq<K>, sums': map<K, real>)
    requires ProfitGrouped(s, key, order, sums)
    requires order' == if key(x) in sums then order else order + [key(x)]
    requires forall j :: j in sums' <==> j in sums || j == key(x)
    requires forall j :: j in sums && j != key(x) ==> sums'[j] == sums[j]
    requires key(x) in sums' && sums'[key(x)] == (if key(x) in sums then sums[key(x)] else 0.0) + x.profit
    ensures ProfitGrouped(s + [x], key, order', sums')
  {
    KeysSnoc(s, x, key);
    if key(x) !in sums {
      SelectOutsideKeys(s, key, key(x));
    }
    forall k | k in sums'
      ensures sums'[k] == KeyProfit(s + [x], key, k)
    {
      ProfitSnoc(s, x, key, k);
    }
  }

  /** A key's sum grows by the profit of a trade with that key and no
      other. */
  lemma ProfitSnoc<K>(s: seq<Trade>, x: Trade, key: Trade -> K, k: K)
    ensures KeyProfit(s + [x], key, k) == KeyProfit(s, key, k) + (if key(x) == k then x.profit else 0.0)
  {
    SelectSnoc(s, x, key, k);
    if key(x) == k {
      SumRealSnoc(Select(s, key, k), x, Profit);
    } else {
      assert Select(s + [x], key, k) == Select(s, key, k) + [] == Select(s, key, k);
    }
  }
}

=== FILE: text.dfy ===
/** String operations the source applies to names and cells: ASCII case
    mapping (`str.upper`, `str.lower`, `toLowerCase`), `in` on strings,
    `strip`, `replace`, `endswith`, `split(sep)[-1]` and integer formatting. */
module Text {

  function UpperChar(c: char): char
  {
    if 'a' <= c <= 'z' then (c as int - 32) as char else c
  }

  function LowerChar(c: char): char
  {
    if 'A' <= c <= 'Z' then (c as int + 32) as char else c
  }

  function Upper(s: string): (r: string)
    ensures |r| == |s| && forall i :: 0 <= i < |s| ==> r[i] == UpperChar(s[i])
  {
    seq(|s|, i requires 0 <= i < |s| => UpperChar(s[i]))
  }

  function Lower(s: string): (r: string)
    ensures |r| == |s| && forall i :: 0 <= i < |s| ==> r[i] == LowerChar(s[i])
  {
    seq(|s|, i requires 0 <= i < |s| => LowerChar(s[i]))
  }

  lemma UpperIdempotent(s: string)
    ensures Upper(Upper(s)) == Upper(s)
  {
  }

  predicate IsPrefix(p: string, s: string)
  {
    |p| <= |s| && s[..|p|] == p
  }

  /** Python's `sub in s`. */
  predicate Contains(s: string, sub: string)
    decreases |s|
  {
    IsPrefix(sub, s) || (s != [] && Contains(s[1..], sub))
  }

  /** Whoever contains a string contains each of its characters. */
  lemma {:induction false} ContainsChars(s: string, sub: string)
    requires Contains(s, sub)
    ensures forall c :: c in sub ==> c in s
    decreases |s|
  {
    if !IsPrefix(sub, s) {
      ContainsChars(s[1..], sub);
    } else {
      forall c | c in sub ensures c in s {
        var i :| 0 <= i < |sub| && sub[i] == c;
        assert s[i] == c;
      }
    }
  }

  /** Containing a one-character string is containing that character. */
  lemma {:induction false} ContainsChar(s: string, c: char)
    ensures Contains(s, [c]) <==> c in s
    decreases |s|
  {
    if s != [] {
      ContainsChar(s[1..], c);
      assert c in s <==> s[0] == c || c in s[1..];
    }
  }

  predicate IsSpace(c: char)
  {
    c == ' ' || c == '\t' || c == '\n' || c == '\r' || c == '\U{B}' || c == '\U{C}'
  }

  function TrimStart(s: string): (r: string)
    ensures |r| <= |s| && (r != [] ==> !IsSpace(r[0]))
  {
    if s != [] && IsSpace(s[0]) then TrimStart(s[1..]) else s
  }

  function TrimEnd(s: string): (r: string)
    ensures |r| <= |s| && (r != [] ==> !IsSpace(r[|r| - 1]))
  {
    if s != [] && IsSpace(s[|s| - 1]) then TrimEnd(s[..|s| - 1]) else s
  }

  /** Python's `str.strip()` over ASCII whitespace. */
  function Strip(s: string): string
  {
    TrimEnd(TrimStart(s))
  }

  /** Python's `s.replace(a, b)` for single characters. */
  function ReplaceChar(s: string, a: char, b: char): (r: string)
    ensures |r| == |s|
    ensures a != b ==> a !in r
  {
    seq(|s|, i requires 0 <= i < |s| => if s[i] == a then b else s[i])
  }

  predicate EndsWith(s: string, suffix: string)
  {
    |suffix| <= |s| && s[|s| - |suffix|..] == suffix
  }

  /** Python's `s.split(sep)[-1]`: the text after the last sep, or all of s. */
  function AfterLast(s: string, sep: char): (r: string)
    ensures sep !in r
    ensures |r| <= |s| && r == s[|s| - |r|..]
    ensures sep !in s ==> r == s
    decreases |s|
  {
    if s == [] then []
    else if s[|s| - 1] == sep then []
    else AfterLast(s[..|s| - 1], sep) + [s[|s| - 1]]
  }

  function DigitChar(d: int): char
    requires 0 <= d < 10
  {
    ('0' as int + d) as char
  }

  /** Decimal digits of a natural number, as Python's `str` writes it. */
  function NatToString(n: nat): (r: string)
    ensures |r| > 0 && forall i :: 0 <= i < |r| ==> '0' <= r[i] <= '9'
  {
    if n < 10 then [DigitChar(n)] else NatToString(n / 10) + [DigitChar(n % 10)]
  }

  /** Python's `str(n)` on an integer. */
  function IntToString(n: int): string
  {
    if n < 0 then "-" + NatToString(-n) else NatToString(n)
  }

  /** Python's `f"{n:02d}"` for 0 <= n < 100. */
  function TwoDigits(n: int): (r: string)
    requires 0 <= n < 100
    ensures |r| == 2
  {
    [DigitChar(n / 10), DigitChar(n % 10)]
  }

  /** Python's `f"{n:02d}"`: an integer padded with zeros to two characters. */
  function Pad2(n: int): string
  {
    if 0 <= n < 10 then "0" + NatToString(n) else IntToString(n)
  }

  /** On 0..99 the padding gives exactly two digits. */
  lemma Pad2TwoDigits(n: int)
    requires 0 <= n < 100
    ensures Pad2(n) == TwoDigits(n)
  {
    if n >= 10 {
      assert NatToString(n / 10) == [DigitChar(n / 10)];
    }
  }
}

=== FILE: trade.dfy ===
/** The canonical trade row (backend/app/models/trade.py) and the
    classification of trades that every statistic shares. */
module TradeModel {
  import opened Wrappers
  import opened Seqs

  /** The TradeType enumeration. */
  datatype TradeType = BUY | SELL

  function TradeTypeName(t: TradeType): string
  {
    match t
    case BUY => "BUY"
    case SELL => "SELL"
  }

  /** Enumeration lookup by value, `TradeType(value)`. */
  function TradeTypeOf(name: string): (r: Option<TradeType>)
    ensures r.Some? <==> name == "BUY" || name == "SELL"
  {
    if name == "BUY" then Some(BUY) else if name == "SELL" then Some(SELL) else None
  }

  /** The enumeration has exactly the values BUY and SELL, and value lookup
      inverts the value of each member. */
  lemma TradeTypeValues()
    ensures forall t: TradeType :: TradeTypeOf(TradeTypeName(t)) == Some(t)
    ensures forall t: TradeType :: TradeTypeName(t) in {"BUY", "SELL"}
    ensures TradeTypeName(BUY) != TradeTypeName(SELL)
  {
    forall t: TradeType ensures TradeTypeOf(TradeTypeName(t)) == Some(t) {
      match t
      case BUY =>
      case SELL => assert "SELL" != "BUY";
    }
  }

  /** The TradeSource enumeration. The `source` column is a plain string,
      so the sync from the cloud bridge stores "METAAPI", which is not one of
      its values. */
  datatype TradeSource = CSV | METATRADER | TRADINGVIEW

  function TradeSourceName(s: TradeSource): string
  {
    match s
    case CSV => "CSV"
    case METATRADER => "METATRADER"
    case TRADINGVIEW => "TRADINGVIEW"
  }

  const MetaApiSource: string := "METAAPI"

  lemma MetaApiSourceOutsideEnum()
    ensures forall s: TradeSource :: TradeSourceName(s) != MetaApiSource
  {
    forall s: TradeSource ensures TradeSourceName(s) != MetaApiSource {
      match s
      case CSV => assert "CSV"[0] != MetaApiSource[0];
      case METATRADER => assert "METATRADER"[4] != MetaApiSource[4];
      case TRADINGVIEW => assert "TRADINGVIEW"[0] != MetaApiSource[0];
    }
  }

  /** A row of the trades table. Times are seconds since the epoch in the
      server's local time; money and prices are exact reals. `id` is 0 until
      the store assigns one. */
  datatype Trade = Trade(
    id: int,
    userId: int,
    symbol: string,
    tradeType: string,
    volume: real,
    entryPrice: real,
    exitPrice: Option<real>,
    stopLoss: Option<real>,
    takeProfit: Option<real>,
    profit: real,
    profitPips: real,
    commission: real,
    swap: real,
    openTime: int,
    closeTime: Option<int>,
    durationMinutes: int,
    source: string,
    externalId: Option<string>,
    notes: Option<string>)

  /** A new row from its required columns; every other column takes its
      default: 0.0 for the money columns, 0 minutes, source "CSV", and no
      value for the nullable ones. */
  function NewTrade(userId: int, symbol: string, tradeType: string, volume: real, entryPrice: real, openTime: int): (t: Trade)
    ensures t.userId == userId && t.symbol == symbol && t.tradeType == tradeType
    ensures t.volume == volume && t.entryPrice == entryPrice && t.openTime == openTime
    ensures t.profit == 0.0 && t.profitPips == 0.0 && t.commission == 0.0 && t.swap == 0.0
    ensures t.durationMinutes == 0 && t.source == TradeSourceName(CSV)
    ensures t.exitPrice.None? && t.stopLoss.None? && t.takeProfit.None?
    ensures t.closeTime.None? && t.externalId.None? && t.notes.None?
  {
    Trade(0, userId, symbol, tradeType, volume, entryPrice, None, None, None,
          0.0, 0.0, 0.0, 0.0, openTime, None, 0, "CSV", None, None)
  }

  // ---------------------------------------------------------------- time

  const SecondsPerDay: int := 86400

  /** Hour of the day of a timestamp (`datetime.hour`). */
  function HourOf(t: int): (h: int)
    ensures 0 <= h < 24
  {
    (t % SecondsPerDay) / 3600
  }

  /** Calendar day of a timestamp (`datetime.date()`), as a day number. */
  function DateOf(t: int): int
  {
    t / SecondsPerDay
  }

  /** Day of the week, Monday = 0 (day 0 of the epoch was a Thursday). */
  function WeekdayOf(t: int): (d: int)
    ensures 0 <= d < 7
  {
    (DateOf(t) + 3) % 7
  }

  /** `strftime("%A")`. */
  function WeekdayName(d: int): string
    requires 0 <= d < 7
  {
    ["Monday", "Tuesday", "Wednesday", "Thursday", "Friday", "Saturday", "Sunday"][d]
  }

  /** Python's `int(x / y)`: division truncated toward zero. The quotient
      is the whole number of `b`s in `a`, rounded toward zero. */
  function TruncDiv(a: int, b: int): (q: int)
    requires b > 0
    ensures a >= 0 ==> 0 <= q && q * b <= a < q * b + b
    ensures a < 0 ==> q <= 0 && q * b - b < a <= q * b
  {
    if a >= 0 then FloorDivBounds(a, b); a / b
    else FloorDivBounds(-a, b); -((-a) / b)
  }

  lemma FloorDivBounds(a: int, b: int)
    requires a >= 0 && b > 0
    ensures 0 <= a / b && (a / b) * b <= a < (a / b) * b + b
  {
    var q, r := a / b, a % b;
    assert a == q * b + r && 0 <= r < b;
  }

  /** `int((close - open).total_seconds() / 60)`. */
  function MinutesBetween(open: int, close: int): int
  {
    TruncDiv(close - open, 60)
  }

  /** The whole minutes between two times, truncated toward zero: the
      elapsed seconds lie within one minute of them, on the side away
      from zero. */
  lemma MinutesBetweenSign(open: int, close: int)
    ensures var m := MinutesBetween(open, close);
      open <= close ==> 0 <= m && 60 * m <= close - open < 60 * m + 60
    ensures var m := MinutesBetween(open, close);
      close < open ==> m <= 0 && 60 * m - 60 < close - open <= 60 * m
  {
  }

  // ------------------------------------------------- trade classification

  function Profit(t: Trade): real { t.profit }
  function TradeHour(t: Trade): int { HourOf(t.openTime) }
  function TradeDate(t: Trade): int { DateOf(t.openTime) }
  function TradeSymbol(t: Trade): string { t.symbol }
  function OpenTimeKey(t: Trade): real { t.openTime as real }
  function TradeWeekday(t: Trade): string { WeekdayName(WeekdayOf(t.openTime)) }

  /** Profit strictly above zero: a win everywhere in the source. */
  predicate IsWin(t: Trade) { t.profit > 0.0 }
  /** Profit strictly below zero: a loss for the dashboard and the quick analysis streak. */
  predicate IsLoss(t: Trade) { t.profit < 0.0 }
  /** Profit zero or below: a loss for the AI summary buckets and streaks. */
  predicate IsNonWin(t: Trade) { t.profit <= 0.0 }

  /** Wins and non-wins split every list; wins and strict losses leave out
      the break-even trades. */
  lemma {:induction false} ClassCounts(s: seq<Trade>)
    ensures |Filter(s, IsWin)| + |Filter(s, IsNonWin)| == |s|
    ensures |Filter(s, IsWin)| + |Filter(s, IsLoss)| <= |s|
    decreases |s|
  {
    if s != [] {
      var p := s[..|s| - 1];
      var x := s[|s| - 1];
      assert s == p + [x];
      ClassCounts(p);
      FilterSnoc(p, x, IsWin);
      FilterSnoc(p, x, IsNonWin);
      FilterSnoc(p, x, IsLoss);
    }
  }

  /** The net profit is the sum of the wins plus the sum of the losses. */
  lemma {:induction false} ClassSums(s: seq<Trade>)
    ensures SumReal(s, Profit) == SumReal(Filter(s, IsWin), Profit) + SumReal(Filter(s, IsLoss), Profit)
    decreases |s|
  {
    if s != [] {
      var p := s[..|s| - 1];
      var x := s[|s| - 1];
      assert s == p + [x];
      ClassSums(p);
      FilterSnoc(p, x, IsWin);
      FilterSnoc(p, x, IsLoss);
      SumRealSnoc(Filter(p, IsWin), x, Profit);
      SumRealSnoc(Filter(p, IsLoss), x, Profit);
      SumRealSnoc(p, x, Profit);
      if IsWin(x) {
        assert Filter(s, IsLoss) == Filter(p, IsLoss);
      } else if IsLoss(x) {
        assert Filter(s, IsWin) == Filter(p, IsWin);
      } else {
        assert Filter(s, IsWin) == Filter(p, IsWin) && Filter(s, IsLoss) == Filter(p, IsLoss);
        assert Profit(x) == 0.0;
      }
    }
  }

  /** Sums of trades of one sign have that sign, strictly when there is one. */
  lemma {:induction false} SignedSum(s: seq<Trade>, positive: bool)
    requires forall i :: 0 <= i < |s| ==> (if positive then s[i].profit > 0.0 else s[i].profit < 0.0)
    ensures positive && s != [] ==> SumReal(s, Profit) > 0.0
    ensures !positive && s != [] ==> SumReal(s, Profit) < 0.0
    ensures s == [] ==> SumReal(s, Profit) == 0.0
    decreases |s|
  {
    if s != [] {
      SignedSum(s[..|s| - 1], positive);
    }
  }

  /** The sum of the wins is positive and that of the losses negative as soon as there is one. */
  lemma WinLossSigns(s: seq<Trade>)
    ensures SumReal(Filter(s, IsWin), Profit) >= 0.0 && SumReal(Filter(s, IsLoss), Profit) <= 0.0
    ensures Filter(s, IsWin) != [] ==> SumReal(Filter(s, IsWin), Profit) > 0.0
    ensures Filter(s, IsLoss) != [] ==> SumReal(Filter(s, IsLoss), Profit) < 0.0
  {
    SignedSum(Filter(s, IsWin), true);
    SignedSum(Filter(s, IsLoss), false);
  }

  /** Trades whose open date lies in the optional [start, end] day range. */
  predicate InDateRange(t: Trade, start: Option<int>, end: Option<int>)
  {
    (start.Some? ==> TradeDate(t) >= start.value) && (end.Some? ==> TradeDate(t) <= end.value)
  }
  /** The trades opened at or after `start` (a `open_time >= start` query). */
  function OpenedSince(s: seq<Trade>, start: int): (r: seq<Trade>)
    ensures forall i :: 0 <= i < |r| ==> r[i].openTime >= start
    ensures forall t :: t in s && t.openTime >= start ==> t in r
    ensures forall t :: t in r ==> t in s
    decreases |s|
  {
    if s == [] then []
    else OpenedSince(s[..|s| - 1], start) + (if s[|s| - 1].openTime >= start then [s[|s| - 1]] else [])
  }

  /** `wins / n * 100`, or 0 for an empty bucket. */
  function Percent(wins: nat, n: nat): real
  {
    if n > 0 then wins as real / n as real * 100.0 else 0.0
  }

  /** A win rate lies between 0 and 100, and is 0 for an empty bucket. */
  lemma PercentRange(wins: nat, n: nat)
    requires wins <= n
    ensures 0.0 <= Percent(wins, n) <= 100.0
    ensures n == 0 ==> Percent(wins, n) == 0.0
  {
    if n > 0 {
      assert wins as real / n as real <= 1.0;
    }
  }

  /** `total / n`, or 0 when n is 0. */
  function Mean(total: real, n: nat): real
  {
    if n > 0 then total / n as real else 0.0
  }

  /** A mean times its count gives back the total. */
  lemma MeanTimes(total: real, n: nat)
    ensures n > 0 ==> Mean(total, n) * n as real == total
    ensures n == 0 ==> Mean(total, n) == 0.0
  {
  }
}

=== FILE: trade_store.dfy ===
/** backend/app/routers/trades.py over the trades table: listing, creating,
    uploading a CSV export, reading and deleting trades. The database is an
    in-memory store of rows in insertion order, each insertion assigning
    the next id; sessions, commits and the HTTP layer are not part of this
    model, and an HTTP error is a value. */
module TradeStore {
  import opened Wrappers
  import opened Seqs
  import opened Text
  import opened TradeModel
  import CsvParser

  /** An HTTP error answer: its status code and detail text. */
  datatype HttpError = HttpError(status: int, detail: string)

  const NotFound: HttpError := HttpError(404, "Trade não encontrado")
  const NotCsv: HttpError := HttpError(400, "Arquivo deve ser CSV")
  const NotConfirmed: HttpError := HttpError(400, "Confirme a exclusão com ?confirm=true")

  /** One page of the listing, with the number of all the user's trades. */
  datatype Page = Page(trades: seq<Trade>, total: nat, skip: nat, limit: nat)

  /** The reply to an accepted upload. */
  datatype Upload = Upload(message: string, count: nat)

  /** The listing's filter: the user's trades, of the symbol when one is
      given (an empty symbol filters nothing), opened within the optional
      date range. */
  predicate Selected(t: Trade, userId: int, symbol: Option<string>, start: Option<int>, end: Option<int>)
  {
    && t.userId == userId
    && (symbol.Some? && symbol.value != [] ==> t.symbol == symbol.value)
    && InDateRange(t, start, end)
  }

  /** The listing's filter as a test on rows. */
  function SelectedBy(userId: int, symbol: Option<string>, start: Option<int>, end: Option<int>): Trade -> bool
  {
    t => Selected(t, userId, symbol, start, end)
  }

  /** Rows of the user, and rows of anyone else. */
  function OfUser(userId: int): Trade -> bool
  {
    (t: Trade) => t.userId == userId
  }

  function NotOfUser(userId: int): Trade -> bool
  {
    (t: Trade) => t.userId != userId
  }

  /** Sort key for newest first. */
  function Newest(t: Trade): real
  {
    -(t.openTime as real)
  }

  /** `OFFSET skip LIMIT limit`. */
  function Window<T>(s: seq<T>, skip: nat, limit: nat): (r: seq<T>)
    ensures |r| == (if skip >= |s| then 0 else if limit <= |s| - skip then limit else |s| - skip)
    ensures forall i :: 0 <= i < |r| ==> r[i] == s[skip + i]
  {
    if skip >= |s| then []
    else s[skip..if skip + limit <= |s| then skip + limit else |s|]
  }

  /** A window of the trades sorted newest first holds trades of the list,
      each no more often than the list does, newest first, as many as the
      window spans: it is the window of a newest-first ordering of the list. */
  lemma NewestPage(s: seq<Trade>, skip: nat, limit: nat)
    ensures var page := Window(SortBy(s, Newest), skip, limit);
      && |page| == (if skip >= |s| then 0 else if limit <= |s| - skip then limit else |s| - skip)
      && (forall t :: t in page ==> t in s)
      && multiset(page) <= multiset(s)
      && (forall i, j :: 0 <= i < j < |page| ==> page[i].openTime >= page[j].openTime)
      && (exists o :: NewestOrder(o, s) && page == Window(o, skip, limit))
  {
    var ordered := SortBy(s, Newest);
    var page := Window(ordered, skip, limit);
    SortedNewest(s);
    assert |ordered| == |s| by {
      assert |multiset(ordered)| == |multiset(s)|;
    }
    WindowWithin(ordered, skip, limit);
    forall t | t in page ensures t in s {
      assert t in multiset(page);
    }
  }

  /** Sorting by `Newest` orders the trades newest first. */
  lemma SortedNewest(s: seq<Trade>)
    ensures NewestOrder(SortBy(s, Newest), s)
  {
    var ordered := SortBy(s, Newest);
    forall i, j | 0 <= i < j < |ordered| ensures ordered[i].openTime >= ordered[j].openTime {
      assert Newest(ordered[i]) <= Newest(ordered[j]);
    }
  }

  /** A window holds each element no more often than the whole list does. */
  lemma WindowWithin<T>(s: seq<T>, skip: nat, limit: nat)
    ensures multiset(Window(s, skip, limit)) <= multiset(s)
  {
    if skip < |s| {
      var e := if skip + limit <= |s| then skip + limit else |s|;
      assert s == s[..skip] + Window(s, skip, limit) + s[e..];
      assert multiset(s) == multiset(s[..skip]) + multiset(Window(s, skip, limit)) + multiset(s[e..]);
    }
  }

  /** `o` lists the trades of `s`, each as often, newest first. */
  ghost predicate NewestOrder(o: seq<Trade>, s: seq<Trade>)
  {
    && multiset(o) == multiset(s)
    && forall i, j :: 0 <= i < j < |o| ==> o[i].openTime >= o[j].openTime
  }

  /** The row `Trade(user_id=..., **trade_data)` makes of a parsed CSV
      trade: its fields, with no stop, target, pips, external id or notes. */
  function FromCsv(userId: int, c: CsvParser.CsvTrade): (t: Trade)
    ensures t.userId == userId && t.symbol == c.symbol && t.tradeType == c.tradeType
    ensures t.volume == c.volume && t.entryPrice == c.entryPrice && t.exitPrice == c.exitPrice
    ensures t.profit == c.profit && t.commission == c.commission && t.swap == c.swap
    ensures t.openTime == c.openTime && t.closeTime == c.closeTime
    ensures t.durationMinutes == c.durationMinutes && t.source == c.source
    ensures t.profitPips == 0.0 && t.stopLoss.None? && t.takeProfit.None?
    ensures t.externalId.None? && t.notes.None?
  {
    Trade(0, userId, c.symbol, c.tradeType, c.volume, c.entryPrice, c.exitPrice, None, None,
          c.profit, 0.0, c.commission, c.swap, c.openTime, c.closeTime, c.durationMinutes,
          c.source, None, None)
  }

  /** The rows an import of parsed trades appends: each trade's row, in
      order, under consecutive ids from `firstId`. */
  function Imported(userId: int, trades: seq<CsvParser.CsvTrade>, firstId: int): seq<Trade>
  {
    seq(|trades|, k requires 0 <= k < |trades| => FromCsv(userId, trades[k]).(id := firstId + k))
  }

  /** What reading and parsing an upload comes to: the read error, or the
      parser's answer. */
  function ParseUpload(frame: Result<CsvParser.Frame, string>, lib: CsvParser.Library, now: int): Result<seq<CsvParser.CsvTrade>, string>
    requires frame.Ok? ==> CsvParser.Rectangular(frame.value)
  {
    match frame
    case Err(e) => Err(e)
    case Ok(f) => CsvParser.ParseCsv(f, lib, now)
  }

  /** Position of the row with this id owned by this user. */
  function IndexOf(rows: seq<Trade>, id: int, userId: int): (k: Option<nat>)
    ensures k.Some? ==> k.value < |rows| && rows[k.value].id == id && rows[k.value].userId == userId
    ensures k.None? <==> forall i :: 0 <= i < |rows| ==> !(rows[i].id == id && rows[i].userId == userId)
    decreases |rows|
  {
    if rows == [] then None
    else if rows[|rows| - 1].id == id && rows[|rows| - 1].userId == userId then Some(|rows| - 1)
    else IndexOf(rows[..|rows| - 1], id, userId)
  }

  /** A row of the user with this external id and source exists. */
  predicate Keyed(rows: seq<Trade>, userId: int, externalId: string, source: string)
  {
    exists i :: 0 <= i < |rows| && rows[i].userId == userId && rows[i].externalId == Some(externalId) && rows[i].source == source
  }

  /** Row ids strictly increase along the table. */
  ghost predicate IdsIncrease(rows: seq<Trade>)
  {
    forall i, j :: 0 <= i < j < |rows| ==> rows[i].id < rows[j].id
  }

  /** Removing one row keeps the ids increasing and below any bound they
      had, and leaves no row with the removed row's id. */
  lemma RemoveKeepsIds(rows: seq<Trade>, i: nat, bound: int)
    requires i < |rows|
    requires IdsIncrease(rows) && forall j :: 0 <= j < |rows| ==> 1 <= rows[j].id < bound
    ensures var rest := rows[..i] + rows[i + 1..];
      && IdsIncrease(rest)
      && (forall j :: 0 <= j < |rest| ==> 1 <= rest[j].id < bound)
      && forall t :: t in rest ==> t.id != rows[i].id
  {
    var rest := rows[..i] + rows[i + 1..];
    assert forall j :: 0 <= j < |rest| ==> rest[j] == rows[if j < i then j else j + 1];
  }

  /** Dropping rows keeps the ids increasing and below any bound they had. */
  lemma {:induction false} FilterKeepsIds(rows: seq<Trade>, p: Trade -> bool, bound: int)
    requires IdsIncrease(rows) && forall i :: 0 <= i < |rows| ==> 1 <= rows[i].id < bound
    ensures IdsIncrease(Filter(rows, p))
    ensures forall i :: 0 <= i < |Filter(rows, p)| ==> 1 <= Filter(rows, p)[i].id < bound
    decreases |rows|
  {
    if rows != [] {
      var q := rows[..|rows| - 1];
      var x := rows[|rows| - 1];
      assert rows == q + [x];
      FilterKeepsIds(q, p, bound);
      FilterSnoc(q, x, p);
      FilterSubset(q, p);
      var f := Filter(q, p);
      forall i | 0 <= i < |f| ensures f[i].id < x.id {
        assert f[i] in q;
        var k :| 0 <= k < |q| && q[k] == f[i];
        assert rows[k] == q[k];
      }
    }
  }

  /** The trades table. */
  class Store {
    var rows: seq<Trade>
    var nextId: int

    /** Ids are positive, below the next one to assign, and increase along
        the table, so no two rows share one. */
    ghost predicate Valid()
      reads this
    {
      && nextId >= 1
      && (forall i :: 0 <= i < |rows| ==> 1 <= rows[i].id < nextId)
      && IdsIncrease(rows)
    }

    constructor ()
      ensures Valid() && rows == []
    {
      rows := [];
      nextId := 1;
    }

    /** `db.add`: the row is stored last, under the next id. */
    method Insert(t: Trade) returns (stored: Trade)
      requires Valid()
      modifies this
      ensures Valid()
      ensures stored == t.(id := old(nextId)) && rows == old(rows) + [stored]
      ensures nextId == old(nextId) + 1
    {
      stored := t.(id := nextId);
      rows := rows + [stored];
      nextId := nextId + 1;
    }

    /** All of the user's trades. */
    function Owned(userId: int): (r: seq<Trade>)
      reads this
      ensures forall t :: t in r ==> t in rows && t.userId == userId
    {
      FilterSubset(rows, OfUser(userId));
      Filter(rows, OfUser(userId))
    }

    /** The existence query of the sync handlers. */
    predicate HasKey(userId: int, externalId: string, source: string)
      reads this
    {
      Keyed(rows, userId, externalId, source)
    }

    /** `get_trades`: the selected trades, newest first, from `skip` on,
        at most `limit` of them; `total` counts all the user's trades
        whatever the filters. */
    function Listing(userId: int, symbol: Option<string>, start: Option<int>, end: Option<int>, skip: int, limit: int): (p: Page)
      reads this
      requires 0 <= skip && 1 <= limit <= 100
      ensures |p.trades| <= limit
      ensures forall t :: t in p.trades ==> t in rows && Selected(t, userId, symbol, start, end)
      ensures multiset(p.trades) <= multiset(Filter(rows, SelectedBy(userId, symbol, start, end)))
      ensures forall i, j :: 0 <= i < j < |p.trades| ==> p.trades[i].openTime >= p.trades[j].openTime
      ensures exists o :: (NewestOrder(o, Filter(rows, SelectedBy(userId, symbol, start, end)))
                           && p.trades == Window(o, skip, limit))
      ensures var n := |Filter(rows, SelectedBy(userId, symbol, start, end))|;
        |p.trades| == (if skip >= n then 0 else if limit <= n - skip then limit else n - skip)
      ensures p.total == |Owned(userId)| && p.skip == skip && p.limit == limit
    {
      var selected := Filter(rows, SelectedBy(userId, symbol, start, end));
      FilterMembers(rows, SelectedBy(userId, symbol, start, end));
      NewestPage(selected, skip, limit);
      Page(Window(SortBy(selected, Newest), skip, limit), |Owned(userId)|, skip, limit)
    }

    /** `get_trade`: the user's row with this id, or 404. */
    function Find(id: int, userId: int): (r: Result<Trade, HttpError>)
      reads this
      ensures r.Ok? <==> exists i :: 0 <= i < |rows| && rows[i].id == id && rows[i].userId == userId
      ensures r.Ok? ==> r.value in rows && r.value.id == id && r.value.userId == userId
      ensures r.Err? ==> r.error == NotFound
    {
      match IndexOf(rows, id, userId)
      case Some(k) => Ok(rows[k])
      case None => Err(NotFound)
    }

    /** `create_trade`: the posted fields stored for the user. */
    method CreateTrade(userId: int, fields: Trade) returns (stored: Trade)
      requires Valid()
      modifies this
      ensures Valid()
      ensures stored == fields.(userId := userId, id := old(nextId)) && rows == old(rows) + [stored]
    {
      stored := Insert(fields.(userId := userId));
    }

    /** `delete_trade`: 404 and no change when the user has no row with
        this id; otherwise exactly that row is removed. */
    method DeleteTrade(id: int, userId: int) returns (r: Result<string, HttpError>)
      requires Valid()
      modifies this
      ensures Valid() && nextId == old(nextId)
      ensures r.Err? <==> IndexOf(old(rows), id, userId).None?
      ensures r.Err? ==> r.error == NotFound && rows == old(rows)
      ensures r.Ok? ==> r.value == "Trade deletado com sucesso"
      ensures r.Ok? ==> var k := IndexOf(old(rows), id, userId).value;
        rows == old(rows)[..k] + old(rows)[k + 1..]
      ensures r.Ok? ==> forall t :: t in rows ==> t.id != id
    {
      var k := IndexOf(rows, id, userId);
      if k.None? {
        return Err(NotFound);
      }
      var i := k.value;
      RemoveKeepsIds(rows, i, nextId);
      rows := rows[..i] + rows[i + 1..];
      r := Ok("Trade deletado com sucesso");
    }

    /** `delete_all_trades`: without confirmation 400 and no change; with
        it every row of the user is removed, their number reported, and
        other users' rows kept in order. */
    method DeleteAll(userId: int, confirm: bool) returns (r: Result<string, HttpError>)
      requires Valid()
      modifies this
      ensures Valid() && nextId == old(nextId)
      ensures !confirm ==> r == Err(NotConfirmed) && rows == old(rows)
      ensures confirm ==> rows == Filter(old(rows), NotOfUser(userId))
      ensures confirm ==> r == Ok(NatToString(|Filter(old(rows), OfUser(userId))|) + " trades deletados")
    {
      if !confirm {
        return Err(NotConfirmed);
      }
      var all := rows;
      var kept: seq<Trade> := [];
      var deleted: nat := 0;
      for i := 0 to |all|
        invariant kept == Filter(all[..i], NotOfUser(userId))
        invariant deleted == |Filter(all[..i], OfUser(userId))|
        invariant rows == all && nextId == old(nextId)
      {
        PrefixStep(all, i);
        FilterSnoc(all[..i], all[i], NotOfUser(userId));
        FilterSnoc(all[..i], all[i], OfUser(userId));
        assert OfUser(userId)(all[i]) == !NotOfUser(userId)(all[i]) == (all[i].userId == userId);
        if all[i].userId == userId {
          deleted := deleted + 1;
        } else {
          kept := kept + [all[i]];
        }
      }
      assert all[..|all|] == all;
      FilterKeepsIds(all, NotOfUser(userId), nextId);
      rows := kept;
      r := Ok(NatToString(deleted) + " trades deletados");
    }

    /** Reading the upload: the file's own error, or the parser's answer. */
    static method ReadUpload(frame: Result<CsvParser.Frame, string>, lib: CsvParser.Library, now: int)
      returns (parsed: Result<seq<CsvParser.CsvTrade>, string>)
      requires frame.Ok? ==> CsvParser.Rectangular(frame.value)
      ensures parsed == ParseUpload(frame, lib, now)
    {
      if frame.Err? {
        parsed := Err(frame.error);
      } else {
        parsed := CsvParser.ParseCsvTrades(frame.value, lib, now);
      }
    }

    /** The insertion loop of `upload_csv`: each parsed trade stored for
        the user, in order. */
    method InsertAll(userId: int, trades: seq<CsvParser.CsvTrade>)
      requires Valid()
      modifies this
      ensures Valid()
      ensures rows == old(rows) + Imported(userId, trades, old(nextId))
      ensures nextId == old(nextId) + |trades|
    {
      ghost var before := rows;
      ghost var firstId := nextId;
      for k := 0 to |trades|
        invariant Valid()
        invariant nextId == firstId + k
        invariant rows == before + Imported(userId, trades[..k], firstId)
      {
        var stored := Insert(FromCsv(userId, trades[k]));
        assert Imported(userId, trades[..k + 1], firstId) == Imported(userId, trades[..k], firstId) + [stored];
      }
      assert trades[..|trades|] == trades;
    }

    /** `upload_csv`: a file not named *.csv is refused; a file that does
        not read or parse is refused with the parser's message and stores
        nothing; otherwise every parsed trade is stored, in order and
        without any duplicate check, and their number reported. */
    method UploadCsv(userId: int, filename: string, frame: Result<CsvParser.Frame, string>, lib: CsvParser.Library, now: int)
      returns (r: Result<Upload, HttpError>)
      requires Valid()
      requires frame.Ok? ==> CsvParser.Rectangular(frame.value)
      modifies this
      ensures Valid()
      ensures !EndsWith(filename, ".csv") ==> r == Err(NotCsv) && rows == old(rows)
      ensures EndsWith(filename, ".csv") && ParseUpload(frame, lib, now).Err? ==>
        r == Err(HttpError(400, "Erro ao processar CSV: " + ParseUpload(frame, lib, now).error)) && rows == old(rows)
      ensures EndsWith(filename, ".csv") && ParseUpload(frame, lib, now).Ok? ==>
        var parsed := ParseUpload(frame, lib, now).value;
        && r == Ok(Upload("✅ " + NatToString(|parsed|) + " trades importados com sucesso!", |parsed|))
        && rows == old(rows) + Imported(userId, parsed, old(nextId))
    {
      if !EndsWith(filename, ".csv") {
        return Err(NotCsv);
      }
      var parsed := ReadUpload(frame, lib, now);
      if parsed.Err? {
        return Err(HttpError(400, "Erro ao processar CSV: " + parsed.error));
      }
      var trades := parsed.value;
      InsertAll(userId, trades);
      r := Ok(Upload("✅ " + NatToString(|trades|) + " trades importados com sucesso!", |trades|));
    }
  }
}

=== FILE: trades_page.dfy ===
/** frontend/src/components/TradesPage.tsx: the trades screen. Its state
    is the page of trades shown, the current page number and the number of
    trades the server reports; what it derives from them (the search, the
    summary figures, the symbol list, the pager) is pure. Rendering, the
    confirmation dialog and the requests are not part of this model: their
    outcomes are parameters. */
module TradesPage {
  import opened Seqs
  import opened Text
  import opened TradeModel
  import Grouping

  const TradesPerPage: nat := 15

  // ------------------------------------------------------------- search

  /** The symbol contains the search term, ignoring case. */
  predicate Matches(t: Trade, term: string)
  {
    Contains(Lower(t.symbol), Lower(term))
  }

  function MatchesTerm(term: string): Trade -> bool
  {
    (t: Trade) => Matches(t, term)
  }

  /** `filteredTrades`. */
  function Search(trades: seq<Trade>, term: string): seq<Trade>
  {
    Filter(trades, MatchesTerm(term))
  }

  /** The search keeps exactly the trades whose symbol contains the term,
      ignoring case, in their order; an empty term keeps every trade. */
  lemma SearchSpec(trades: seq<Trade>, term: string)
    ensures forall t :: t in Search(trades, term) <==> t in trades && Matches(t, term)
    ensures term == "" ==> Search(trades, term) == trades
  {
    FilterMembers(trades, MatchesTerm(term));
    if term == "" {
      forall i | 0 <= i < |trades| ensures MatchesTerm(term)(trades[i]) {
        assert IsPrefix(Lower(term), Lower(trades[i].symbol));
      }
      FilterAll(trades, MatchesTerm(term));
    }
  }

  // -------------------------------------------------------------- stats

  /** The summary figures of the trades shown. */
  datatype Stats = Stats(total: nat, wins: nat, losses: nat, profit: real, winRate: real)

  /** `stats`: a `NaN` win rate of an empty list becomes 0. */
  function StatsOf(shown: seq<Trade>): Stats
  {
    var wins := |Filter(shown, IsWin)|;
    Stats(|shown|, wins, |Filter(shown, IsLoss)|, SumReal(shown, Profit), Percent(wins, |shown|))
  }

  /** Wins and losses leave out break-even trades, so they never exceed the
      total; the profit is the sum of the wins and the losses; the win rate
      lies in [0, 100] and is 0 for an empty list. */
  lemma StatsSpec(shown: seq<Trade>)
    ensures var s := StatsOf(shown);
      s.wins + s.losses <= s.total && s.total == |shown|
    ensures var s := StatsOf(shown);
      s.profit == SumReal(Filter(shown, IsWin), Profit) + SumReal(Filter(shown, IsLoss), Profit)
    ensures var s := StatsOf(shown);
      0.0 <= s.winRate <= 100.0 && (shown == [] ==> s.winRate == 0.0 && s.profit == 0.0)
  {
    ClassCounts(shown);
    ClassSums(shown);
    PercentRange(|Filter(shown, IsWin)|, |shown|);
  }

  // ------------------------------------------------------------ symbols

  /** `uniqueSymbols`: the symbols in order of first appearance. */
  function UniqueSymbols(trades: seq<Trade>): seq<string>
  {
    Grouping.Keys(trades, TradeSymbol)
  }

  /** Every listed symbol is some trade's symbol. */
  lemma {:induction false} KeysAreSymbols(trades: seq<Trade>)
    ensures forall x :: x in UniqueSymbols(trades) ==> exists i :: 0 <= i < |trades| && trades[i].symbol == x
    decreases |trades|
  {
    if trades != [] {
      var p := trades[..|trades| - 1];
      KeysAreSymbols(p);
      forall x | x in UniqueSymbols(trades) ensures exists i :: 0 <= i < |trades| && trades[i].symbol == x {
        if x in UniqueSymbols(p) {
          var i :| 0 <= i < |p| && p[i].symbol == x;
          assert trades[i] == p[i];
        } else {
          assert trades[|trades| - 1].symbol == x;
        }
      }
    }
  }

  /** The symbol list has no duplicates and lists the symbol of every
      trade and nothing else. */
  lemma UniqueSymbolsSpec(trades: seq<Trade>)
    ensures var u := UniqueSymbols(trades);
      forall i, j :: 0 <= i < j < |u| ==> u[i] != u[j]
    ensures forall i :: 0 <= i < |trades| ==> trades[i].symbol in UniqueSymbols(trades)
    ensures forall x :: x in UniqueSymbols(trades) ==> exists i :: 0 <= i < |trades| && trades[i].symbol == x
  {
    Grouping.KeysSpec(trades, TradeSymbol);
    KeysAreSymbols(trades);
  }

  // ------------------------------------------------------------- paging

  /** `Math.ceil(totalTrades / tradesPerPage)`. */
  function TotalPages(totalTrades: nat): nat
  {
    (totalTrades + TradesPerPage - 1) / TradesPerPage
  }

  /** The page count is the ceiling: the pages hold every trade, and one
      page fewer would not. */
  lemma TotalPagesSpec(totalTrades: nat)
    ensures TradesPerPage * TotalPages(totalTrades) >= totalTrades
    ensures TotalPages(totalTrades) > 0 ==> TradesPerPage * (TotalPages(totalTrades) - 1) < totalTrades
    ensures TotalPages(totalTrades) == 0 <==> totalTrades == 0
  {
  }

  function Min(a: int, b: int): int { if a <= b then a else b }
  function Max(a: int, b: int): int { if a >= b then a else b }

  /** The first page button: 1; with more than five pages, two before the
      current page once past page 3, and the last five pages near the end. */
  function WindowStart(currentPage: int, totalPages: nat): int
  {
    if totalPages > 5 then
      if currentPage > totalPages - 2 then totalPages - 4
      else if currentPage > 3 then currentPage - 2
      else 1
    else 1
  }

  /** The page buttons. */
  function PageButtons(currentPage: int, totalPages: nat): seq<int>
  {
    seq(Min(5, totalPages), i requires 0 <= i < Min(5, totalPages) => WindowStart(currentPage, totalPages) + i)
  }

  /** There are min(5, totalPages) buttons of consecutive page numbers,
      all within 1..totalPages whatever the current page, and the current
      page has a button whenever it is a page. */
  lemma PageButtonsSpec(currentPage: int, totalPages: nat)
    ensures var b := PageButtons(currentPage, totalPages);
      |b| == Min(5, totalPages)
    ensures var b := PageButtons(currentPage, totalPages);
      forall i :: 0 <= i < |b| ==> 1 <= b[i] <= totalPages
    ensures var b := PageButtons(currentPage, totalPages);
      forall i :: 0 < i < |b| ==> b[i] == b[i - 1] + 1
    ensures 1 <= currentPage <= totalPages ==> currentPage in PageButtons(currentPage, totalPages)
  {
    var b := PageButtons(currentPage, totalPages);
    var start := WindowStart(currentPage, totalPages);
    assert 1 <= start && start + Min(5, totalPages) - 1 <= totalPages;
    forall i | 0 <= i < |b| ensures 1 <= b[i] <= totalPages {
      assert b[i] == start + i;
    }
    if 1 <= currentPage <= totalPages {
      var k := currentPage - WindowStart(currentPage, totalPages);
      assert 0 <= k < |b| && b[k] == currentPage;
    }
  }

  /** The previous-page button. */
  function PreviousPage(currentPage: int): int
  {
    Max(1, currentPage - 1)
  }

  /** The next-page button. */
  function NextPage(currentPage: int, totalPages: nat): int
  {
    Min(totalPages, currentPage + 1)
  }

  /** From a page, both buttons lead to a page; the first page has no
      previous and the last no next. */
  lemma PagerSpec(currentPage: int, totalPages: nat)
    requires 1 <= currentPage <= totalPages
    ensures 1 <= PreviousPage(currentPage) <= totalPages
    ensures 1 <= NextPage(currentPage, totalPages) <= totalPages
    ensures PreviousPage(currentPage) == currentPage <==> currentPage == 1
    ensures NextPage(currentPage, totalPages) == currentPage <==> currentPage == totalPages
  {
  }

  /** The first and last position of the "showing" line. */
  function ShowingFrom(currentPage: int): int
  {
    (currentPage - 1) * TradesPerPage + 1
  }

  function ShowingTo(currentPage: int, totalTrades: nat): int
  {
    Min(currentPage * TradesPerPage, totalTrades)
  }

  /** On a page, the "showing" line names a non-empty range of at most 15
      positions within the total, as many as the listing returns for the
      page's offset and limit. */
  lemma ShowingSpec(currentPage: int, totalTrades: nat)
    requires 1 <= currentPage <= TotalPages(totalTrades)
    ensures 1 <= ShowingFrom(currentPage) <= ShowingTo(currentPage, totalTrades) <= totalTrades
    ensures var skip := (currentPage - 1) * TradesPerPage;
      ShowingTo(currentPage, totalTrades) - ShowingFrom(currentPage) + 1
        == (if TradesPerPage <= totalTrades - skip then TradesPerPage else totalTrades - skip)
  {
    TotalPagesSpec(totalTrades);
  }

  // ------------------------------------------------------------- delete

  function OtherId(id: int): Trade -> bool
  {
    (t: Trade) => t.id != id
  }

  function SameId(id: int): Trade -> bool
  {
    (t: Trade) => t.id == id
  }

  /** The list after a delete. */
  function WithoutId(trades: seq<Trade>, id: int): seq<Trade>
  {
    Filter(trades, OtherId(id))
  }

  /** Deleting an id removes exactly the trades with that id and keeps the
      others, in order. */
  lemma WithoutIdSpec(trades: seq<Trade>, id: int)
    ensures forall t :: t in WithoutId(trades, id) <==> t in trades && t.id != id
    ensures |WithoutId(trades, id)| + |Filter(trades, SameId(id))| == |trades|
  {
    FilterMembers(trades, OtherId(id));
    FilterSplit(trades, OtherId(id), SameId(id));
  }

  // -------------------------------------------------------------- state

  /** The component's state. */
  class TradesView {
    var trades: seq<Trade>
    var currentPage: int
    var totalTrades: nat

    /** The initial state: the fixture list, page 1, its length as total. */
    constructor (fixture: seq<Trade>)
      ensures trades == fixture && currentPage == 1 && totalTrades == |fixture|
    {
      trades := fixture;
      currentPage := 1;
      totalTrades := |fixture|;
    }

    /** `fetchTrades`: a non-empty answer replaces the page and the total;
        an empty or failed one keeps what is shown. */
    method Fetched(answer: seq<Trade>, total: nat)
      modifies this
      ensures answer != [] ==> trades == answer && totalTrades == total
      ensures answer == [] ==> trades == old(trades) && totalTrades == old(totalTrades)
      ensures currentPage == old(currentPage)
    {
      if answer != [] {
        trades := answer;
        totalTrades := total;
      }
    }

    /** `handleDelete`: once confirmed and deleted on the server, the trade
        leaves the list; otherwise nothing changes. */
    method HandleDelete(id: int, confirmed: bool, deleted: bool)
      modifies this
      ensures confirmed && deleted ==> trades == WithoutId(old(trades), id)
      ensures !(confirmed && deleted) ==> trades == old(trades)
      ensures currentPage == old(currentPage) && totalTrades == old(totalTrades)
    {
      if !confirmed {
        return;
      }
      if deleted {
        trades := WithoutId(trades, id);
      }
    }

    /** The previous-page button. */
    method Previous()
      modifies this
      ensures currentPage == PreviousPage(old(currentPage))
      ensures trades == old(trades) && totalTrades == old(totalTrades)
    {
      currentPage := PreviousPage(currentPage);
    }

    /** The next-page button. */
    method Next()
      modifies this
      ensures currentPage == NextPage(old(currentPage), TotalPages(totalTrades))
      ensures trades == old(trades) && totalTrades == old(totalTrades)
    {
      currentPage := NextPage(currentPage, TotalPages(totalTrades));
    }

    /** A page-number button. */
    method Select(page: int)
      modifies this
      ensures currentPage == page
      ensures trades == old(trades) && totalTrades == old(totalTrades)
    {
      currentPage := page;
    }
  }
}

=== FILE: tradingview.dfy ===
/** backend/app/services/tradingview_service.py: the alert webhook a
    TradingView strategy sends, normalised into a trade signal, and the
    Strategy Tester export, whose entry and exit rows are paired into trades
    by trade number. The HMAC signature check and reading the export with
    pandas are not part of this model: the signature comparison is a
    parameter and the export arrives as rows. */
module TradingView {
  import opened Wrappers
  import opened Seqs
  import opened Text

  // ----------------------------------------------------------- webhook

  /** `verify_webhook`: without a configured secret (none, or empty) every
      payload is accepted; with one, the answer is the signature
      comparison, which is passed in. */
  function VerifyWebhook(secret: Option<string>, signatureMatches: bool): (ok: bool)
    ensures secret.None? || secret.value == [] ==> ok
    ensures secret.Some? && secret.value != [] ==> ok == signatureMatches
  {
    if secret.None? || secret.value == [] then true else signatureMatches
  }

  /** The JSON body of an alert; a key the body lacks is None. */
  datatype Payload = Payload(
    kind: Option<string>, symbol: Option<string>, price: Option<real>,
    volume: Option<real>, message: Option<string>, id: Option<string>)

  /** The signal `parse_webhook` returns. */
  datatype Signal = Signal(symbol: string, tradeType: string, price: real, volume: real, message: string, id: string)

  const BuyWords: seq<string> := ["LONG", "BUY", "COMPRA"]
  const SellWords: seq<string> := ["SHORT", "SELL", "VENDA"]

  /** The upper-cased type, with the long and short synonyms collapsed to
      BUY and SELL; any other type is kept upper-cased. */
  function NormalizeType(t: string): string
  {
    var u := Upper(t);
    if u in BuyWords then "BUY" else if u in SellWords then "SELL" else u
  }

  /** The symbol without an exchange prefix: the text after the last ':'. */
  function StripExchange(s: string): string
  {
    if ':' in s then AfterLast(s, ':') else s
  }

  /** `parse_webhook`: type BUY, symbol UNKNOWN, price 0, volume 1, an empty
      message and an id made from the clock reading `stamp` stand in for
      the keys the body lacks. */
  function ParseWebhook(p: Payload, stamp: string): Signal
  {
    Signal(
      Upper(StripExchange(p.symbol.GetOr("UNKNOWN"))),
      NormalizeType(p.kind.GetOr("BUY")),
      p.price.GetOr(0.0),
      p.volume.GetOr(1.0),
      p.message.GetOr(""),
      p.id.GetOr("tv_" + stamp))
  }

  /** A signal sent back as an alert body. */
  function Resubmit(s: Signal): Payload
  {
    Payload(Some(s.tradeType), Some(s.symbol), Some(s.price), Some(s.volume), Some(s.message), Some(s.id))
  }

  lemma UpperBuySell()
    ensures Upper("BUY") == "BUY" && Upper("SELL") == "SELL"
  {
  }

  /** The type is BUY exactly for the long synonyms, SELL exactly for the
      short ones, the upper-cased text otherwise; normalising again changes
      nothing. */
  lemma NormalizeTypeSpec(t: string)
    ensures NormalizeType(t) == "BUY" <==> Upper(t) in BuyWords
    ensures NormalizeType(t) == "SELL" <==> Upper(t) in SellWords
    ensures Upper(t) !in BuyWords + SellWords ==> NormalizeType(t) == Upper(t)
    ensures Upper(NormalizeType(t)) == NormalizeType(t)
    ensures NormalizeType(NormalizeType(t)) == NormalizeType(t)
  {
    UpperBuySell();
    UpperIdempotent(t);
    assert "BUY" in BuyWords && "SELL" in SellWords;
  }

  /** Upper-casing never produces a ':'. */
  lemma UpperKeepsColon(s: string)
    ensures ':' in Upper(s) <==> ':' in s
  {
    if ':' in Upper(s) {
      var i :| 0 <= i < |s| && Upper(s)[i] == ':';
      assert s[i] == ':';
    }
    if ':' in s {
      var i :| 0 <= i < |s| && s[i] == ':';
      assert Upper(s)[i] == ':';
    }
  }

  /** The symbol is the upper-cased text after the last ':' (all of it
      without one); it holds no ':' and no lower-case letter, so stripping
      and upper-casing it again changes nothing. */
  lemma SymbolSpec(s: string)
    ensures var r := Upper(StripExchange(s));
      && ':' !in r
      && Upper(r) == r
      && (':' !in s ==> r == Upper(s))
      && r == Upper(s[|s| - |StripExchange(s)|..])
      && Upper(StripExchange(r)) == r
  {
    var r := Upper(StripExchange(s));
    UpperKeepsColon(StripExchange(s));
    UpperIdempotent(StripExchange(s));
  }

  /** The defaults of an empty body. */
  lemma ParseWebhookDefaults(stamp: string)
    ensures ParseWebhook(Payload(None, None, None, None, None, None), stamp)
      == Signal("UNKNOWN", "BUY", 0.0, 1.0, "", "tv_" + stamp)
  {
    assert !(':' in "UNKNOWN");
    assert Upper("UNKNOWN") == "UNKNOWN";
    UpperBuySell();
  }

  /** Parsing a parsed signal again gives the same signal: symbol and type
      are already normal, and every other field is carried as it is. */
  lemma ReparseWebhook(p: Payload, stamp: string, stamp2: string)
    ensures ParseWebhook(Resubmit(ParseWebhook(p, stamp)), stamp2) == ParseWebhook(p, stamp)
  {
    SymbolSpec(p.symbol.GetOr("UNKNOWN"));
    NormalizeTypeSpec(p.kind.GetOr("BUY"));
  }

  // --------------------------------------------------- strategy report

  /** A time cell of the export, or the clock reading that stands in for a
      missing one. */
  datatype Moment = Reported(text: string) | Clock(seconds: int)

  /** One row of the Strategy Tester export after its header is
      normalised; None for a column the export lacks. */
  datatype ReportRow = ReportRow(
    kind: Option<string>, tradeNo: Option<int>, price: Option<real>,
    contracts: Option<real>, dateTime: Option<string>, profit: Option<real>)

  /** A position opened by an entry row. */
  datatype Position = Position(tradeType: string, entryPrice: real, volume: real, openTime: Moment)

  /** A trade closed by an exit row. */
  datatype ReportTrade = ReportTrade(
    tradeType: string, entryPrice: real, volume: real, openTime: Moment,
    exitPrice: real, closeTime: Moment, profit: real)

  /** The lower-cased type cell ('' without a type column). */
  function KindText(r: ReportRow): string
  {
    Lower(r.kind.GetOr(""))
  }

  predicate IsEntry(r: ReportRow)
  {
    Contains(KindText(r), "entry")
  }

  /** An exit row; a type mentioning both words counts as an entry. */
  predicate IsExit(r: ReportRow)
  {
    !IsEntry(r) && Contains(KindText(r), "exit")
  }

  /** The trade number, or the row's position in the export without one. */
  function TradeKey(r: ReportRow, idx: int): int
  {
    r.tradeNo.GetOr(idx)
  }

  /** The position an entry row opens: BUY when its type mentions "long",
      SELL otherwise; price 0 and one contract by default. */
  function OpenFrom(r: ReportRow, now: int): (p: Position)
    ensures p.tradeType in {"BUY", "SELL"}
    ensures p.tradeType == "BUY" <==> Contains(KindText(r), "long")
  {
    Position(if Contains(KindText(r), "long") then "BUY" else "SELL",
             r.price.GetOr(0.0), r.contracts.GetOr(1.0),
             if r.dateTime.Some? then Reported(r.dateTime.value) else Clock(now))
  }

  /** The trade an exit row makes of an open position: the position's
      fields, and the exit row's price, time and profit (0 by default). */
  function CloseWith(p: Position, r: ReportRow, now: int): (t: ReportTrade)
    ensures t.tradeType == p.tradeType && t.entryPrice == p.entryPrice && t.volume == p.volume && t.openTime == p.openTime
    ensures t.exitPrice == r.price.GetOr(0.0) && t.profit == r.profit.GetOr(0.0)
  {
    ReportTrade(p.tradeType, p.entryPrice, p.volume, p.openTime, r.price.GetOr(0.0),
                if r.dateTime.Some? then Reported(r.dateTime.value) else Clock(now),
                r.profit.GetOr(0.0))
  }

  /** The loop state: the trades so far and the open positions. */
  datatype Pairing = Pairing(trades: seq<ReportTrade>, open: map<int, Position>)

  /** One row of the loop: an entry row opens (or reopens) its position; an
      exit row closes its position when it is open, removing it, and is
      ignored otherwise; any other row changes nothing. */
  function Step(s: Pairing, idx: int, r: ReportRow, now: int): Pairing
  {
    var key := TradeKey(r, idx);
    if IsEntry(r) then Pairing(s.trades, s.open[key := OpenFrom(r, now)])
    else if IsExit(r) && key in s.open then
      Pairing(s.trades + [CloseWith(s.open[key], r, now)], s.open - {key})
    else s
  }

  /** The state after the rows, in order. */
  function Replay(rows: seq<ReportRow>, now: int): Pairing
    decreases |rows|
  {
    if rows == [] then Pairing([], map[])
    else Step(Replay(rows[..|rows| - 1], now), |rows| - 1, rows[|rows| - 1], now)
  }

  /** `parse_strategy_report_csv` after the export is read. */
  method ParseStrategyReport(rows: seq<ReportRow>, now: int) returns (trades: seq<ReportTrade>)
    ensures trades == Replay(rows, now).trades
  {
    trades := [];
    var openTrades: map<int, Position> := map[];
    var idx := 0;
    while idx < |rows|
      invariant 0 <= idx <= |rows|
      invariant Pairing(trades, openTrades) == Replay(rows[..idx], now)
    {
      assert rows[..idx + 1][..idx] == rows[..idx];
      var row := rows[idx];
      var key := TradeKey(row, idx);
      if IsEntry(row) {
        openTrades := openTrades[key := OpenFrom(row, now)];
      } else if IsExit(row) {
        if key in openTrades {
          var position := openTrades[key];
          openTrades := openTrades - {key};
          trades := trades + [CloseWith(position, row, now)];
        }
      }
      idx := idx + 1;
    }
    assert rows[..idx] == rows;
  }

  // ------------------------------------------------------- properties

  lemma ReplaySnoc(rows: seq<ReportRow>, r: ReportRow, now: int)
    ensures Replay(rows + [r], now) == Step(Replay(rows, now), |rows|, r, now)
  {
    assert (rows + [r])[..|rows|] == rows;
  }

  /** Each exit row adds at most one trade, and each entry row accounts
      for at most one trade or one open position: the trades number no
      more than the exit rows, and trades and open positions together no
      more than the entry rows. */
  lemma {:induction false} ReplayCounts(rows: seq<ReportRow>, now: int)
    ensures |Replay(rows, now).trades| <= |Filter(rows, IsExit)|
    ensures |Replay(rows, now).trades| + |Replay(rows, now).open| <= |Filter(rows, IsEntry)|
    decreases |rows|
  {
    if rows != [] {
      var p := rows[..|rows| - 1];
      var r := rows[|rows| - 1];
      ReplayCounts(p, now);
      assert rows == p + [r];
      FilterSnoc(p, r, IsExit);
      FilterSnoc(p, r, IsEntry);
      var s := Replay(p, now);
      var key := TradeKey(r, |p|);
      if IsEntry(r) {
        assert s.open[key := OpenFrom(r, now)].Keys == s.open.Keys + {key};
        assert |s.open.Keys + {key}| <= |s.open.Keys| + 1;
      } else if IsExit(r) && key in s.open {
        assert (s.open - {key}).Keys == s.open.Keys - {key};
      }
    }
  }

  /** A position is open under a key only if an entry row with that key
      opened it. */
  ghost predicate OpenedBy(rows: seq<ReportRow>, key: int, p: Position, now: int)
  {
    exists i :: 0 <= i < |rows| && IsEntry(rows[i]) && TradeKey(rows[i], i) == key && p == OpenFrom(rows[i], now)
  }

  /** A trade is the position of an entry row closed by a later exit row
      with the same key. */
  ghost predicate ClosedBy(rows: seq<ReportRow>, t: ReportTrade, now: int)
  {
    exists i, j :: 0 <= i < j < |rows| && IsEntry(rows[i]) && IsExit(rows[j])
      && TradeKey(rows[i], i) == TradeKey(rows[j], j) && t == CloseWith(OpenFrom(rows[i], now), rows[j], now)
  }

  /** Every open position was opened by an entry row, and every trade is an
      entry row's position closed by a later exit row with the same key. */
  lemma {:induction false} ReplaySound(rows: seq<ReportRow>, now: int)
    ensures forall k :: k in Replay(rows, now).open ==> OpenedBy(rows, k, Replay(rows, now).open[k], now)
    ensures forall t :: t in Replay(rows, now).trades ==> ClosedBy(rows, t, now)
    decreases |rows|
  {
    if rows != [] {
      var p := rows[..|rows| - 1];
      var r := rows[|rows| - 1];
      var n := |p|;
      ReplaySound(p, now);
      var s := Replay(p, now);
      var s' := Replay(rows, now);
      var key := TradeKey(r, n);
      forall k | k in s'.open ensures OpenedBy(rows, k, s'.open[k], now) {
        if IsEntry(r) && k == key {
          assert IsEntry(rows[n]) && TradeKey(rows[n], n) == k;
        } else {
          assert k in s.open && s'.open[k] == s.open[k];
          OpenedByPrefix(rows, n, k, s.open[k], now);
        }
      }
      forall t | t in s'.trades ensures ClosedBy(rows, t, now) {
        if t in s.trades {
          ClosedByPrefix(rows, n, t, now);
        } else {
          assert !IsEntry(r) && IsExit(r) && key in s.open && t == CloseWith(s.open[key], r, now);
          assert OpenedBy(p, key, s.open[key], now);
          var i :| 0 <= i < n && IsEntry(p[i]) && TradeKey(p[i], i) == key && s.open[key] == OpenFrom(p[i], now);
          assert rows[i] == p[i] && rows[n] == r;
        }
      }
    }
  }

  /** What a prefix of the export opened, the whole export opened. */
  lemma OpenedByPrefix(rows: seq<ReportRow>, n: nat, k: int, pos: Position, now: int)
    requires n <= |rows| && OpenedBy(rows[..n], k, pos, now)
    ensures OpenedBy(rows, k, pos, now)
  {
    var i :| 0 <= i < n && IsEntry(rows[..n][i]) && TradeKey(rows[..n][i], i) == k && pos == OpenFrom(rows[..n][i], now);
    assert rows[i] == rows[..n][i];
  }

  /** What a prefix of the export closed, the whole export closed. */
  lemma ClosedByPrefix(rows: seq<ReportRow>, n: nat, t: ReportTrade, now: int)
    requires n <= |rows| && ClosedBy(rows[..n], t, now)
    ensures ClosedBy(rows, t, now)
  {
    var p := rows[..n];
    var i, j :| 0 <= i < j < n && IsEntry(p[i]) && IsExit(p[j])
      && TradeKey(p[i], i) == TradeKey(p[j], j) && t == CloseWith(OpenFrom(p[i], now), p[j], now);
    assert rows[i] == p[i] && rows[j] == p[j];
  }

  /** An exit row whose key no earlier entry row used adds nothing. */
  lemma UnmatchedExit(rows: seq<ReportRow>, r: ReportRow, now: int)
    requires IsExit(r)
    requires forall i :: 0 <= i < |rows| && IsEntry(rows[i]) ==> TradeKey(rows[i], i) != TradeKey(r, |rows|)
    ensures Replay(rows + [r], now) == Replay(rows, now)
  {
    ReplaySnoc(rows, r, now);
    ReplaySound(rows, now);
  }

  /** An entry row followed by an exit row with the same trade number adds
      exactly one trade, made of the two, and leaves no position open under
      that number. */
  lemma EntryThenExit(rows: seq<ReportRow>, e: ReportRow, x: ReportRow, now: int)
    requires IsEntry(e) && IsExit(x) && e.tradeNo.Some? && x.tradeNo == e.tradeNo
    ensures Replay(rows + [e, x], now).trades == Replay(rows, now).trades + [CloseWith(OpenFrom(e, now), x, now)]
    ensures e.tradeNo.value !in Replay(rows + [e, x], now).open
  {
    ReplaySnoc(rows, e, now);
    ReplaySnoc(rows + [e], x, now);
    assert rows + [e] + [x] == rows + [e, x];
  }

  /** Later rows only append: the trades of a prefix of the export start
      the trades of the whole export, so trades follow their exit rows. */
  lemma {:induction false} ReplayPrefix(rows: seq<ReportRow>, k: nat, now: int)
    requires k <= |rows|
    ensures var a := Replay(rows[..k], now).trades;
      var b := Replay(rows, now).trades;
      |a| <= |b| && b[..|a|] == a
    decreases |rows| - k
  {
    if k < |rows| {
      ReplayPrefix(rows, k + 1, now);
      ReplaySnoc(rows[..k], rows[k], now);
      PrefixStep(rows, k);
      var a := Replay(rows[..k], now).trades;
      var a' := Replay(rows[..k + 1], now).trades;
      assert |a| <= |a'| && a'[..|a|] == a;
    } else {
      assert rows[..k] == rows;
    }
  }
}

=== FILE: wrappers.dfy ===
/** Failure-compatible wrappers shared by every module of the model. */
module Wrappers {
  /** A value that may be absent (Python's None, a nullable column). */
  datatype Option<+T> = None | Some(value: T)
  {
    /** The value, or the default when it is absent (`dict.get(key, default)`). */
    function GetOr(default: T): T
    {
      if Some? then value else default
    }
  }

  /** The outcome of an operation that can fail with an error of type E. */
  datatype Result<+T, +E> = Ok(value: T) | Err(error: E)
}
